=== FILE: README.md ===
# Handicraft shop back end: orders, coupons, accounts and catalog structure

A Dafny model of the business logic inside the Express/Mongoose controllers
of a handicraft marketplace. Each HTTP handler becomes a pure function
from the collections it touches to the collections it leaves behind plus
its response. The response is a `Result` whose error constructors are the
handler's status codes. Collections that are searched with `findOne` are
sequences, and the first match wins. Collections that are only reached by
`_id` are maps.

What the model covers:

- **Orders and the inventory ledger** (`orders.dfy`, `user_orders.dfy`,
  `admin_orders.dfy`, `refunds.dfy`):
  - order creation, with its stock check and stock decrement;
  - the buyer-facing status machine, which only moves forward;
  - the admin panel's unguarded status overwrite, with its seller
    notifications;
  - cancellation with restock, and single delete without restock;
  - the admin bulk delete with restock and its deleted/skipped report;
  - the paging arithmetic of the order listing;
  - the unguarded jump to "Refund Processing".
- **Coupons** (`coupons.dfy`):
  - the schema's setters and defaults;
  - the ordered checks of `applyCoupon`;
  - the flat or percentage discount with `Math.round`;
  - usage recorded at apply time;
  - the activation toggle.
- **Accounts** (`accounts.dfy`, `auth.dfy`, `admin_users.dfy`):
  - the six-digit one-time password;
  - sign-up, verification, resend and login gates;
  - the forgotten-password flow;
  - the mobile one-time-password login;
  - the administrator's listings, cascade delete and block toggle.
- **Catalog structure** (`catalog.dfy`, `product_admin.dfy`,
  `attribute_groups.dfy`, `sub_categories.dfy`, `delivery.dfy`):
  - product creation: required fields, file extensions, tag and status
    normalisation;
  - the whitelisted product update;
  - variant insert, update and delete by index;
  - attribute-group validation, value cleaning and slug de-duplication;
  - sub-category creation with its compensating delete, rename, and
    delete-while-unreferenced;
  - delivery availability merged by pincode.
- **Schemas** (`settings.dfy`, `customize_message.dfy`, and the record
  types above): enumerations, required fields, bounds and defaults.
  Settings are saved as a single document. The customisation message
  schema carries the mobile-number and email validators.

`wrappers.dfy`, `text.dfy` and `collections.dfy` hold shared vocabulary:
- `Option`/`Result`;
- trimming over ECMAScript white space, ASCII case mapping and the
  UTF-16 length that `maxlength` compares;
- decimal rendering and `parseInt` (decimal or `0x` hexadecimal);
- first-match search, filtering, de-duplication and append-if-absent.

Foreign calls are parameters of the functions that make them:
- `slugify`, `ObjectId.isValid` (`validId`, `castable`) and `bcrypt.compare` (`matches`);
- `JSON.parse` (`parseTags`, `parseAttributes`) and the media upload (`upload`, whose answer carries a public id, `url` and `secure_url`);
- `Date.now()` (`now`, in milliseconds);
- the integer part of the `Math.random` product in `generateOtp` (`draw`, below 900000).

## Model

| member | source | states |
|---|---|---|
| `Text.Trim` | Models/Product.js:5-10 | the result has no white space at either end (the ECMAScript set, non-breaking and ideographic spaces and line terminators included) and is the input with only white space cut from both ends |
| `Text.IsHexObjectId` | Controllers/subCategoryController.js:124 | exactly 24 hexadecimal digits, either case |
| `Text.TrimIdempotent` | Models/Product.js:5-10 | trimming a trimmed string changes nothing |
| `Text.TrimEmptyIffBlank` | Models/Product.js:5-17 | the trim is empty exactly when the input is white space only, so `required` after the trimming setter refuses blank titles |
| `Text.Utf16Length` | Models/Product.js:5-16 | the length `maxlength` compares counts UTF-16 code units: between the number of characters and twice it |
| `Text.Utf16LengthOfBmp` | Models/Product.js:5-16 | on text inside the Basic Multilingual Plane it is the number of characters |
| `Text.Utf16LengthOfAstral` | Models/Product.js:5-16 | each character outside the Basic Multilingual Plane counts twice, so 61 emoji exceed 120 |
| `Text.ParseInt` | Controllers/productAdmin/productController.js:366-367 | `parseInt` without a radix: NaN iff no digit follows the optional blanks, sign and `0x`; otherwise the signed value of the longest digit run, read in radix 16 after `0x` or `0X` and in radix 10 otherwise |
| `Text.ParseIntRoundTrip` | Controllers/productAdmin/productController.js:366-367 | every natural number written in decimal parses back to itself |
| `Text.ParseIntOfHex` | Controllers/productAdmin/productController.js:366-367 | `0x` followed by hexadecimal digits parses to their radix-16 value |
| `Text.ParseIntBareHexPrefix` | Controllers/productAdmin/productController.js:366-367 | `0x` with no hexadecimal digit after it is NaN |
| `Text.NatToStringRoundTrip` | Controllers/Auth.js:14-15 | the decimal digits of a number have that number as their value |
| `Accounts.FindById` | Controllers/adminUserController.js:33 | the user with that id when there is one (the first), and none iff no user has it |
| `Accounts.FindByEmail` | Controllers/Auth.js:92 | the first user with that email, and none iff no user has it |
| `Accounts.FindAfterPut` | Controllers/Auth.js:144-161 | writing back the found user with the same email keeps it the first match |
| `Accounts.Put` | Controllers/Auth.js:161 | saving a found user replaces exactly that record |
| `Accounts.FindAfterAppend` | Controllers/Auth.js:34-56 | a user appended with an email nobody held is found at the end |
| `Accounts.OtpExpired` | Controllers/Auth.js:109 | an expiry strictly before now; an absent expiry never expires |
| `Accounts.OtpMatches` | Controllers/Auth.js:101 | the stored password equals the one supplied; a cleared one never matches |
| `Orders.ParseStatus` | Controllers/userOrderController.js:290-296 | a status string is read back only when it names one of the six statuses, including "Refund Processing" |
| `Orders.StatusRoundTrip` | Controllers/userOrderController.js:290-296 | every status's stored name parses back to that status |
| `Orders.Rank` | Controllers/userOrderController.js:290-300 | `indexOf` in the forward chain Processing, Shipped, Delivered: -1 exactly for a status outside it |
| `Orders.Decrement` | Controllers/userOrderController.js:86-89 | one `$inc` per line: every product loses exactly the summed quantity of its lines, and nothing else about any product changes |
| `Orders.Restock` | Controllers/userOrderController.js:228-235 | every product regains exactly the summed quantity of its lines, and nothing else changes |
| `Orders.RestockUndoesDecrement` | Controllers/userOrderController.js:86-89 | restocking an order's lines after decrementing them gives back the original products |
| `Orders.RestockConcat` | Controllers/adminOrderController.js:221-252 | restocking two batches one after the other equals restocking their concatenation |
| `Orders.QuantityOfAppend` | Controllers/userOrderController.js:86-89 | the quantity a product is ordered in splits over a concatenation of lines |
| `Orders.CancelledOrder` | Controllers/userOrderController.js:225-227 | the cancelled order is Cancelled, payment Failed, with no delivery date, and every other field is kept |
| `Orders.Shift` | Controllers/userOrderController.js:86-89 | one `$inc`: only the named product's stock moves, by exactly delta, and every listing is kept |
| `Orders.MayAct` | Controllers/userOrderController.js:160-163 | the buyer of an order or an admin may act on it |
| `UserOrders.CheckRequest` | Controllers/userOrderController.js:13-19 | an empty or missing item list is refused first, then a missing shipping info, payment method or total |
| `UserOrders.CheckLines` | Controllers/userOrderController.js:22-30 | the first uncovered line decides the error (404 for a missing product, 400 for short stock); no error iff every line's product holds at least that line's quantity |
| `UserOrders.CheckTotals` | Controllers/userOrderController.js:22-30 | no error iff every product holds at least the summed quantity of its lines |
| `UserOrders.Snapshot` | Controllers/userOrderController.js:46-61 | the address snapshot copies the buyer, names, phone, street, city, state and postal code as sent, defaults apartment and landmark to "", type to "Home", copies the street as address line, and is neither default nor archived |
| `UserOrders.NewOrder` | Controllers/userOrderController.js:64-74 | the new order is in Processing and undelivered; it keeps the payment method sent and is paid and its payment Completed iff the method is "Online"; the lines and amounts are stored as sent |
| `UserOrders.Place` | Controllers/userOrderController.js:46-89 | the address and the order are written first; a missing buyer answers 404 with both left written and no stock touched; otherwise the buyer's list gains the order and the stock drops by the lines |
| `UserOrders.CreateOrderAsWritten` | Controllers/userOrderController.js:9-104 | any refused check writes nothing; a complete request whose every line is covered on its own is placed exactly as `Place` writes it, so an accepted order decrements the stock |
| `UserOrders.CreateOrder` | Controllers/userOrderController.js:9-104 | the corrected create: a complete request whose every product covers its summed quantity is placed exactly as `Place` writes it, any other request is refused with nothing written, and non-negative stock stays non-negative |
| `UserOrders.CreateAcceptsCovered` | Controllers/userOrderController.js:9-104 | a complete request by a known buyer with every summed quantity covered is accepted under the new id, stores its lines and takes exactly those quantities from the stock |
| `UserOrders.CreateIsPlace` | Controllers/userOrderController.js:46-89 | an accepted create is a complete request whose result is the write step |
| `UserOrders.DecrementKeepsNonNegative` | Models/Product.js:104-109 | taking summed quantities that the stock covers keeps every stock at zero or above |
| `UserOrders.OverdrawCounterexample` | Controllers/userOrderController.js:22-30 | two lines of 3 against a stock of 5 are accepted as written and leave stock -1; the corrected check refuses them and writes nothing |
| `UserOrders.GetSingleOrder` | Controllers/userOrderController.js:135-182 | succeeds iff the id is well formed, the order exists, its buyer still exists and the requester is that buyer or an admin; otherwise 400 for a malformed id, 404 for an unknown order, 500 for a vanished buyer and 403 for anyone else |
| `UserOrders.CancelOrder` | Controllers/userOrderController.js:184-249 | succeeds iff the order exists, the requester is owner or admin, and it is neither Delivered nor Cancelled; then the order is cancelled and exactly its lines are restocked; a refusal writes nothing |
| `UserOrders.CancelFresh` | Controllers/userOrderController.js:184-235 | an order still Processing is cancelled by its buyer or an admin, and exactly its lines go back to the stock |
| `UserOrders.UpdateOrderStatus` | Controllers/userOrderController.js:251-332 | admins only; accepted iff the order is not final, the new status is in the forward chain and strictly after the current one; Delivered also stamps the time and marks the order paid, any other move changes only the status |
| `UserOrders.UpdateIsForwardOnly` | Controllers/userOrderController.js:281-306 | an accepted update strictly raises the rank, and from "Refund Processing" every chain status is accepted |
| `UserOrders.AcceptedBounded` | Controllers/userOrderController.js:257-306 | any sequence of update requests is accepted at most 2 - rank times for one order |
| `UserOrders.DeleteOrder` | Controllers/userOrderController.js:366-421 | succeeds iff the order exists, the requester is owner or admin and it is not Delivered; the order is removed and no stock or user changes |
| `UserOrders.DeliveredNeverDeleted` | Controllers/userOrderController.js:388-408 | a delivered order survives every delete request |
| `UserOrders.CancelRestoresStock` | Controllers/userOrderController.js:206-235 | cancelling an order just placed gives every product back its stock from before the order |
| `AdminOrders.SellerList` | Controllers/adminOrderController.js:167-170 | a seller is listed iff some line's product still exists and was created by them |
| `AdminOrders.Sellers` | Controllers/adminOrderController.js:167-170 | the same sellers without repetition |
| `AdminOrders.Notify` | Controllers/adminOrderController.js:172-180 | one notification per recipient, in order, each about the order and from the sender |
| `AdminOrders.NotifyReaches` | Controllers/adminOrderController.js:172-180 | the notifications reach exactly the recipients, and distinct recipients get one each |
| `AdminOrders.UpdateStatus` | Controllers/adminOrderController.js:109-195 | accepted iff both fields are given, the order exists, the status is one of the five and the buyer exists; the status is overwritten from any status, the delivery time is set only for Delivered, stock and payment are untouched; the buyer and each distinct seller get one notification |
| `AdminOrders.EachSellerNotifiedOnce` | Controllers/adminOrderController.js:158-180 | a seller is notified iff they created a product of the order, and no seller is notified twice |
| `AdminOrders.PanelReopensDelivered` | Controllers/adminOrderController.js:145-156 | the panel moves a Delivered order back to Processing and keeps its delivery time |
| `AdminOrders.PanelCancelKeepsStock` | Controllers/adminOrderController.js:145-156 | cancelling from the panel restores no stock and keeps the payment status |
| `AdminOrders.IdList` | Controllers/adminOrderController.js:206-213 | a non-empty single id becomes a one-element list, a non-empty list is kept, anything else is refused |
| `AdminOrders.Completed` | Controllers/adminOrderController.js:233-240 | the number of lines the restock loop completes; all of them only if every product exists or the loop is guarded |
| `AdminOrders.CompletedStops` | Controllers/adminOrderController.js:233-240 | the loop stops exactly at the first line whose product is gone |
| `AdminOrders.DeleteEach` | Controllers/adminOrderController.js:221-252 | deleted and skipped together are a permutation of the ids, and users and addresses are untouched |
| `AdminOrders.DeletedIds` | Controllers/adminOrderController.js:221-252 | a completed batch deletes only orders that existed, each once |
| `AdminOrders.DeleteEachOrders` | Controllers/adminOrderController.js:221-252 | a completed batch removes exactly the deleted orders, and a skipped id names no remaining order |
| `AdminOrders.DeleteEachStock` | Controllers/adminOrderController.js:221-252 | after a completed batch every product has got back exactly the quantities of the deleted orders' lines |
| `AdminOrders.DeleteOrdersAsWritten` | Controllers/adminOrderController.js:200-264 | 400 for no ids before 403 for a non-admin, then the unguarded loop |
| `AdminOrders.DeleteOrders` | Controllers/adminOrderController.js:200-264 | the corrected bulk delete: whatever the orders' status or payment, it partitions the ids, removes exactly the deleted orders and restocks exactly their lines |
| `AdminOrders.RestockKeepsValid` | Controllers/adminOrderController.js:233-240 | giving back non-negative quantities keeps every product valid |
| `AdminOrders.GuardedRestockCompletes` | Controllers/adminOrderController.js:233-240 | on valid products the guarded restock loop completes every line of non-negative quantity |
| `AdminOrders.GuardedDeleteCompletes` | Controllers/adminOrderController.js:221-252 | on valid products and orders without negative lines the guarded loop always completes, deleting exactly the listed ids that name an order |
| `AdminOrders.DeleteOrdersCompletes` | Controllers/adminOrderController.js:200-264 | an administrator's request with ids always completes on such a store: every listed id that names an order is deleted, every other one skipped |
| `AdminOrders.NullProductCounterexample` | Controllers/adminOrderController.js:233-240 | as written, a batch whose second order names a deleted product answers 500 with the first order gone and the second kept |
| `AdminOrders.NullProductGuarded` | Controllers/adminOrderController.js:233-240 | the guarded loop deletes both orders of that batch |
| `AdminOrders.StoppedPair` | Controllers/adminOrderController.js:221-252 | as written, a batch of two ids whose first order deletes and whose second stops the loop answers 500 with the first order gone and the second kept |
| `AdminOrders.GuardedPair` | Controllers/adminOrderController.js:221-252 | in the guarded loop, a batch of two ids whose first order restocks fully and whose second deletes on its own deletes both |
| `AdminOrders.Paging` | Controllers/adminOrderController.js:16-72 | skip is (page - 1) * limit with page 1 and limit 10 by default; the direction is 1 iff the sort order is "asc", else -1 |
| `AdminOrders.PageCount` | Controllers/adminOrderController.js:94-97 | the page count is the least n with n * limit >= total; no number for a zero limit |
| `AdminOrders.Window` | Controllers/adminOrderController.js:88-90 | a negative skip is refused; otherwise the page is the slice of the sorted orders starting at skip, holding exactly the limit's absolute value of them, or every order after skip when the limit is 0 or runs past the end; empty past the end |
| `AdminOrders.PagesCover` | Controllers/adminOrderController.js:67-97 | reading pages 1 to the page count returns every order exactly once, in order |
| `Refunds.NewRefund` | Models/Refund.js:4-34 | the record is valid iff the three references and both reasons are non-empty; feedback is optional and the creation time defaults to now |
| `Refunds.RequestRefund` | Controllers/returnRefundController.js:4-46 | 404 unless the order is the requester's, 400 for an order without lines, both writing nothing; otherwise the status becomes "Refund Processing" first, and the record naming the first line's product is stored only if valid, else 500 with the status already changed |
| `Refunds.RefundFromAnyStatus` | Controllers/returnRefundController.js:22-24 | any order of the requester with a line, Delivered and Cancelled included, ends in "Refund Processing" |
| `Refunds.RefundReopensCancelled` | Controllers/returnRefundController.js:22-24 | a cancelled order that the forward-only update refuses is accepted by it after a refund request |
| `Coupons.ParseDiscountType` | Models/Coupon.js:13-17 | exactly "flat" and "percentage" are discount types |
| `Coupons.NormalCode` | Models/Coupon.js:5-11 | the setters' code has no white space at either end and is upper-cased; queries go through it as stored codes do |
| `Coupons.CreateCoupon` | Models/Coupon.js:5-57 | created iff the trimmed upper-cased code is non-empty and unused, the type is known, the value is non-negative and both dates are given; the code is stored normalised, the minimum defaults to 0, activity to true and the usage list to the one sent, else empty; unique codes stay unique |
| `Coupons.RoundHundredth` | Controllers/couponController.js:116-122 | the rounded value is within half a unit of x / 100 |
| `Coupons.Discount` | Controllers/couponController.js:110-123 | flat coupons give their value; percentages give the rounded share of the amount, and none without an amount; nothing caps it |
| `Coupons.PercentageBounds` | Controllers/couponController.js:110-123 | a percentage of at most 100 stays within the amount; one above 100 can exceed it |
| `Coupons.FindActive` | Controllers/couponController.js:74-83 | the first active coupon whose code is the queried key; none iff no active coupon has it |
| `Coupons.CreatedCodeFinds` | Controllers/couponController.js:74-77 | a coupon just created is found, while active, by any spelling of its code that the setters normalise to the stored code |
| `Coupons.ApplyCoupon` | Controllers/couponController.js:69-134 | the checks in order (code, an active coupon under the setter-normalised code, start, expiry, minimum amount, prior use), both date bounds inclusive; a request passing all of them is accepted with the coupon's discount and appends the user's use at now, and only acceptance writes |
| `Coupons.UsedBy` | Controllers/couponController.js:101-103 | a user has used a coupon when some usage entry names them |
| `Coupons.ApplyOnce` | Controllers/couponController.js:101-128 | right after an accepted apply the same request is refused as already used and writes nothing |
| `Coupons.CouponToggle` | Controllers/couponController.js:138-162 | 404 iff no coupon has the id; otherwise only that coupon's activity flips |
| `Coupons.ToggleTwice` | Controllers/couponController.js:143-152 | toggling twice restores the coupons |
| `Coupons.ToggleKeepsValid` | Controllers/couponController.js:143-152 | toggling keeps every coupon valid and the codes unique |
| `Auth.GenerateOtp` | Controllers/Auth.js:14-15 | six decimal digits without a leading zero whose value is 100000 + draw |
| `Auth.OtpValue` | Controllers/Auth.js:14-15 | the six-digit password parses back to 100000 + draw |
| `Auth.OtpDistinct` | Controllers/Auth.js:14-15 | different draws give different passwords |
| `Auth.Signup` | Controllers/Auth.js:18-78 | refused with nothing written unless every field is given, the passwords match and the email is new; the user is appended unverified and active, with a password that lives five minutes; emails stay unique |
| `Auth.VerifyOtp` | Controllers/Auth.js:82-130 | 400 for missing fields, 404 for an unknown email; a wrong password is refused before the expiry is looked at; a right but expired one deletes the user; otherwise the user is verified and the pair cleared |
| `Auth.SignupThenVerify` | Controllers/Auth.js:18-130 | entering the mailed password within five minutes of signing up verifies exactly the new user |
| `Auth.VerifyOnce` | Controllers/Auth.js:92-121 | after a verification every further password is refused and nothing is written |
| `Auth.ReSendOtp` | Controllers/Auth.js:134-179 | a known unverified user gets a fresh password for five minutes and nothing else changes; a verified user is refused |
| `Auth.ResendReplaces` | Controllers/Auth.js:152-161 | after a resend the new password verifies and a different old one is refused |
| `Auth.Login` | Controllers/Auth.js:183-257 | the gates in order: missing fields 400, unknown 404, unverified 403, blocked 403, wrong password 401, else the user; nothing is written |
| `Auth.BlockedBeforePassword` | Controllers/Auth.js:187-247 | a blocked user gets the same answer whatever password they give |
| `Auth.SignupNeedsVerification` | Controllers/Auth.js:18-257 | a freshly signed-up user cannot log in until verified |
| `Auth.ForgotPassword` | Controllers/Auth.js:389-428 | a known user gets a fresh password for five minutes, verified or not; an unknown email is refused with nothing written |
| `Auth.VerifyForgotPasswordOtp` | Controllers/Auth.js:470-517 | a wrong or expired password is refused without deleting anyone; success clears only the password pair |
| `Auth.ForgotThenVerify` | Controllers/Auth.js:389-517 | right after a forgot request, the mailed password verifies within five minutes, and the two steps together change only the user's password pair, which ends cleared |
| `Auth.ResetPassword` | Controllers/Auth.js:430-468 | succeeds iff all four fields are given, the passwords match and the email is known; both stored passwords become the new hash |
| `Auth.ResetIgnoresOtp` | Controllers/Auth.js:434-457 | any non-empty one-time password resets a known user's password, whatever is stored |
| `Auth.ResetThenLogin` | Controllers/Auth.js:430-468 | after a reset a verified, active user logs in with the new password |
| `Auth.SendOtpAsWritten` | Controllers/Auth.js:260-297 | an unknown number fails with 500 and no record is created; a known number's record gets a fresh five-minute password, and nothing else changes |
| `Auth.SendOtp` | Controllers/Auth.js:260-297 | the corrected send always succeeds for a given number: a known number is treated as the original treats it, and an unknown one is appended as a user record holding the fresh password, with every other record kept |
| `Auth.Register` | Controllers/Auth.js:258-278 | the record the corrected send works on: a known number's records as they are, otherwise an appended user record with no password, so the number is then found |
| `Auth.VerifyOtpAndLogin` | Controllers/Auth.js:300-363 | 400 for missing fields, 404 for an unknown number, 400 for a wrong or expired password with nothing written; success clears the pair and logs in as a User |
| `Auth.FindByMobile` | Controllers/Auth.js:310 | the first record with that number, and none iff no record has it |
| `Auth.ParseRole` | Controllers/Auth.js:20-52 | exactly "User", "Seller" and "Admin" name roles |
| `Auth.SendThenLogin` | Controllers/Auth.js:260-363 | after the corrected send, the texted password logs any number in within five minutes |
| `Auth.UnknownMobileCounterexample` | Controllers/Auth.js:271-278 | as written a new number gets 500 from the send, while the corrected send succeeds |
| `Catalog.ParseProductStatus` | Models/Product.js:177-181 | exactly "Pending", "Approved" and "Rejected" are statuses |
| `Catalog.ProductStatusRoundTrip` | Models/Product.js:177-181 | every status's name parses back to it |
| `Catalog.ValidProduct` | Models/Product.js:5-109 | the validators behind every product save: both titles present and at most 120 UTF-16 code units, a description, non-negative prices and stock, valid variants and present attribute names; the castable ObjectId checks of `category` and `subCategory` are made by the handlers before saving |
| `Catalog.TrimAttributesIdempotent` | Models/Product.js:60-70 | the attribute setters applied twice are applied once |
| `Catalog.TrimAttributes` | Models/Product.js:60-70 | every attribute passes through the trimming setters, positions kept |
| `ProductAdmin.Extension` | Controllers/productAdmin/productController.js:91-92 | the extension is dot-free and lower-cased |
| `ProductAdmin.ExtensionOfName` | Controllers/productAdmin/productController.js:91-92 | a name stem.ext with a dot-free ext has extension ext lower-cased, whatever dots the stem holds |
| `ProductAdmin.FirstUnsupported` | Controllers/productAdmin/productController.js:104-112 | none iff every extension is supported; otherwise the first unsupported one |
| `ProductAdmin.NormaliseStatus` | Controllers/productAdmin/productController.js:149-150 | a requested status is kept iff it names one, otherwise Pending |
| `ProductAdmin.ParseTags` | Controllers/productAdmin/productController.js:48-57 | a string is parsed with [] on failure, an array is kept, anything else is [] |
| `ProductAdmin.NewProduct` | Controllers/productAdmin/productController.js:153-175 | the built product has trimmed titles, the description, category and sub-category as sent, the flags as sent or the defaults (stock 3, material "Mixed", handmade, not featured, not trending), normalised tags and status, the uploads and the creator |
| `ProductAdmin.UploadMedia` | Controllers/productAdmin/productController.js:104-143 | images are checked before videos and the first unsupported file is named; succeeds iff every file's type is supported, and then the media are the images' uploads followed by the videos', each keeping the host's `secure_url` |
| `ProductAdmin.Uploads` | Controllers/productAdmin/productController.js:112-122 | one record per file, in order, with the upload's public id, the URL the handler keeps and the kind |
| `ProductAdmin.Save` | Models/Product.js:24-109 | saved iff the product is valid; only that product changes |
| `ProductAdmin.CreateProduct` | Controllers/productAdmin/productController.js:24-191 | the required fields and an image (400), where a multipart price of "0" counts as present; then category and sub-category ids that cast (otherwise the lookup throws, 500) and name existing records (400); then the file types (400); then save (500); stored iff all pass, and then exactly the built product is added under the new id |
| `ProductAdmin.CreateAcceptsWellFormed` | Controllers/productAdmin/productController.js:24-191 | a well-formed request with an image, castable known categories and supported files is stored, as the built document |
| `ProductAdmin.NewProductValid` | Models/Product.js:4-109 | the document built from a well-formed request passes the schema's validators |
| `ProductAdmin.ApplyPatch` | Controllers/productAdmin/productController.js:235-257 | refused iff the status names none or a given category or sub-category does not cast; otherwise each defined whitelisted field takes the sent value (titles and attribute names trimmed) and every other field, variants, images and creator included, keeps its value |
| `ProductAdmin.ApplyPatchIdempotent` | Controllers/productAdmin/productController.js:235-257 | assigning an accepted patch a second time changes nothing |
| `ProductAdmin.PatchFixpoint` | Controllers/productAdmin/productController.js:235-257 | a product that already holds every value a patch assigns is left as it is by it |
| `ProductAdmin.Gallery` | Controllers/productAdmin/productController.js:259-282 | with files, the gallery becomes their uploads keeping the host's `url`; without, the product is unchanged |
| `ProductAdmin.UpdateProduct` | Controllers/productAdmin/productController.js:221-300 | 404 for an unknown product and 500 for every other refusal; succeeds iff the patch applies and the patched product with its new gallery is valid, and then exactly that product is replaced by it |
| `ProductAdmin.UpdateProductIdempotent` | Controllers/productAdmin/productController.js:221-300 | sending the same update twice leaves what the first one left |
| `ProductAdmin.GalleryOverPatch` | Controllers/productAdmin/productController.js:235-282 | a patch that fixes a product also fixes it after its gallery is replaced |
| `ProductAdmin.EmptyPatchIsIdentity` | Controllers/productAdmin/productController.js:235-257 | an empty patch without files leaves a valid product unchanged |
| `ProductAdmin.VariantIndex` | Controllers/productAdmin/productController.js:366-372 | an index is accepted iff `parseInt` of the text, in radix 16 after `0x` and radix 10 otherwise, is a number within the list, and it is that number |
| `ProductAdmin.VariantIndexRoundTrip` | Controllers/productAdmin/productController.js:366-391 | every position written in decimal reads back as itself |
| `ProductAdmin.VariantIndexHex` | Controllers/productAdmin/productController.js:366-372 | `0x` and hexadecimal digits address the variant at their radix-16 value, so "0x1" is the second variant |
| `ProductAdmin.VariantIndexBareHex` | Controllers/productAdmin/productController.js:366-372 | `0x` without a hexadecimal digit after it addresses no variant |
| `ProductAdmin.NewAttributes` | Controllers/productAdmin/productController.js:366-391 | absent or empty attributes leave the list alone, an array is used, a string is parsed and a parse failure is an error |
| `ProductAdmin.PatchVariant` | Controllers/productAdmin/productController.js:366-391 | only the given price, discounted price, stock, sku, attributes and images change |
| `ProductAdmin.PatchVariantIdempotent` | Controllers/productAdmin/productController.js:377-407 | patching a patched variant again with the same values changes nothing |
| `ProductAdmin.ReplaceVariant` | Controllers/productAdmin/productController.js:374-409 | only the variant at the index changes, to the given one, and the product is otherwise kept |
| `ProductAdmin.VariantMedia` | Controllers/productAdmin/productController.js:393-407 | with files, the variant's images become their uploads keeping the host's `url`; without, none are assigned |
| `ProductAdmin.UpdateProductVariant` | Controllers/productAdmin/productController.js:354-424 | 404 for an unknown product, then 400 for an index outside the list, then 500 for unparsable attributes; succeeds iff the product with the addressed variant patched is valid, and then exactly that variant is replaced by the patched one |
| `ProductAdmin.UpdateVariantIdempotent` | Controllers/productAdmin/productController.js:354-424 | sending the same variant update twice leaves what the first one left |
| `ProductAdmin.CreateProductVariant` | Controllers/productAdmin/productController.js:426-488 | unparsable attributes are a 500 before the lookup, then 404 for an unknown product; succeeds iff the product with the new variant appended is valid, and then exactly that variant is appended and the others are kept in order |
| `ProductAdmin.CreationAttributes` | Controllers/productAdmin/productController.js:430-433 | a string is parsed (none when that throws), an array is used, an absent field is the empty list |
| `ProductAdmin.NewVariant` | Controllers/productAdmin/productController.js:461-469 | attributes through the trimming setters, price and stock as sent, discounted price 0 and sku "" when falsy, and the uploads keeping the host's `url` |
| `ProductAdmin.DeleteProductVariant` | Controllers/productAdmin/productController.js:490-548 | exactly the variant at the index is removed and the rest are kept in order |
| `ProductAdmin.DeleteUndoesCreate` | Controllers/productAdmin/productController.js:462-531 | deleting the variant just created, by its index, restores the catalog |
| `ProductAdmin.DeleteAppended` | Controllers/productAdmin/productController.js:490-531 | deleting, by its index, the variant appended last restores the catalog |
| `AttributeGroups.ParseDisplayType` | Models/AttributeGroup.js:35-40 | exactly "dropdown", "radio" and "checkbox" are display types |
| `AttributeGroups.CleanValues` | Controllers/attribute/attributeGroupController.js:171-173 | a value is kept iff it is the trim of some input value and non-empty; every kept value is non-empty with no edge spaces |
| `AttributeGroups.CleanValuesIdempotent` | Controllers/attribute/attributeGroupController.js:171-173 | cleaning a cleaned list changes nothing |
| `AttributeGroups.CreateGroup` | Controllers/attribute/attributeGroupController.js:6-91 | in order: 400 without name, display name or type; 500 for a sub-category that does not cast and 400 for an unknown one; 409 for a taken trimmed name; 400 for values that are not non-blank strings; otherwise the built group is stored when its type parses and `save` accepts it, and ids, names and slugs stay unique |
| `AttributeGroups.BuiltGroup` | Controllers/attribute/attributeGroupController.js:67-77 | the created document: trimmed name, display name and values, the slug of the name, flags defaulting to true, published, the requester as creator |
| `AttributeGroups.CreateTwiceRefused` | Controllers/attribute/attributeGroupController.js:37-44 | after an accepted create, the same body is refused with 409 under any fresh id |
| `AttributeGroups.StoreGroup` | Models/AttributeGroup.js:5-58 | stored iff the group is valid and its slug is free; the collection stays indexed |
| `AttributeGroups.FreeSuffix` | Controllers/attribute/attributeGroupController.js:145-162 | the returned suffix gives a free candidate, and every smaller suffix tried gives a taken one |
| `AttributeGroups.UniqueSlug` | Controllers/attribute/attributeGroupController.js:145-162 | the base slug when free, otherwise base-n for the least n that no other group holds |
| `AttributeGroups.UpdateGroup` | Controllers/attribute/attributeGroupController.js:123-190 | 404 for an unknown group; otherwise accepted iff the display type parses, the values are strings, a given sub-category casts, the patched group is valid and a new name is not held elsewhere; then exactly that group becomes the patched group, the others are kept and the collection stays indexed |
| `AttributeGroups.PatchKind` | Controllers/attribute/attributeGroupController.js:168 | a given display type is parsed, otherwise the stored one is kept |
| `AttributeGroups.PatchGroup` | Controllers/attribute/attributeGroupController.js:144-173 | the given fields are assigned (name and display name trimmed, values cleaned) and id, creator and published are kept |
| `AttributeGroups.UpdateGroupIdempotent` | Controllers/attribute/attributeGroupController.js:123-190 | sending the same update twice leaves what the first one left |
| `AttributeGroups.EmptyPatchKeepsGroup` | Controllers/attribute/attributeGroupController.js:164-168 | an update with no fields leaves the collection as it was |
| `AttributeGroups.TogglePublished` | Controllers/attribute/attributeGroupController.js:273-298 | 404 for an unknown group; otherwise only its published flag flips |
| `AttributeGroups.ToggleTwice` | Controllers/attribute/attributeGroupController.js:283 | toggling twice restores the collection |
| `Delivery.ParseDeliveryType` | Models/DeliveryAvailability.js:24-36 | exactly "oneDay" and "standard" are delivery types |
| `Delivery.NewRecord` | Controllers/deliveryAvailabilityController.js:70-78 | a new pincode's record stores the product ids and the converted options as given, duplicates included; areas as sent, a single non-empty string wrapped into a one-element list, and [] when absent or empty; availability defaulting to true |
| `Delivery.Merge` | Controllers/deliveryAvailabilityController.js:42-66 | the old products are a prefix of the new, the new ones are exactly old plus sent, and no duplicate is added; areas likewise only when an array is sent; the options are replaced and availability overwritten |
| `Delivery.MergeInOrder` | Controllers/deliveryAvailabilityController.js:45-60 | the merged ids are the stored ones followed by the sent ids not yet stored, each at its first appearance in the order sent; the same for areas sent as an array |
| `Collections.AppendAbsentInOrder` | Controllers/deliveryAvailabilityController.js:46-50 | pushing each sent element that is not yet included appends the first occurrences of the new elements, in order |
| `Delivery.SetDeliveryAvailability` | Controllers/deliveryAvailabilityController.js:5-85 | accepted iff the lists are non-empty, the pincode is given, every option is valid and every product id casts (else 400, 400, 500); a known pincode's record is merged in place and others kept, otherwise a record is appended; unique pincodes stay unique |
| `Delivery.SetDeliveryIdempotent` | Controllers/deliveryAvailabilityController.js:42-78 | sending the same request twice leaves what the first left |
| `Delivery.GetDeliveryByPincode` | Controllers/deliveryAvailabilityController.js:109-147 | both fields required; 500 for a product id that does not cast; otherwise found iff some record at the pincode lists the product, and then the first such record |
| `Delivery.SetThenGet` | Controllers/deliveryAvailabilityController.js:5-147 | after an accepted set, every product sent is deliverable at that pincode |
| `SubCategories.CreateSubCategoryAsWritten` | Controllers/subCategoryController.js:9-57 | a category id that cannot be cast answers 500 with the new sub-category still stored |
| `SubCategories.OrphanCounterexample` | Controllers/subCategoryController.js:28-38 | the category id "abc" leaves a sub-category that no category lists |
| `SubCategories.CreateSubCategory` | Controllers/subCategoryController.js:9-57 | the corrected create: every refusal leaves both collections unchanged; on success the sub-category is stored and linked from its category; no orphans and unique names are preserved |
| `SubCategories.UpdateSubCategory` | Controllers/subCategoryController.js:118-169 | 400 for a malformed id, 404 for an unknown one; for a known one, refused (400) iff a different given name is taken, otherwise accepted; a different name re-derives the slug, and otherwise nothing changes; unique names are preserved |
| `SubCategories.UpdateSubCategoryIdempotent` | Controllers/subCategoryController.js:140-154 | sending the same rename twice leaves what the first one left |
| `SubCategories.DeleteSubCategory` | Controllers/subCategoryController.js:171-219 | deleted iff the id is well formed, known and named by no product, with the number of using products otherwise; products keep naming existing sub-categories |
| `SubCategories.DeleteLeavesLink` | Controllers/subCategoryController.js:204-205 | after a delete the category still lists the removed id |
| `SubCategories.TogglePublish` | Controllers/subCategoryController.js:220-247 | 404 iff the id is unknown; otherwise only published flips |
| `SubCategories.ToggleTwice` | Controllers/subCategoryController.js:231 | toggling twice restores both collections |
| `AdminUsers.Hide` | Controllers/adminUserController.js:10 | the view keeps every field except the two passwords |
| `AdminUsers.HideForgetsOnlyPasswords` | Controllers/adminUserController.js:10 | two accounts that differ only in their passwords have the same view |
| `AdminUsers.GetAllUsers` | Controllers/adminUserController.js:7-24 | every user, in order, without passwords |
| `AdminUsers.ListRole` | Controllers/adminUserController.js:90-150 | a view is listed iff it belongs to a user of that role |
| `AdminUsers.OfRole` | Controllers/adminUserController.js:92 | the query by account type: exactly the users of the role, none added |
| `AdminUsers.ListRoleIsFind` | Controllers/adminUserController.js:90-150 | the listing is the query's result, every user of the role once in store order, with the passwords hidden |
| `AdminUsers.GetSellers` | Controllers/adminUserController.js:92 | every seller's view is listed, and every listed view is some seller's view; the listing is the query's sellers, each once, in store order, passwords hidden |
| `AdminUsers.GetBuyers` | Controllers/adminUserController.js:113 | every buyer's view is listed, and every listed view is some buyer's view; the listing is the query's buyers, each once, in store order, passwords hidden |
| `AdminUsers.GetAllAdmin` | Controllers/adminUserController.js:134 | every admin's view is listed, and every listed view is some admin's view; the listing is the query's admins, each once, in store order, passwords hidden |
| `AdminUsers.RoleListingsCover` | Controllers/adminUserController.js:90-150 | every user appears in one of the three listings |
| `AdminUsers.GetUserById` | Controllers/adminUserController.js:28-47 | the id is read from the body: without a string, `match` throws and no response is set; 400 unless it is 24 hexadecimal digits, 404 for an unknown one; otherwise that user's view |
| `AdminUsers.DeleteUser` | Controllers/adminUserController.js:49-87 | 404 with nothing changed for an unknown user; otherwise exactly their orders and reviews go, then the account; stock is not restored |
| `AdminUsers.DeleteUserLeavesNothing` | Controllers/adminUserController.js:54-74 | with unique ids no account, order or review of the user remains |
| `AdminUsers.BlockOrUnblock` | Controllers/adminUserController.js:154-201 | 400 for a malformed id, 404 for an unknown one; otherwise only that user's activity flips |
| `AdminUsers.BlockTwice` | Controllers/adminUserController.js:177 | blocking twice restores the users |
| `AdminUsers.BlockThenLogin` | Controllers/adminUserController.js:177 | a blocked user is refused login as blocked, whatever password they give |
| `SiteSettings.GetSettings` | Controllers/settingsController.js:3-6 | the first document, and none iff there is none |
| `SiteSettings.Defaults` | Models/Settings.js:5-57 | absent keys take the schema defaults ("Handicraft Bazaar", "10:00 AM", "7:00 PM", empty items) |
| `SiteSettings.Overwrite` | Controllers/settingsController.js:15-23 | the keys given overwrite, the others stay |
| `SiteSettings.SaveSettings` | Controllers/settingsController.js:8-25 | missing email, phone or address refuses before any query; a first save creates, later saves overwrite the first document; accepted iff the validators pass; a singleton stays a singleton and valid settings stay valid |
| `SiteSettings.SaveIdempotent` | Controllers/settingsController.js:15-23 | saving the same data twice leaves what the first save left |
| `SiteSettings.SaveThenGet` | Controllers/settingsController.js:3-23 | what a save stores is what the next read returns |
| `CustomizeMessages.NormaliseEmail` | Models/CustomizeMessage.js:15-21 | the stored email has no edge spaces and is lower-cased |
| `CustomizeMessages.SettersCommute` | Models/CustomizeMessage.js:15-21 | trimming and lower-casing commute |
| `CustomizeMessages.Validate` | Models/CustomizeMessage.js:5-39 | accepted iff the name is not blank, the mobile number is ten digits, the normalised email matches and both image fields are given; the name is trimmed, the email normalised, link and message trimmed when given |
| `CustomizeMessages.EmailAccepts` | Models/CustomizeMessage.js:15-21 | every local@label.tld with a two- to four-character tld matches |
| `CustomizeMessages.EmailNeedsAt` | Models/CustomizeMessage.js:15-21 | a string without '@' never matches |
| `CustomizeMessages.DomainRejectsShortTld` | Models/CustomizeMessage.js:15-21 | a one-character top-level label never matches |
| `CustomizeMessages.ValidatedEmail` | Models/CustomizeMessage.js:15-21 | an accepted document always carries a lower-cased, matching email |
| `CustomizeMessages.IsEmail` | Models/CustomizeMessage.js:20 | the email pattern: a non-empty local part of word characters, dots and hyphens, an at sign, and dot-separated labels ending in a two-to-four character label |

## Left out

- The order, user, mobile, shipping-address, notification, category, sub-category and rating schemas are not part of this model. Their fields are taken from the controllers' uses.
- Malformed ids that reach `findById` or `findOne({_id})` without a format check make Mongoose throw a cast error (500). The handlers take castability as a parameter only for the category and sub-category fields of the product and attribute-group handlers, the product ids of the delivery handlers, and `createSubCategory` (see Findings). The members below treat a malformed document id as not found instead, and answer the not-found error where the source answers 500:
- ProductAdmin.UpdateProduct, ProductAdmin.UpdateProductVariant, ProductAdmin.CreateProductVariant: `Product.findById(productId)` (Controllers/productAdmin/productController.js:226, 358, 436) is not preceded by a format check; the model answers `ProductNotFound`.
- AttributeGroups.UpdateGroup, AttributeGroups.TogglePublished: `AttributeGroup.findById(id)` (Controllers/attribute/attributeGroupController.js:136, 277); the model answers `GroupNotFound`.
- SubCategories.TogglePublish: `SubCategory.findById(id)` (Controllers/subCategoryController.js:225); the model answers its not-found error.
- Coupons.CouponToggle: `Coupon.findById(id)` (Controllers/couponController.js:143); the model answers its not-found error.
- AdminUsers.DeleteUser: `User.findById(userId)` (Controllers/adminUserController.js:54); the model answers its not-found error.
- AdminOrders.UpdateStatus, AdminOrders.DeleteOrdersAsWritten, AdminOrders.DeleteOrders: `Order.findById(orderId)` (Controllers/adminOrderController.js:122, 222); the model answers 404 or skips the id.
- Refunds.RequestRefund: `Order.findOne({ _id: orderid, user })` (Controllers/returnRefundController.js:11); the model answers its not-found error.
- Request plumbing is not modelled: routes, middleware, JWT issue and check, cookies, and response bodies beyond the status and the written data.
- Foreign calls are parameters and are not modelled further: bcrypt, slugify, `ObjectId.isValid`, `JSON.parse`, the media host, and the e-mail and SMS sends.
- The mobile `sendOtp` failure paths of the SMS send are not modelled.
- Google log-in and logout are not modelled.
- Concurrency is not modelled. Requests run one after another; the check-then-decrement race between two orders and races on unique indexes are not represented.
- The admin panel's "Refunded" status is accepted by the panel only. The buyer-facing controller never produces it.
- `getMyOrders`, `getOrderById`, the admin listing's filters, search and populate are not modelled; only its paging arithmetic is.
- Attribute-group delete, the attribute-group and sub-category listings and lookups, and `getAllDeliveryAvailabilities` with its populate and sort are not modelled.
- Delivery delete-by-pincode and the per-product delivery listing are not modelled.
- The coupon update, delete and listing handlers are not modelled; they are plain CRUD.
- The customisation-message controller (upload, listing and delete) is not modelled; only its schema is.
- The admin dashboard, CMS, promo section and contact handlers are not modelled.
- Money is a whole number of currency units. Floating-point prices and percentages are not modelled.
- Coupons.RoundHundredth: models `Math.round(d * a / 100)` on integers, so `d / 100 * a` computed in floating point may round differently at exact halves.
- Delivery.NewRecord: a price is a number exactly when it is present. Non-integer prices and a stored `areas` that is not a list are not modelled.
- SubCategories.CreateSubCategory: a new sub-category is taken to be published, since its schema is not available.
- SiteSettings.SaveSettings: a validation failure is one error. The validator's message is not modelled.
- AdminUsers.GetUserById: a thrown `match` is modelled as an error with no status; what Express then answers is not modelled.
- Auth.Login: the token and cookie of a successful login are not modelled; the result is the logged-in user.
- Auth.VerifyOtpAndLogin: the token payload names the role under the misspelt key `aaccountType`; tokens are not modelled, so neither is the misspelling.
- Auth.ForgotPassword: the handler never checks that an email was sent; the model takes the email as a string, and what `findOne({ email: undefined })` matches is not modelled.
- AdminOrders.UpdateStatus: the sellers are notified in order of the lines' first mention, while `Product.find` with `$in` returns them in collection order, so only the set of sellers and one notice each is promised, not their order.
- AdminOrders.UpdateStatus: `createdBy` is not required, and a product without it makes `createdBy.toString()` throw after the buyer has been notified (500); the model takes every product to have a creator.
- AttributeGroups.UpdateGroup: an explicit `subCategory: null` clears the link in the source; the model's body field is absent or an id, so clearing is not modelled.
- Coupons.NormalCode: `toUpperCase` maps only ASCII letters in the model, while JavaScript maps all of Unicode ("ß" becomes "SS"), so codes outside ASCII normalise differently.
- CustomizeMessages.NormaliseEmail: `toLowerCase` maps only ASCII letters in the model, while JavaScript maps all of Unicode (U+212A KELVIN SIGN becomes "k").
- Coupons.CreateCoupon: a usage entry sent without `usedAt` takes the creation time by default; the model takes the entries as sent, times resolved.

## Findings

| source | as written | input that shows it | evidently intended | confidence | as-written member | corrected member |
|---|---|---|---|---|---|---|
| Controllers/userOrderController.js:22-30 | each line is checked against the unchanged stock on its own | two lines of 3 for a product with stock 5: both pass, and the stock ends at -1 | the lines of a product are summed before comparing with its stock | not executed | `UserOrders.CreateOrderAsWritten` (`UserOrders.OverdrawCounterexample`) | `UserOrders.CreateOrder` (`UserOrders.DecrementKeepsNonNegative`) |
| Controllers/adminOrderController.js:233-240 | `item.product._id` is read before the `if (product)` guard, so a product deleted since the order is a null dereference | orders o1 and o2 where o2's product was deleted: o1 is deleted, then the batch answers 500 with o2 kept | lines whose product is gone are skipped, and the batch completes | not executed | `AdminOrders.DeleteOrdersAsWritten` (`AdminOrders.NullProductCounterexample`) | `AdminOrders.DeleteOrders` (`AdminOrders.NullProductGuarded`, `AdminOrders.DeleteOrdersCompletes`, `AdminOrders.DeleteEachStock`) |
| Controllers/Auth.js:271-278 | the number's record is read and assigned without a null check | a number never seen before: the send answers 500 and no record is created | an unknown number is registered and sent a password | not executed | `Auth.SendOtpAsWritten` (`Auth.UnknownMobileCounterexample`) | `Auth.SendOtp` (`Auth.SendThenLogin`) |
| Controllers/subCategoryController.js:28-38 | the sub-category is created before the category lookup, and only a lookup that returns null is compensated | category id "abc": `findById` throws a cast error and the catch answers 500 with the new sub-category stored and unlinked | every refusal after the create removes the sub-category again | not executed | `SubCategories.CreateSubCategoryAsWritten` (`SubCategories.OrphanCounterexample`) | `SubCategories.CreateSubCategory` |

=== FILE: accounts.dfy ===
/** The user document shared by the authentication, order and
    user-administration controllers.

    The user schema itself is not part of this model; its fields are the
    ones the controllers read and write: credentials, the account type
    used for authorisation, the one-time-password pair, the verification
    and block flags, and the list of the user's orders.
 */
module Accounts {
  import opened Wrappers
  import Collections

  /** `accountType`. */
  datatype Role = User | Seller | Admin

  /** Output of `bcrypt.hash` for a plain-text password; the salt is not
      modelled, so equal passwords give equal digests. */
  datatype Digest = Digest(plain: string)

  datatype Account = Account(
    id: Id,
    name: string,
    email: string,
    password: Digest,
    confirmPassword: Digest,
    accountType: Role,
    otp: Option<string>,
    otpExpires: Option<int>,   // milliseconds since the epoch
    isEmailVerified: bool,
    isActive: bool,
    orders: seq<Id>)

  /** The requester as the JWT middleware describes it (`req.user`). */
  datatype Actor = Actor(id: Id, accountType: Role)

  /** `User.findById`. */
  function FindById(users: seq<Account>, id: Id): (r: Option<nat>)
    ensures r.Some? ==> r.value < |users| && users[r.value].id == id
    ensures r.Some? ==> forall j :: 0 <= j < r.value ==> users[j].id != id
    ensures r.None? ==> forall j :: 0 <= j < |users| ==> users[j].id != id
  {
    Collections.FirstIndex(users, (u: Account) => u.id == id)
  }

  /** `User.findOne({ email })`: the first user with that email. */
  function FindByEmail(users: seq<Account>, email: string): (r: Option<nat>)
    ensures r.Some? ==> r.value < |users| && users[r.value].email == email
    ensures r.Some? ==> forall j :: 0 <= j < r.value ==> users[j].email != email
    ensures r.None? ==> forall j :: 0 <= j < |users| ==> users[j].email != email
  {
    Collections.FirstIndex(users, (u: Account) => u.email == email)
  }

  /** Writing back the user `findOne` found, with the same email, keeps
      it the first match. */
  lemma FindAfterPut(users: seq<Account>, email: string, i: nat, u: Account)
    requires FindByEmail(users, email) == Some(i) && u.email == email
    ensures FindByEmail(users[i := u], email) == Some(i)
  {
    var r := users[i := u];
    assert r[i].email == email;
    assert forall j :: 0 <= j < i ==> r[j] == users[j];
  }

  /** A user appended with an email nobody else holds is its first match. */
  lemma FindAfterAppend(users: seq<Account>, email: string, u: Account)
    requires FindByEmail(users, email).None? && u.email == email
    ensures FindByEmail(users + [u], email) == Some(|users|)
  {
    var r := users + [u];
    assert forall j :: 0 <= j < |users| ==> r[j].email != email;
    assert r[|users|].email == email;
  }

  /** Replaces the user at index `i`, keeping every other user. */
  function Put(users: seq<Account>, i: nat, u: Account): (r: seq<Account>)
    requires i < |users|
    ensures |r| == |users| && r[i] == u
    ensures forall j :: 0 <= j < |users| && j != i ==> r[j] == users[j]
  {
    users[i := u]
  }

  /** Five minutes, the lifetime of every one-time password. */
  const OtpLifetime: int := 5 * 60 * 1000

  /** `user.otpExpires < new Date()`: an expiry instant that lies strictly
      before `now`. An absent expiry compares as not expired. */
  predicate OtpExpired(u: Account, now: int) {
    u.otpExpires.Some? && u.otpExpires.value < now
  }

  /** `user.otp !== otp` for a supplied, non-empty `otp`: a cleared OTP
      never matches. */
  predicate OtpMatches(u: Account, otp: string) {
    u.otp == Some(otp)
  }
}

=== FILE: admin_orders.dfy ===
/** The admin-panel order controller: the unguarded status overwrite with
    its notifications, the bulk delete with its deleted/skipped report, and
    the pagination arithmetic of the order listing.
 */
module AdminOrders {
  import opened Wrappers
  import Accounts
  import Catalog
  import Collections
  import opened Orders

  // ---------------------------------------------------------------------
  // Status overwrite

  /** The statuses the admin panel accepts, in any order and from any
      current status. */
  const AdminStatuses: seq<OrderStatus> := [Processing, Shipped, Delivered, Cancelled, Refunded]

  /** The `createdBy` of every line's product that still exists, in line
      order, repetitions kept. */
  function SellerList(products: map<Id, Catalog.Product>, items: seq<OrderItem>): (r: seq<Id>)
    ensures forall s :: s in r <==> exists i :: 0 <= i < |items| && items[i].product in products
                                            && products[items[i].product].createdBy == s
  {
    if |items| == 0 then []
    else
      var rest := SellerList(products, items[1..]);
      assert forall i :: 1 <= i < |items| ==> items[i] == items[1..][i - 1];
      if items[0].product in products then [products[items[0].product].createdBy] + rest else rest
  }

  /** The distinct sellers of the order's products (`[...new Set(...)]`). */
  function Sellers(products: map<Id, Catalog.Product>, items: seq<OrderItem>): (r: seq<Id>)
    ensures Collections.NoDuplicates(r)
    ensures forall s :: s in r <==> exists i :: 0 <= i < |items| && items[i].product in products
                                            && products[items[i].product].createdBy == s
  {
    Collections.Distinct(SellerList(products, items))
  }

  /** One notification per recipient, all about `order` and from `sender`. */
  function Notify(recipients: seq<Id>, sender: Id, message: Message, order: Id): (r: seq<Notification>)
    ensures |r| == |recipients|
    ensures forall i :: 0 <= i < |r| ==> r[i] == Notification(recipients[i], sender, message, order)
  {
    seq(|recipients|, i requires 0 <= i < |recipients| => Notification(recipients[i], sender, message, order))
  }

  /** What a successful overwrite answers: the order as saved and the
      notifications created, the buyer's first. */
  datatype StatusUpdate = StatusUpdate(order: Order, outbox: seq<Notification>)

  /** `updateOrderStatus` of the admin panel: both fields required, the
      order must exist and the status must be one of the five the panel
      knows; then the status is overwritten whatever it was, the delivery
      time is set only for Delivered, and nothing else changes (no
      restock, no payment change). The buyer is populated after the save:
      a buyer no longer in the users answers 500 with the new status
      already saved and nobody notified. */
  function UpdateStatus(db: Db, actor: Accounts.Actor, orderId: Id, newStatus: string, now: int): (r: Outcome<StatusUpdate>)
    ensures r.result.Err? && r.result.error != ServerError ==> r.db == db
    ensures r.result.Ok? <==>
      && orderId != "" && newStatus != "" && orderId in db.orders
      && ParseStatus(newStatus).Some? && ParseStatus(newStatus).value in AdminStatuses
      && Accounts.FindById(db.users, db.orders[orderId].user).Some?
    ensures r.db.products == db.products && r.db.users == db.users && r.db.addresses == db.addresses
    ensures r.result.Ok? || r.result == Err(ServerError) ==>
      && orderId in db.orders && ParseStatus(newStatus).Some?
      && var o := db.orders[orderId];
         var s := ParseStatus(newStatus).value;
         r.db.orders == db.orders[orderId := o.(orderStatus := s,
                                                deliveredAt := if s == Delivered then Some(now) else o.deliveredAt)]
    ensures r.result.Ok? ==>
      var o := db.orders[orderId];
      var s := ParseStatus(newStatus).value;
      var sellers := Sellers(db.products, o.items);
      && r.result.value.order == r.db.orders[orderId]
      && |r.result.value.outbox| == 1 + |sellers|
      && r.result.value.outbox[0] == Notification(o.user, actor.id, StatusChanged(s), orderId)
      && r.result.value.outbox[1..] == Notify(sellers, actor.id, ProductOrderChanged(s), orderId)
  {
    if orderId == "" || newStatus == "" then Outcome(db, Err(MissingFields))
    else if orderId !in db.orders then Outcome(db, Err(OrderNotFound))
    else match ParseStatus(newStatus)
      case None => Outcome(db, Err(InvalidStatus))
      case Some(s) =>
        if s !in AdminStatuses then Outcome(db, Err(InvalidStatus))
        else
          var o := db.orders[orderId];
          var saved := o.(orderStatus := s, deliveredAt := if s == Delivered then Some(now) else o.deliveredAt);
          var db' := db.(orders := db.orders[orderId := saved]);
          if Accounts.FindById(db.users, o.user).None? then Outcome(db', Err(ServerError))
          else
            var toBuyer := Notification(o.user, actor.id, StatusChanged(s), orderId);
            var toSellers := Notify(Sellers(db.products, o.items), actor.id, ProductOrderChanged(s), orderId);
            Outcome(db', Ok(StatusUpdate(saved, [toBuyer] + toSellers)))
  }

  /** Every seller of the order hears exactly once, and nobody else but
      the buyer hears at all. */
  lemma EachSellerNotifiedOnce(db: Db, actor: Accounts.Actor, orderId: Id, newStatus: string, now: int, seller: Id)
    requires UpdateStatus(db, actor, orderId, newStatus, now).result.Ok?
    ensures var out := UpdateStatus(db, actor, orderId, newStatus, now).result.value.outbox;
      var items := db.orders[orderId].items;
      var sellers := set i | i in out[1..] :: i.recipient;
      && (seller in sellers <==> exists j :: 0 <= j < |items| && items[j].product in db.products
                                           && db.products[items[j].product].createdBy == seller)
      && (forall i, j :: 1 <= i < j < |out| ==> out[i].recipient != out[j].recipient)
  {
    var r := UpdateStatus(db, actor, orderId, newStatus, now);
    var out := r.result.value.outbox;
    var s := ParseStatus(newStatus).value;
    var list := Sellers(db.products, db.orders[orderId].items);
    NotifyReaches(list, actor.id, ProductOrderChanged(s), orderId);
    assert out[1..] == Notify(list, actor.id, ProductOrderChanged(s), orderId);
    forall i, j | 1 <= i < j < |out|
      ensures out[i].recipient != out[j].recipient
    {
      assert out[i] == out[1..][i - 1] && out[j] == out[1..][j - 1];
    }
  }

  /** The notifications reach exactly the recipients, and distinct
      recipients get one each. */
  lemma NotifyReaches(recipients: seq<Id>, sender: Id, message: Message, order: Id)
    ensures var out := Notify(recipients, sender, message, order);
      && (set n | n in out :: n.recipient) == (set x | x in recipients)
      && (Collections.NoDuplicates(recipients) ==>
            forall i, j :: 0 <= i < j < |out| ==> out[i].recipient != out[j].recipient)
  {
    var out := Notify(recipients, sender, message, order);
    forall x | x in recipients
      ensures x in (set n | n in out :: n.recipient)
    {
      var k :| 0 <= k < |recipients| && recipients[k] == x;
      assert out[k].recipient == x;
    }
  }

  /** The two controllers disagree: the admin panel moves a delivered order
      back to Processing, which the buyer-facing update refuses as final. */
  lemma PanelReopensDelivered(db: Db, actor: Accounts.Actor, orderId: Id, now: int)
    requires orderId != "" && orderId in db.orders && db.orders[orderId].orderStatus == Delivered
    requires Accounts.FindById(db.users, db.orders[orderId].user).Some?
    ensures var r := UpdateStatus(db, actor, orderId, "Processing", now);
      r.result.Ok? && r.db.orders[orderId].orderStatus == Processing
      && r.db.orders[orderId].deliveredAt == db.orders[orderId].deliveredAt
  {
    assert ParseStatus("Processing") == Some(Processing);
  }

  /** Cancelling from the panel restores no stock and leaves the payment
      status as it was. */
  lemma PanelCancelKeepsStock(db: Db, actor: Accounts.Actor, orderId: Id, now: int)
    requires UpdateStatus(db, actor, orderId, "Cancelled", now).result.Ok?
    ensures var r := UpdateStatus(db, actor, orderId, "Cancelled", now);
      && r.db.products == db.products
      && r.db.orders[orderId].orderStatus == Cancelled
      && r.db.orders[orderId].paymentStatus == db.orders[orderId].paymentStatus
  {
    assert ParseStatus("Cancelled") == Some(Cancelled);
  }

  // ---------------------------------------------------------------------
  // Bulk delete

  /** `orderIds` of the request: absent, a single string, or a list. */
  datatype IdsInput = NoIds | One(id: Id) | Many(ids: seq<Id>)

  /** The list the loop runs over: a non-empty string becomes a one-element
      list, a non-empty list is kept; anything falsy or an empty list is
      refused. */
  function IdList(input: IdsInput): (r: Option<seq<Id>>)
    ensures r.Some? ==> |r.value| > 0
    ensures input.One? && input.id != "" ==> r == Some([input.id])
    ensures input.Many? && |input.ids| > 0 ==> r == Some(input.ids)
    ensures input.NoIds? || input == One("") || input == Many([]) ==> r.None?
  {
    match input
    case NoIds => None
    case One(id) => if id == "" then None else Some([id])
    case Many(ids) => if |ids| == 0 then None else Some(ids)
  }

  /** The deleted and skipped ids of a completed batch and the
      notifications sent. */
  datatype Report = Report(deleted: seq<Id>, skipped: seq<Id>, outbox: seq<Notification>)

  /** Line `item` stops the restock loop on `products`: its product is
      missing and the loop is not `guarded` (the populated product is null
      and its `_id` is read), or the product with the line's quantity
      added fails validation on `save`. */
  predicate Stops(products: map<Id, Catalog.Product>, item: OrderItem, guarded: bool) {
    if item.product !in products then !guarded
    else !Catalog.ValidProduct(Catalog.WithStock(products[item.product], products[item.product].stock + item.quantity))
  }

  /** The restock loop of one order, `product.stock += quantity;
      product.save()` per line: the number of lines it completes before a
      line stops it (all of them when none does). */
  function Completed(products: map<Id, Catalog.Product>, items: seq<OrderItem>, guarded: bool): (n: nat)
    ensures n <= |items|
    ensures n == |items| ==> forall i :: 0 <= i < |items| ==> items[i].product in products || guarded
  {
    if |items| == 0 || Stops(products, items[0], guarded) then 0
    else
      var rest := Completed(Shift(products, items[0].product, items[0].quantity), items[1..], guarded);
      assert forall i :: 1 <= i < |items| ==> items[i] == items[1..][i - 1];
      rest + 1
  }

  /** The loop stops exactly at the first line that stops it on the stock
      left by the lines before it, which have all been added back. */
  lemma {:induction false} CompletedStops(products: map<Id, Catalog.Product>, items: seq<OrderItem>, guarded: bool)
    ensures var n := Completed(products, items, guarded);
      n < |items| ==> Stops(Restock(products, items[..n]), items[n], guarded)
  {
    var n := Completed(products, items, guarded);
    if |items| > 0 && !Stops(products, items[0], guarded) {
      var next := Shift(products, items[0].product, items[0].quantity);
      CompletedStops(next, items[1..], guarded);
      if n < |items| {
        RestockPrefix(products, items, n - 1);
      }
    } else if |items| > 0 {
      assert items[..0] == [];
    }
  }

  /** Restocking the first `n + 1` lines is restocking the first line, then
      the next `n`. */
  lemma RestockPrefix(products: map<Id, Catalog.Product>, items: seq<OrderItem>, n: nat)
    requires n < |items|
    ensures Restock(products, items[..n + 1]) == Restock(Shift(products, items[0].product, items[0].quantity), items[1..][..n])
  {
    assert items[..n + 1][1..] == items[1..][..n];
  }

  /** All lines of the given orders, order by order. */
  function Lines(orders: map<Id, Order>, ids: seq<Id>): seq<OrderItem> {
    if |ids| == 0 then []
    else (if ids[0] in orders then orders[ids[0]].items else []) + Lines(orders, ids[1..])
  }

  /** The loop over the ids. An id with no order is skipped; otherwise the
      order's lines are restocked, the order removed and the buyer
      notified. `guarded` selects the corrected loop, which skips a
      deleted product and a deleted buyer instead of reading through the
      null they populate to. Any stop answers 500 with the earlier writes
      kept. Every id of a completed batch is reported exactly once. */
  function DeleteEach(db: Db, actor: Accounts.Actor, ids: seq<Id>, guarded: bool): (r: Outcome<Report>)
    ensures r.db.users == db.users && r.db.addresses == db.addresses
    ensures r.result.Err? ==> r.result.error == ServerError
    ensures r.result.Ok? ==> multiset(r.result.value.deleted) + multiset(r.result.value.skipped) == multiset(ids)
    decreases |ids|
  {
    if |ids| == 0 then Outcome(db, Ok(Report([], [], [])))
    else
      var id := ids[0];
      if id !in db.orders then
        var rest := DeleteEach(db, actor, ids[1..], guarded);
        match rest.result
        case Err(_) => rest
        case Ok(rep) =>
          ConsCounts(ids, rep.deleted, rep.skipped);
          Outcome(rest.db, Ok(rep.(skipped := [id] + rep.skipped)))
      else
        var o := db.orders[id];
        var n := Completed(db.products, o.items, guarded);
        if n < |o.items| then Outcome(db.(products := Restock(db.products, o.items[..n])), Err(ServerError))
        else
          var removed := Removed(db, id);
          var buyerGone := Accounts.FindById(db.users, o.user).None?;
          if buyerGone && !guarded then Outcome(removed, Err(ServerError))
          else
            var note := if buyerGone then [] else [Notification(o.user, actor.id, DeletedByAdmin(id), id)];
            var rest := DeleteEach(removed, actor, ids[1..], guarded);
            match rest.result
            case Err(_) => rest
            case Ok(rep) =>
              ConsCounts(ids, rep.deleted, rep.skipped);
              Outcome(rest.db, Ok(Report([id] + rep.deleted, rep.skipped, note + rep.outbox)))
  }

  /** Reporting the first id as deleted or as skipped, ahead of a report
      of the others, reports every id once. */
  lemma ConsCounts(ids: seq<Id>, deleted: seq<Id>, skipped: seq<Id>)
    requires |ids| > 0 && multiset(deleted) + multiset(skipped) == multiset(ids[1..])
    ensures multiset([ids[0]] + deleted) + multiset(skipped) == multiset(ids)
    ensures multiset(deleted) + multiset([ids[0]] + skipped) == multiset(ids)
  {
    assert ids == [ids[0]] + ids[1..];
  }

  /** The store the loop continues with after deleting `id`. */
  function Removed(db: Db, id: Id): Db
    requires id in db.orders
  {
    db.(products := Restock(db.products, db.orders[id].items), orders := db.orders - {id})
  }

  /** One step of a completed batch whose first id names no order. */
  lemma SkipStep(db: Db, actor: Accounts.Actor, ids: seq<Id>, guarded: bool)
    requires |ids| > 0 && ids[0] !in db.orders
    requires DeleteEach(db, actor, ids, guarded).result.Ok?
    ensures var r := DeleteEach(db, actor, ids, guarded);
      var rest := DeleteEach(db, actor, ids[1..], guarded);
      && rest.result.Ok? && r.db == rest.db
      && r.result.value.deleted == rest.result.value.deleted
      && r.result.value.skipped == [ids[0]] + rest.result.value.skipped
  {
  }

  /** One step of a completed batch whose first id names an order. */
  lemma DeleteStep(db: Db, actor: Accounts.Actor, ids: seq<Id>, guarded: bool)
    requires |ids| > 0 && ids[0] in db.orders
    requires DeleteEach(db, actor, ids, guarded).result.Ok?
    ensures var r := DeleteEach(db, actor, ids, guarded);
      var rest := DeleteEach(Removed(db, ids[0]), actor, ids[1..], guarded);
      && rest.result.Ok? && r.db == rest.db
      && r.result.value.deleted == [ids[0]] + rest.result.value.deleted
      && r.result.value.skipped == rest.result.value.skipped
  {
  }

  /** In the guarded loop, an order whose lines all restock is deleted
      ahead of a batch that completes. */
  lemma GuardedStep(db: Db, actor: Accounts.Actor, ids: seq<Id>)
    requires |ids| > 0 && ids[0] in db.orders
    requires Completed(db.products, db.orders[ids[0]].items, true) == |db.orders[ids[0]].items|
    requires DeleteEach(Removed(db, ids[0]), actor, ids[1..], true).result.Ok?
    ensures var r := DeleteEach(db, actor, ids, true);
      var rest := DeleteEach(Removed(db, ids[0]), actor, ids[1..], true);
      && r.result.Ok? && r.db == rest.db
      && r.result.value.deleted == [ids[0]] + rest.result.value.deleted
  {
  }

  /** A completed batch deletes only orders that existed, each once. */
  lemma {:induction false} DeletedIds(db: Db, actor: Accounts.Actor, ids: seq<Id>, guarded: bool)
    ensures var r := DeleteEach(db, actor, ids, guarded);
      r.result.Ok? ==>
        && Collections.NoDuplicates(r.result.value.deleted)
        && (forall i :: 0 <= i < |r.result.value.deleted| ==> r.result.value.deleted[i] in db.orders)
    decreases |ids|
  {
    var r := DeleteEach(db, actor, ids, guarded);
    if |ids| > 0 && r.result.Ok? {
      var id := ids[0];
      if id !in db.orders {
        SkipStep(db, actor, ids, guarded);
        DeletedIds(db, actor, ids[1..], guarded);
      } else {
        DeleteStep(db, actor, ids, guarded);
        var removed := Removed(db, id);
        DeletedIds(removed, actor, ids[1..], guarded);
        var rest := DeleteEach(removed, actor, ids[1..], guarded).result.value.deleted;
        FreshHead(id, rest, db.orders);
      }
    }
  }

  /** An id of `orders` ahead of distinct ids of the other orders keeps the
      list distinct and within `orders`. */
  lemma FreshHead(id: Id, rest: seq<Id>, orders: map<Id, Order>)
    requires id in orders && Collections.NoDuplicates(rest)
    requires forall i :: 0 <= i < |rest| ==> rest[i] in orders - {id}
    ensures Collections.NoDuplicates([id] + rest)
    ensures forall i :: 0 <= i < |[id] + rest| ==> ([id] + rest)[i] in orders
  {
    var d := [id] + rest;
    forall i, j | 0 <= i < j < |d|
      ensures d[i] != d[j]
    {
      assert d[j] == rest[j - 1];
      if i > 0 {
        assert d[i] == rest[i - 1];
      }
    }
  }

  /** A completed batch removes exactly the deleted orders, and a skipped
      id names no remaining order. */
  lemma {:induction false} DeleteEachOrders(db: Db, actor: Accounts.Actor, ids: seq<Id>, guarded: bool)
    ensures var r := DeleteEach(db, actor, ids, guarded);
      r.result.Ok? ==>
        && r.db.orders == db.orders - Collections.Elements(r.result.value.deleted)
        && (forall i :: 0 <= i < |r.result.value.skipped| ==> r.result.value.skipped[i] !in r.db.orders)
    decreases |ids|
  {
    var r := DeleteEach(db, actor, ids, guarded);
    if |ids| > 0 && r.result.Ok? {
      var id := ids[0];
      if id !in db.orders {
        SkipStep(db, actor, ids, guarded);
        DeleteEachOrders(db, actor, ids[1..], guarded);
      } else {
        var removed := Removed(db, id);
        DeleteStep(db, actor, ids, guarded);
        DeleteEachOrders(removed, actor, ids[1..], guarded);
        var later := DeleteEach(removed, actor, ids[1..], guarded).result.value.deleted;
        assert (db.orders - {id}) - Collections.Elements(later) == db.orders - Collections.Elements([id] + later);
      }
    }
  }

  /** Every product of a completed batch gets back exactly the quantities
      of the lines of the deleted orders. */
  lemma {:induction false} DeleteEachStock(db: Db, actor: Accounts.Actor, ids: seq<Id>, guarded: bool)
    ensures var r := DeleteEach(db, actor, ids, guarded);
      r.result.Ok? ==> r.db.products == Restock(db.products, Lines(db.orders, r.result.value.deleted))
    decreases |ids|
  {
    var r := DeleteEach(db, actor, ids, guarded);
    if |ids| > 0 && r.result.Ok? {
      var id := ids[0];
      if id !in db.orders {
        SkipStep(db, actor, ids, guarded);
        DeleteEachStock(db, actor, ids[1..], guarded);
      } else {
        var o := db.orders[id];
        var removed := Removed(db, id);
        DeleteStep(db, actor, ids, guarded);
        DeleteEachStock(removed, actor, ids[1..], guarded);
        DeletedIds(removed, actor, ids[1..], guarded);
        var later := DeleteEach(removed, actor, ids[1..], guarded).result.value.deleted;
        LinesFrame(db.orders, id, later);
        assert ([id] + later)[1..] == later;
        assert Lines(db.orders, [id] + later) == o.items + Lines(db.orders, later);
        RestockConcat(db.products, o.items, Lines(db.orders, later));
      }
    }
  }

  /** Removing an order no later id names leaves their lines alone. */
  lemma {:induction false} LinesFrame(orders: map<Id, Order>, id: Id, later: seq<Id>)
    requires forall i :: 0 <= i < |later| ==> later[i] != id
    ensures Lines(orders - {id}, later) == Lines(orders, later)
  {
    if |later| > 0 {
      LinesFrame(orders, id, later[1..]);
    }
  }

  /** `deleteOrders` as written: the input checks (400 before 403), then
      the loop reading through null products and buyers. */
  function DeleteOrdersAsWritten(db: Db, actor: Accounts.Actor, input: IdsInput): (r: Outcome<Report>)
    ensures IdList(input).None? ==> r == Outcome(db, Err(NoOrderIds))
    ensures IdList(input).Some? && actor.accountType != Accounts.Admin ==> r == Outcome(db, Err(AdminsOnly))
    ensures IdList(input).Some? && actor.accountType == Accounts.Admin ==>
      r == DeleteEach(db, actor, IdList(input).value, false)
  {
    match IdList(input)
    case None => Outcome(db, Err(NoOrderIds))
    case Some(ids) =>
      if actor.accountType != Accounts.Admin then Outcome(db, Err(AdminsOnly))
      else DeleteEach(db, actor, ids, false)
  }

  /** `deleteOrders` with the null dereferences guarded: a completed batch
      partitions the ids into deleted and skipped, removes exactly the
      deleted orders, whatever their status or payment, and gives every
      product back exactly the quantities those orders held. */
  function DeleteOrders(db: Db, actor: Accounts.Actor, input: IdsInput): (r: Outcome<Report>)
    ensures IdList(input).None? ==> r == Outcome(db, Err(NoOrderIds))
    ensures IdList(input).Some? && actor.accountType != Accounts.Admin ==> r == Outcome(db, Err(AdminsOnly))
    ensures IdList(input).Some? && actor.accountType == Accounts.Admin ==>
      r == DeleteEach(db, actor, IdList(input).value, true)
    ensures r.result.Ok? ==>
      var ids := IdList(input).value;
      var rep := r.result.value;
      && actor.accountType == Accounts.Admin
      && multiset(rep.deleted) + multiset(rep.skipped) == multiset(ids)
      && r.db.orders == db.orders - Collections.Elements(rep.deleted)
      && (forall i :: 0 <= i < |rep.skipped| ==> rep.skipped[i] !in r.db.orders)
      && r.db.products == Restock(db.products, Lines(db.orders, rep.deleted))
      && r.db.users == db.users
  {
    match IdList(input)
    case None => Outcome(db, Err(NoOrderIds))
    case Some(ids) =>
      if actor.accountType != Accounts.Admin then Outcome(db, Err(AdminsOnly))
      else
        DeletedIds(db, actor, ids, true);
        DeleteEachOrders(db, actor, ids, true);
        DeleteEachStock(db, actor, ids, true);
        DeleteEach(db, actor, ids, true)
  }

  /** Every stored product passes the schema's validation. */
  predicate AllValid(products: map<Id, Catalog.Product>) {
    forall k :: k in products ==> Catalog.ValidProduct(products[k])
  }

  /** No line of any stored order has a negative quantity. */
  predicate NoNegativeLines(orders: map<Id, Order>) {
    forall id, i :: id in orders && 0 <= i < |orders[id].items| ==> orders[id].items[i].quantity >= 0
  }

  /** Adding a non-negative quantity back keeps every product valid. */
  lemma ShiftKeepsValid(products: map<Id, Catalog.Product>, k: Id, delta: int)
    requires AllValid(products) && delta >= 0
    ensures AllValid(Shift(products, k, delta))
  {
    var r := Shift(products, k, delta);
    forall j | j in r
      ensures Catalog.ValidProduct(r[j])
    {
      if k in products && j == k {
        assert r[j] == Catalog.WithStock(products[k], products[k].stock + delta);
      }
    }
  }

  /** Restocking lines of non-negative quantity keeps every product valid. */
  lemma {:induction false} RestockKeepsValid(products: map<Id, Catalog.Product>, items: seq<OrderItem>)
    requires AllValid(products)
    requires forall i :: 0 <= i < |items| ==> items[i].quantity >= 0
    ensures AllValid(Restock(products, items))
    decreases |items|
  {
    if |items| > 0 {
      ShiftKeepsValid(products, items[0].product, items[0].quantity);
      RestockKeepsValid(Shift(products, items[0].product, items[0].quantity), items[1..]);
    }
  }

  /** On valid products, the guarded restock loop completes every line of
      non-negative quantity. */
  lemma {:induction false} GuardedRestockCompletes(products: map<Id, Catalog.Product>, items: seq<OrderItem>)
    requires AllValid(products)
    requires forall i :: 0 <= i < |items| ==> items[i].quantity >= 0
    ensures Completed(products, items, true) == |items|
    decreases |items|
  {
    if |items| > 0 {
      var line := items[0];
      if line.product in products {
        var p := products[line.product];
        assert Catalog.ValidProduct(Catalog.WithStock(p, p.stock + line.quantity));
      }
      assert !Stops(products, line, true);
      ShiftKeepsValid(products, line.product, line.quantity);
      GuardedRestockCompletes(Shift(products, line.product, line.quantity), items[1..]);
    }
  }

  /** On valid products and orders without negative lines, the guarded
      loop completes every batch, and it deletes exactly the listed ids
      that name an order. */
  lemma {:induction false} GuardedDeleteCompletes(db: Db, actor: Accounts.Actor, ids: seq<Id>)
    requires AllValid(db.products) && NoNegativeLines(db.orders)
    ensures var r := DeleteEach(db, actor, ids, true);
      && r.result.Ok?
      && Collections.Elements(r.result.value.deleted) == Collections.Elements(ids) * db.orders.Keys
    decreases |ids|
  {
    if |ids| > 0 {
      var id := ids[0];
      assert Collections.Elements(ids) == {id} + Collections.Elements(ids[1..]) by {
        assert ids == [id] + ids[1..];
      }
      if id !in db.orders {
        GuardedDeleteCompletes(db, actor, ids[1..]);
        SkipStep(db, actor, ids, true);
      } else {
        var o := db.orders[id];
        GuardedRestockCompletes(db.products, o.items);
        var removed := Removed(db, id);
        RestockKeepsValid(db.products, o.items);
        GuardedDeleteCompletes(removed, actor, ids[1..]);
        GuardedStep(db, actor, ids);
        var later := DeleteEach(removed, actor, ids[1..], true).result.value.deleted;
        assert Collections.Elements([id] + later) == {id} + Collections.Elements(later) by {
          assert ([id] + later)[1..] == later;
        }
      }
    }
  }

  /** An administrator's well-formed request on valid products and orders
      without negative lines always completes: every listed id that names
      an order is deleted, and every other listed id is skipped. */
  lemma DeleteOrdersCompletes(db: Db, actor: Accounts.Actor, input: IdsInput)
    requires IdList(input).Some? && actor.accountType == Accounts.Admin
    requires AllValid(db.products) && NoNegativeLines(db.orders)
    ensures var r := DeleteOrders(db, actor, input);
      && r.result.Ok?
      && Collections.Elements(r.result.value.deleted) == Collections.Elements(IdList(input).value) * db.orders.Keys
  {
    GuardedDeleteCompletes(db, actor, IdList(input).value);
  }

  /** A valid product `p` with stock 1. */
  function SampleProduct(): Catalog.Product {
    Catalog.Product("Vase", "Clay vase", "Hand thrown", 100, None, "c", "s", [], [],
                    1, "", "", Catalog.DefaultMaterial, [], true, false, false, [], "seller", Catalog.Pending)
  }

  function SampleOrder(buyer: Id, product: Id): Order {
    Order(buyer, [OrderItem(product, 1, 100)], "a", "COD", PaymentPending, false, Processing, 100, None, None)
  }

  /** Two orders of `buyer`, the first for the product of `SampleStore`,
      the second for a product since deleted. */
  function SampleStore(buyer: Accounts.Account): Db {
    Db(map["o1" := SampleOrder(buyer.id, "p"), "o2" := SampleOrder(buyer.id, "gone")],
       map["p" := SampleProduct()], [buyer], map[])
  }

  /** The sample product takes one more unit and still validates. */
  lemma SampleProductRestocks()
    ensures Catalog.ValidProduct(Catalog.WithStock(SampleProduct(), SampleProduct().stock + 1))
  {
  }

  /** The first order of the sample restocks its one line, guarded or not. */
  lemma SampleFirstStep(buyer: Accounts.Account, guarded: bool)
    ensures var db := SampleStore(buyer);
      && "o1" in db.orders && |db.orders["o1"].items| == 1
      && Completed(db.products, db.orders["o1"].items, guarded) == 1
  {
    var db := SampleStore(buyer);
    var line := OrderItem("p", 1, 100);
    assert db.orders["o1"].items == [line];
    SampleProductRestocks();
    assert !Stops(db.products, line, guarded);
  }

  /** After the first order of the sample: only the second is left, its
      product is missing, and its buyer is still there. */
  lemma SampleRemoved(buyer: Accounts.Account)
    ensures var removed := Removed(SampleStore(buyer), "o1");
      && removed.orders.Keys == {"o2"} && removed.orders["o2"].items == [OrderItem("gone", 1, 100)]
      && "gone" !in removed.products && removed.users == [buyer]
  {
    var db := SampleStore(buyer);
    var removed := Removed(db, "o1");
    assert removed.products.Keys == {"p"};
    assert removed.orders == db.orders - {"o1"};
  }

  /** As written, a batch whose second order names a product deleted since
      answers 500 with the first order already gone and the second kept. */
  lemma NullProductCounterexample(buyer: Accounts.Account, actor: Accounts.Actor)
    requires actor.accountType == Accounts.Admin
    ensures var r := DeleteOrdersAsWritten(SampleStore(buyer), actor, Many(["o1", "o2"]));
      r.result == Err(ServerError) && "o1" !in r.db.orders && "o2" in r.db.orders
  {
    var db := SampleStore(buyer);
    SampleFirstStep(buyer, false);
    SampleRemoved(buyer);
    var removed := Removed(db, "o1");
    assert Stops(removed.products, removed.orders["o2"].items[0], false);
    assert Completed(removed.products, removed.orders["o2"].items, false) == 0;
    assert Accounts.FindById(db.users, buyer.id) == Some(0);
    StoppedPair(db, actor, "o1", "o2");
  }

  /** As written, a batch of two ids whose first order deletes and whose
      second then stops the loop answers 500 with the first order gone and
      the second kept. */
  lemma StoppedPair(db: Db, actor: Accounts.Actor, a: Id, b: Id)
    requires actor.accountType == Accounts.Admin
    requires a in db.orders && Completed(db.products, db.orders[a].items, false) == |db.orders[a].items|
    requires Accounts.FindById(db.users, db.orders[a].user).Some?
    requires var removed := Removed(db, a);
      b in removed.orders && Completed(removed.products, removed.orders[b].items, false) < |removed.orders[b].items|
    ensures var r := DeleteOrdersAsWritten(db, actor, Many([a, b]));
      r.result == Err(ServerError) && a !in r.db.orders && b in r.db.orders
  {
    var ids := [a, b];
    assert IdList(Many(ids)) == Some(ids);
    assert ids[0] == a && ids[1..] == [b];
    var removed := Removed(db, a);
    var second := DeleteEach(removed, actor, [b], false);
    assert second.result == Err(ServerError) && second.db.orders == removed.orders;
  }

  /** In the guarded loop the second order of the sample, whose product
      is gone, deletes cleanly once the first is removed. */
  lemma SampleSecondStepGuarded(actor: Accounts.Actor, buyer: Accounts.Account)
    ensures var second := DeleteEach(Removed(SampleStore(buyer), "o1"), actor, ["o2"], true);
      second.result.Ok? && second.result.value.deleted == ["o2"] && second.db.orders == map[]
  {
    SampleRemoved(buyer);
    var db := Removed(SampleStore(buyer), "o1");
    assert !Stops(db.products, db.orders["o2"].items[0], true);
    assert Completed(db.products, db.orders["o2"].items, true) == 1;
    GuardedSingle(db, actor, "o2");
  }

  /** A guarded batch of the one remaining order, whose lines all
      restock, deletes it and leaves no order. */
  lemma GuardedSingle(db: Db, actor: Accounts.Actor, b: Id)
    requires db.orders.Keys == {b}
    requires Completed(db.products, db.orders[b].items, true) == |db.orders[b].items|
    ensures var r := DeleteEach(db, actor, [b], true);
      r.result.Ok? && r.result.value.deleted == [b] && r.db.orders == map[]
  {
    var ids := [b];
    assert ids[1..] == [];
    var last := Removed(db, b);
    assert last.orders == map[];
    assert DeleteEach(last, actor, [], true).result == Ok(Report([], [], []));
    GuardedStep(db, actor, ids);
  }

  /** The guarded loop deletes both orders of the same batch. */
  lemma NullProductGuarded(buyer: Accounts.Account, actor: Accounts.Actor)
    ensures var r := DeleteEach(SampleStore(buyer), actor, ["o1", "o2"], true);
      r.result.Ok? && r.result.value.deleted == ["o1", "o2"] && r.db.orders == map[]
  {
    SampleFirstStep(buyer, true);
    SampleSecondStepGuarded(actor, buyer);
    GuardedPair(SampleStore(buyer), actor, "o1", "o2");
  }

  /** A guarded batch of two ids whose first order restocks all its lines
      and whose second then deletes on its own deletes both. */
  lemma GuardedPair(db: Db, actor: Accounts.Actor, a: Id, b: Id)
    requires a in db.orders && Completed(db.products, db.orders[a].items, true) == |db.orders[a].items|
    requires var second := DeleteEach(Removed(db, a), actor, [b], true);
      second.result.Ok? && second.result.value.deleted == [b] && second.db.orders == map[]
    ensures var r := DeleteEach(db, actor, [a, b], true);
      r.result.Ok? && r.result.value.deleted == [a, b] && r.db.orders == map[]
  {
    var ids := [a, b];
    assert ids[0] == a && ids[1..] == [b];
    GuardedStep(db, actor, ids);
  }

  // ---------------------------------------------------------------------
  // Listing arithmetic

  /** The paging parameters of the listing, after defaults (page 1, limit
      10, descending). */
  datatype PageQuery = PageQuery(skip: int, limit: int, direction: int)

  function Paging(page: Option<int>, limit: Option<int>, sortOrder: string): (q: PageQuery)
    ensures q.direction == 1 <==> sortOrder == "asc"
    ensures q.direction == 1 || q.direction == -1
    ensures q.limit == limit.GetOr(10)
    ensures q.skip == (page.GetOr(1) - 1) * q.limit
    ensures page.None? ==> q.skip == 0
  {
    var l := limit.GetOr(10);
    PageQuery((page.GetOr(1) - 1) * l, l, if sortOrder == "asc" then 1 else -1)
  }

  /** `Math.ceil(total / limit)`; a zero limit divides to Infinity or NaN,
      which the response carries as null. */
  function PageCount(total: nat, limit: int): (r: Option<int>)
    ensures r.None? <==> limit == 0
    ensures limit > 0 ==> r.value >= 0 && r.value * limit >= total && (r.value - 1) * limit < total
  {
    if limit == 0 then None
    else if limit > 0 then Some((total + limit - 1) / limit)
    else Some(-(total / -limit))
  }

  /** `skip(skip).limit(limit)` on the sorted result: a negative skip is
      refused by the database; limit 0 means no limit and a negative limit
      counts as its absolute value. */
  function Window<T>(s: seq<T>, skip: int, limit: int): (r: Result<seq<T>, OrderError>)
    ensures r.Err? <==> skip < 0
    ensures r.Ok? && limit != 0 ==> |r.value| <= if limit > 0 then limit else -limit
    ensures r.Ok? && skip < |s| ==> skip + |r.value| <= |s| && r.value == s[skip..skip + |r.value|]
    ensures r.Ok? && skip < |s| ==>
      var n := if limit > 0 then limit else -limit;
      |r.value| == (if limit == 0 || skip + n > |s| then |s| - skip else n)
    ensures r.Ok? && skip >= |s| ==> r.value == []
  {
    if skip < 0 then Err(ServerError)
    else
      var from := if skip < |s| then skip else |s|;
      var n := if limit > 0 then limit else -limit;
      var to := if limit == 0 || from + n > |s| then |s| else from + n;
      Ok(s[from..to])
  }

  /** Pages 1 to `n` of `s`, one after the other. */
  function Pages<T>(s: seq<T>, limit: nat, n: nat): seq<T>
    requires limit > 0
  {
    if n == 0 then [] else Pages(s, limit, n - 1) + Window(s, (n - 1) * limit, limit).value
  }

  /** Reading pages 1 to `ceil(total / limit)` returns every order exactly
      once, in order. */
  lemma PagesCover<T>(s: seq<T>, limit: nat)
    requires limit > 0
    ensures Pages(s, limit, PageCount(|s|, limit).value) == s
  {
    var n := PageCount(|s|, limit).value;
    PagesPrefix(s, limit, n);
    assert (if n * limit < |s| then n * limit else |s|) == |s|;
  }

  lemma {:induction false} PagesPrefix<T>(s: seq<T>, limit: nat, n: nat)
    requires limit > 0
    ensures Pages(s, limit, n) == s[..if n * limit < |s| then n * limit else |s|]
  {
    if n > 0 {
      PagesPrefix(s, limit, n - 1);
      var a := if (n - 1) * limit < |s| then (n - 1) * limit else |s|;
      var b := if n * limit < |s| then n * limit else |s|;
      assert n * limit == (n - 1) * limit + limit;
      assert s[..b] == s[..a] + s[a..b];
    }
  }
}

=== FILE: admin_users.dfy ===
/** The administrator's view of users: listings without the password
    fields, lookup by id, the cascading delete, and blocking.
 */
module AdminUsers {
  import opened Wrappers
  import opened Text
  import Collections
  import opened Accounts
  import Orders
  import Auth

  /** A user as the listings return it: `select("-password
      -confirmPassword")`. */
  datatype UserView = UserView(
    id: Id,
    name: string,
    email: string,
    accountType: Role,
    otp: Option<string>,
    otpExpires: Option<int>,
    isEmailVerified: bool,
    isActive: bool,
    orders: seq<Id>)

  /** A review; the rating schema is not part of this model beyond its
      author. */
  datatype Review = Review(id: Id, user: Id)

  datatype AdminUserError =
    | InvalidId      // 400 "Invalid user ID format"
    | UserNotFound   // 404
    | Thrown         // the handler throws outside any try, and sets no status

  /** The status the handler answers with; none when it throws before
      answering. */
  function HttpStatus(e: AdminUserError): Option<nat> {
    match e
    case InvalidId => Some(400)
    case UserNotFound => Some(404)
    case Thrown => None
  }

  /** Every field but the two password digests, unchanged. */
  function Hide(u: Account): (v: UserView)
    ensures v.id == u.id && v.name == u.name && v.email == u.email && v.accountType == u.accountType
    ensures v.isActive == u.isActive && v.isEmailVerified == u.isEmailVerified && v.orders == u.orders
    ensures v.otp == u.otp && v.otpExpires == u.otpExpires
  {
    UserView(u.id, u.name, u.email, u.accountType, u.otp, u.otpExpires, u.isEmailVerified, u.isActive, u.orders)
  }

  /** Hiding loses exactly the passwords: two accounts that agree on every
      other field have the same view. */
  lemma HideForgetsOnlyPasswords(u: Account, p: Digest, q: Digest)
    ensures Hide(u) == Hide(u.(password := p, confirmPassword := q))
  {
  }

  /** `getAllUsers`. */
  function GetAllUsers(users: seq<Account>): (r: seq<UserView>)
    ensures |r| == |users| && forall i :: 0 <= i < |users| ==> r[i] == Hide(users[i])
  {
    seq(|users|, i requires 0 <= i < |users| => Hide(users[i]))
  }

  /** `User.find({ accountType: role })` with the passwords hidden:
      `getSellers`, `getBuyers` and `getAllAdmin` for Seller, User and
      Admin. Exactly the users of that role are listed, in store order
      (`ListRoleIsFind`). */
  function ListRole(users: seq<Account>, role: Role): (r: seq<UserView>)
    ensures |r| <= |users|
    ensures forall v :: v in r ==> v.accountType == role
    ensures forall i :: 0 <= i < |users| && users[i].accountType == role ==> Hide(users[i]) in r
    ensures forall v :: v in r ==> exists i :: 0 <= i < |users| && users[i].accountType == role && v == Hide(users[i])
  {
    if |users| == 0 then []
    else
      var rest := ListRole(users[1..], role);
      assert forall i :: 1 <= i < |users| ==> users[i] == users[1..][i - 1];
      if users[0].accountType == role then [Hide(users[0])] + rest else rest
  }

  /** `User.find({ accountType: role })`: the users of the role, in store
      order. */
  function OfRole(users: seq<Account>, role: Role): (r: seq<Account>)
    ensures |r| <= |users|
    ensures forall u :: u in r <==> u in users && u.accountType == role
  {
    Collections.Filter(users, (u: Account) => u.accountType == role)
  }

  lemma HideCons(u: Account, us: seq<Account>)
    ensures GetAllUsers([u] + us) == [Hide(u)] + GetAllUsers(us)
  {
    var a := GetAllUsers([u] + us);
    var b := [Hide(u)] + GetAllUsers(us);
    forall i | 0 <= i < |a|
      ensures a[i] == b[i]
    {
      if i > 0 {
        assert ([u] + us)[i] == us[i - 1];
      }
    }
  }

  /** The listing is the query's result with the passwords hidden: every
      user of the role once, in store order. */
  lemma {:induction false} ListRoleIsFind(users: seq<Account>, role: Role)
    ensures ListRole(users, role) == GetAllUsers(OfRole(users, role))
    decreases |users|
  {
    if |users| > 0 {
      ListRoleIsFind(users[1..], role);
      var rest := OfRole(users[1..], role);
      if users[0].accountType == role {
        assert OfRole(users, role) == [users[0]] + rest;
        HideCons(users[0], rest);
      } else {
        assert OfRole(users, role) == rest;
      }
    }
  }

  function GetSellers(users: seq<Account>): (r: seq<UserView>)
    ensures forall v :: v in r ==> v.accountType == Seller
    ensures forall i :: 0 <= i < |users| && users[i].accountType == Seller ==> Hide(users[i]) in r
    ensures forall v :: v in r ==> exists i :: 0 <= i < |users| && users[i].accountType == Seller && v == Hide(users[i])
    ensures |r| <= |users|
    ensures r == GetAllUsers(OfRole(users, Seller))
  {
    ListRoleIsFind(users, Seller);
    ListRole(users, Seller)
  }

  function GetBuyers(users: seq<Account>): (r: seq<UserView>)
    ensures forall v :: v in r ==> v.accountType == User
    ensures forall i :: 0 <= i < |users| && users[i].accountType == User ==> Hide(users[i]) in r
    ensures forall v :: v in r ==> exists i :: 0 <= i < |users| && users[i].accountType == User && v == Hide(users[i])
    ensures |r| <= |users|
    ensures r == GetAllUsers(OfRole(users, User))
  {
    ListRoleIsFind(users, User);
    ListRole(users, User)
  }

  function GetAllAdmin(users: seq<Account>): (r: seq<UserView>)
    ensures forall v :: v in r ==> v.accountType == Admin
    ensures forall i :: 0 <= i < |users| && users[i].accountType == Admin ==> Hide(users[i]) in r
    ensures forall v :: v in r ==> exists i :: 0 <= i < |users| && users[i].accountType == Admin && v == Hide(users[i])
    ensures |r| <= |users|
    ensures r == GetAllUsers(OfRole(users, Admin))
  {
    ListRoleIsFind(users, Admin);
    ListRole(users, Admin)
  }

  /** The three role listings together list every user. */
  lemma RoleListingsCover(users: seq<Account>, i: nat)
    requires i < |users|
    ensures Hide(users[i]) in GetSellers(users) || Hide(users[i]) in GetBuyers(users) || Hide(users[i]) in GetAllAdmin(users)
  {
  }

  /** `getUserById`, reading the id from the request body (`None` when it
      is absent or not a string). Without a string, `userId.match` throws
      and nothing catches it; an id that is not 24 hexadecimal digits is a
      400, an unknown one a 404; otherwise the user without the
      passwords. */
  function GetUserById(users: seq<Account>, id: Option<string>): (r: Result<UserView, AdminUserError>)
    ensures id.None? ==> r == Err(Thrown)
    ensures id.Some? && !IsHexObjectId(id.value) ==> r == Err(InvalidId)
    ensures id.Some? && IsHexObjectId(id.value) && FindById(users, id.value).None? ==> r == Err(UserNotFound)
    ensures r.Ok? ==> exists i :: 0 <= i < |users| && users[i].id == id.value && r.value == Hide(users[i])
    ensures r.Ok? <==> id.Some? && IsHexObjectId(id.value) && exists i :: 0 <= i < |users| && users[i].id == id.value
  {
    match id
    case None => Err(Thrown)
    case Some(text) =>
      if !IsHexObjectId(text) then Err(InvalidId)
      else match FindById(users, text)
        case None => Err(UserNotFound)
        case Some(i) => Ok(Hide(users[i]))
  }

  /** The orders store without the orders of `user`. */
  function OrdersWithout(orders: map<Id, Orders.Order>, user: Id): (r: map<Id, Orders.Order>)
    ensures forall o :: o in r <==> o in orders && orders[o].user != user
    ensures forall o :: o in r ==> r[o] == orders[o]
  {
    map o | o in orders && orders[o].user != user :: orders[o]
  }

  /** `deleteUser`: an unknown user is a 404 and nothing changes.
      Otherwise every order and every review of the user goes, then the
      user; everything else stays, the products' stock included, which
      the deleted orders do not give back. */
  function DeleteUser(db: Orders.Db, reviews: seq<Review>, id: Id): (r: (Orders.Db, seq<Review>, Result<(), AdminUserError>))
    ensures FindById(db.users, id).None? ==> r == (db, reviews, Err(UserNotFound))
    ensures FindById(db.users, id).Some? ==>
      var (after, kept, result) := r;
      && result.Ok?
      && (forall o :: o in after.orders <==> o in db.orders && db.orders[o].user != id)
      && (forall o :: o in after.orders ==> after.orders[o] == db.orders[o])
      && (forall v :: v in kept <==> v in reviews && v.user != id)
      && after.users == Collections.RemoveAt(db.users, FindById(db.users, id).value)
      && after.products == db.products && after.addresses == db.addresses
  {
    match FindById(db.users, id)
    case None => (db, reviews, Err(UserNotFound))
    case Some(i) =>
      var after := db.(orders := OrdersWithout(db.orders, id), users := Collections.RemoveAt(db.users, i));
      (after, Collections.Filter(reviews, (v: Review) => v.user != id), Ok(()))
  }

  /** With unique ids, nothing of the deleted user is left: no account with
      that id, no order and no review of theirs. */
  lemma DeleteUserLeavesNothing(db: Orders.Db, reviews: seq<Review>, id: Id)
    requires FindById(db.users, id).Some?
    requires forall a, b :: 0 <= a < b < |db.users| ==> db.users[a].id != db.users[b].id
    ensures var (after, kept, _) := DeleteUser(db, reviews, id);
      && (forall j :: 0 <= j < |after.users| ==> after.users[j].id != id)
      && (forall o :: o in after.orders ==> after.orders[o].user != id)
      && (forall v :: v in kept ==> v.user != id)
  {
    var i := FindById(db.users, id).value;
    var after := DeleteUser(db, reviews, id).0;
    forall j | 0 <= j < |after.users| ensures after.users[j].id != id {
      if j < i {
        assert after.users[j] == db.users[j];
      } else {
        assert after.users[j] == db.users[j + 1];
      }
    }
  }

  /** `blockOrUnblockUser`: an id that is not 24 hexadecimal digits is a
      400, an unknown one a 404; otherwise only `isActive` is negated. */
  function BlockOrUnblock(users: seq<Account>, id: string): (r: Result<seq<Account>, AdminUserError>)
    ensures !IsHexObjectId(id) ==> r == Err(InvalidId)
    ensures IsHexObjectId(id) && FindById(users, id).None? ==> r == Err(UserNotFound)
    ensures r.Ok? <==> IsHexObjectId(id) && FindById(users, id).Some?
    ensures r.Ok? ==> var i := FindById(users, id).value;
      r.value == Put(users, i, users[i].(isActive := !users[i].isActive))
  {
    if !IsHexObjectId(id) then Err(InvalidId)
    else match FindById(users, id)
      case None => Err(UserNotFound)
      case Some(i) => Ok(Put(users, i, users[i].(isActive := !users[i].isActive)))
  }

  /** Blocking twice restores the users. */
  lemma BlockTwice(users: seq<Account>, id: string)
    requires BlockOrUnblock(users, id).Ok?
    ensures BlockOrUnblock(BlockOrUnblock(users, id).value, id) == Ok(users)
  {
    var i := FindById(users, id).value;
    var once := BlockOrUnblock(users, id).value;
    assert FindById(once, id) == Some(i) by {
      assert once[i].id == id;
      assert forall j :: 0 <= j < i ==> once[j] == users[j];
      SameFind(users, once, id, i);
    }
    assert Put(once, i, once[i].(isActive := !once[i].isActive)) == users;
  }

  /** `findById` finds the same first match in two stores that agree on
      the ids up to and including that match. */
  lemma SameFind(a: seq<Account>, b: seq<Account>, id: Id, i: nat)
    requires FindById(a, id) == Some(i) && i < |b| && b[i].id == id
    requires forall j :: 0 <= j < i ==> b[j] == a[j]
    ensures FindById(b, id) == Some(i)
  {
  }

  /** A verified, active user whom an administrator blocks can no longer
      log in, whatever password they give. */
  lemma BlockThenLogin(users: seq<Account>, id: string, email: string, password: string,
                       matches: (string, Digest) -> bool)
    requires IsHexObjectId(id) && email != "" && password != ""
    requires FindById(users, id).Some? && FindByEmail(users, email) == FindById(users, id)
    requires users[FindById(users, id).value].isActive && users[FindById(users, id).value].isEmailVerified
    ensures Auth.Login(BlockOrUnblock(users, id).value, Some(email), Some(password), matches) == Err(Auth.Blocked)
  {
    var i := FindById(users, id).value;
    var u := users[i].(isActive := false);
    FindAfterPut(users, email, i, u);
  }
}

=== FILE: attribute_groups.dfy ===
/** Attribute groups (Size, Colour, ...): creation with its validation, the
    update that re-derives a unique slug on rename and normalises the value
    list, and the publication toggle.

    `slugify(name, { lower: true })` is the parameter `slugify`; its output
    is taken to be what the slug setters (lower-case, trim) leave as it is.
 */
module AttributeGroups {
  import opened Wrappers
  import opened Text
  import Collections

  /** `displayType`. */
  datatype DisplayType = Dropdown | Radio | Checkbox

  function ParseDisplayType(s: string): (r: Option<DisplayType>)
    ensures r == Some(Dropdown) <==> s == "dropdown"
    ensures r == Some(Radio) <==> s == "radio"
    ensures r == Some(Checkbox) <==> s == "checkbox"
  {
    if s == "dropdown" then Some(Dropdown) else if s == "radio" then Some(Radio)
    else if s == "checkbox" then Some(Checkbox) else None
  }

  datatype Group = Group(
    id: Id,
    name: string,
    displayName: string,
    slug: string,
    subCategory: Option<Id>,
    isVariant: bool,
    isFilterable: bool,
    displayType: DisplayType,
    createdBy: Id,
    published: bool,
    values: seq<string>)

  datatype GroupError =
    | MissingFields        // 400
    | SubCategoryNotFound  // 400
    | DuplicateName        // 409
    | InvalidValues        // 400 "Each attribute value must be a non-empty string."
    | GroupNotFound        // 404
    | ServerError          // 500, including what `save` or a unique index refuses

  function HttpStatus(e: GroupError): nat {
    match e
    case DuplicateName => 409
    case GroupNotFound => 404
    case ServerError => 500
    case _ => 400
  }

  /** What the validators of `save` demand: a name and a display name
      (non-empty once trimmed, as the setters store them), and no empty
      value. */
  predicate ValidGroup(g: Group) {
    g.name != "" && g.displayName != "" && forall i :: 0 <= i < |g.values| ==> g.values[i] != ""
  }

  /** The unique indexes on `name` and `slug`. */
  predicate UniqueNames(groups: seq<Group>) {
    forall i, j :: 0 <= i < j < |groups| ==> groups[i].name != groups[j].name
  }

  predicate UniqueSlugs(groups: seq<Group>) {
    forall i, j :: 0 <= i < j < |groups| ==> groups[i].slug != groups[j].slug
  }

  /** The unique `_id`, `name` and `slug` of the collection. */
  predicate Indexed(groups: seq<Group>) {
    && (forall i, j :: 0 <= i < j < |groups| ==> groups[i].id != groups[j].id)
    && UniqueNames(groups) && UniqueSlugs(groups)
  }

  predicate NameTaken(groups: seq<Group>, name: string) {
    exists i :: 0 <= i < |groups| && groups[i].name == name
  }

  predicate SlugTaken(groups: seq<Group>, slug: string) {
    exists i :: 0 <= i < |groups| && groups[i].slug == slug
  }

  // ---------------------------------------------------------------------
  // Values

  /** One element of a `values` array: a string or anything else. */
  datatype ValueItem = Text(s: string) | NotText

  /** The `values` field of a body: absent, an array, or something else. */
  datatype ValuesField = Absent | List(items: seq<ValueItem>) | NotList

  predicate AllTexts(items: seq<ValueItem>) {
    forall i :: 0 <= i < |items| ==> items[i].Text?
  }

  /** Every element a string that is not blank. */
  predicate AllUsable(items: seq<ValueItem>) {
    forall i :: 0 <= i < |items| ==> items[i].Text? && !IsBlank(items[i].s)
  }

  function Texts(items: seq<ValueItem>): (r: seq<string>)
    requires AllTexts(items)
    ensures |r| == |items| && forall i :: 0 <= i < |items| ==> r[i] == items[i].s
  {
    seq(|items|, i requires 0 <= i < |items| => items[i].s)
  }

  /** `values.map(v => v.trim()).filter(Boolean)`: every value trimmed,
      the empty results dropped, the order kept. */
  function CleanValues(values: seq<string>): (r: seq<string>)
    ensures |r| <= |values|
    ensures forall v :: v in r ==> v != "" && NoEdgeSpace(v)
    ensures forall v :: v in r <==> KeptValue(values, v)
  {
    if |values| == 0 then []
    else
      var rest := CleanValues(values[1..]);
      var t := Trim(values[0]);
      KeptValueCons(values);
      if t == "" then rest
      else
        var r := [t] + rest;
        assert NoEdgeSpace(t);
        assert r[0] == t && r[1..] == rest;
        assert forall v :: v in r <==> v == t || v in rest;
        r
  }

  /** Some value of `values` trims to the non-empty `v`. */
  predicate KeptValue(values: seq<string>, v: string) {
    exists i :: 0 <= i < |values| && v == Trim(values[i]) && v != ""
  }

  lemma KeptValueCons(values: seq<string>)
    requires |values| > 0
    ensures forall v :: KeptValue(values, v) <==> (v == Trim(values[0]) && v != "") || KeptValue(values[1..], v)
  {
    forall v | KeptValue(values[1..], v)
      ensures KeptValue(values, v)
    {
      var i :| 0 <= i < |values[1..]| && v == Trim(values[1..][i]) && v != "";
      assert values[i + 1] == values[1..][i];
      assert 0 <= i + 1 < |values| && v == Trim(values[i + 1]);
    }
    forall v | KeptValue(values, v) && !(v == Trim(values[0]) && v != "")
      ensures KeptValue(values[1..], v)
    {
      var i :| 0 <= i < |values| && v == Trim(values[i]) && v != "";
      assert i != 0;
      assert values[1..][i - 1] == values[i];
      assert 0 <= i - 1 < |values[1..]| && v == Trim(values[1..][i - 1]);
    }
  }

  /** Cleaning a cleaned list changes nothing. */
  lemma {:induction false} CleanValuesIdempotent(values: seq<string>)
    ensures CleanValues(CleanValues(values)) == CleanValues(values)
  {
    if |values| > 0 {
      var rest := CleanValues(values[1..]);
      CleanValuesIdempotent(values[1..]);
      if Trim(values[0]) != "" {
        var c := [Trim(values[0])] + rest;
        TrimIdempotent(values[0]);
        assert c[1..] == rest;
      }
    }
  }

  // ---------------------------------------------------------------------
  // Create

  datatype CreateInput = CreateInput(
    name: Option<string>,
    displayName: Option<string>,
    subCategory: Option<Id>,
    isVariant: Option<bool>,
    isFilterable: Option<bool>,
    displayType: Option<string>,
    values: ValuesField)

  /** The three required fields of `createAttributeGroup`, the display
      type defaulting to "radio". */
  predicate HasRequiredFields(input: CreateInput) {
    Given(input.name) && Given(input.displayName) && input.displayType != Some("")
  }

  /** A given sub-category casts to an ObjectId and names a known
      sub-category; an absent one is fine. */
  predicate SubCategoryKnown(input: CreateInput, subCategories: set<Id>, castable: Id -> bool) {
    Given(input.subCategory) ==> castable(input.subCategory.value) && input.subCategory.value in subCategories
  }

  /** The document `createAttributeGroup` passes to `create`: trimmed name,
      display name and values (a blank name or display name trims to ""
      and is left to the validators), the slug of the name as sent, the flags
      defaulting to true, published, and the requester as creator. */
  function BuiltGroup(id: Id, creator: Id, input: CreateInput, kind: DisplayType, slugify: string -> string): (g: Group)
    requires HasRequiredFields(input) && !input.values.NotList? && AllUsable(Items(input.values))
    ensures g.id == id && g.createdBy == creator && g.published
    ensures forall i :: 0 <= i < |g.values| ==> g.values[i] != ""
    ensures g.name == Trim(input.name.value) && g.displayName == Trim(input.displayName.value)
    ensures g.slug == slugify(input.name.value) && g.displayType == kind
    ensures g.subCategory == (if Given(input.subCategory) then input.subCategory else None)
    ensures g.isVariant == input.isVariant.GetOr(true) && g.isFilterable == input.isFilterable.GetOr(true)
    ensures g.values == TrimAll(Texts(Items(input.values)))
  {
    UsableValuesStay(Items(input.values));
    Group(id, Trim(input.name.value), Trim(input.displayName.value), slugify(input.name.value),
          if Given(input.subCategory) then input.subCategory else None,
          input.isVariant.GetOr(true), input.isFilterable.GetOr(true), kind, creator, true,
          TrimAll(Texts(Items(input.values))))
  }

  /** `createAttributeGroup`. In order: name, display name and display type
      (defaulting to "radio") present (400); a given sub-category must
      cast to an ObjectId (the lookup throws, 500) and exist (400); no
      group may hold the trimmed name (409); `values` (an empty list by
      default) must be an array of strings that are not blank (400). The
      group then stores trimmed name, display name and values, the flags
      defaulting to true, published; an unknown display type or a slug
      already held by another group is refused on create (500). */
  function CreateGroup(groups: seq<Group>, subCategories: set<Id>, id: Id, creator: Id, input: CreateInput,
                       slugify: string -> string, castable: Id -> bool): (r: Result<seq<Group>, GroupError>)
    requires FindGroup(groups, id).None?
    ensures !HasRequiredFields(input) ==> r == Err(MissingFields)
    ensures (HasRequiredFields(input) && Given(input.subCategory) && !castable(input.subCategory.value))
            ==> r == Err(ServerError)
    ensures (HasRequiredFields(input) && Given(input.subCategory) && castable(input.subCategory.value)
             && input.subCategory.value !in subCategories)
            ==> r == Err(SubCategoryNotFound)
    ensures (HasRequiredFields(input) && SubCategoryKnown(input, subCategories, castable)
             && NameTaken(groups, Trim(input.name.value)))
            ==> r == Err(DuplicateName)
    ensures (HasRequiredFields(input) && SubCategoryKnown(input, subCategories, castable)
             && !NameTaken(groups, Trim(input.name.value))
             && (input.values.NotList? || !AllUsable(Items(input.values))))
            ==> r == Err(InvalidValues)
    ensures (HasRequiredFields(input) && SubCategoryKnown(input, subCategories, castable)
             && !NameTaken(groups, Trim(input.name.value))
             && !input.values.NotList? && AllUsable(Items(input.values)))
            ==> match ParseDisplayType(input.displayType.GetOr("radio"))
                case None => r == Err(ServerError)
                case Some(kind) => r == StoreGroup(groups, BuiltGroup(id, creator, input, kind, slugify))
    ensures r.Ok? ==> HasRequiredFields(input) && SubCategoryKnown(input, subCategories, castable)
    ensures r.Ok? ==> !NameTaken(groups, Trim(input.name.value)) && !SlugTaken(groups, slugify(input.name.value))
    ensures r.Ok? ==> |r.value| == |groups| + 1 && r.value[..|groups|] == groups
    ensures r.Ok? ==> !input.values.NotList? && AllUsable(Items(input.values))
    ensures r.Ok? ==> ParseDisplayType(input.displayType.GetOr("radio")).Some?
    ensures r.Ok? ==>
      && ValidGroup(r.value[|groups|])
      && r.value[|groups|] == BuiltGroup(id, creator, input, ParseDisplayType(input.displayType.GetOr("radio")).value, slugify)
    ensures Indexed(groups) && r.Ok? ==> Indexed(r.value)
  {
    if !HasRequiredFields(input) then Err(MissingFields)
    else if Given(input.subCategory) && !castable(input.subCategory.value) then Err(ServerError)
    else if Given(input.subCategory) && input.subCategory.value !in subCategories then Err(SubCategoryNotFound)
    else if NameTaken(groups, Trim(input.name.value)) then Err(DuplicateName)
    else if input.values.NotList? || !AllUsable(Items(input.values)) then Err(InvalidValues)
    else
      match ParseDisplayType(input.displayType.GetOr("radio"))
      case None => Err(ServerError)
      case Some(kind) => StoreGroup(groups, BuiltGroup(id, creator, input, kind, slugify))
  }

  /** A create that was accepted cannot be repeated: the same body, under
      any fresh id, now finds its trimmed name taken (409). */
  lemma CreateTwiceRefused(groups: seq<Group>, subCategories: set<Id>, id: Id, id2: Id, creator: Id,
                           input: CreateInput, slugify: string -> string, castable: Id -> bool)
    requires FindGroup(groups, id).None?
    requires CreateGroup(groups, subCategories, id, creator, input, slugify, castable).Ok?
    requires FindGroup(CreateGroup(groups, subCategories, id, creator, input, slugify, castable).value, id2).None?
    ensures var once := CreateGroup(groups, subCategories, id, creator, input, slugify, castable).value;
      CreateGroup(once, subCategories, id2, creator, input, slugify, castable) == Err(DuplicateName)
  {
    var once := CreateGroup(groups, subCategories, id, creator, input, slugify, castable).value;
    assert once[|groups|].name == Trim(input.name.value);
  }

  /** The elements of a `values` field; an absent field is the default
      empty array. */
  function Items(values: ValuesField): (r: seq<ValueItem>)
    ensures values.List? ==> r == values.items
    ensures !values.List? ==> r == []
  {
    if values.List? then values.items else []
  }

  /** Strings that are not blank stay non-empty once trimmed. */
  lemma UsableValuesStay(items: seq<ValueItem>)
    requires AllUsable(items)
    ensures forall i :: 0 <= i < |items| ==> TrimAll(Texts(items))[i] != ""
  {
    forall i | 0 <= i < |items| ensures TrimAll(Texts(items))[i] != "" {
      TrimEmptyIffBlank(items[i].s);
    }
  }

  /** `AttributeGroup.create`: `save`'s validators and the unique slug
      index decide; a refusal is a 500. */
  function StoreGroup(groups: seq<Group>, g: Group): (r: Result<seq<Group>, GroupError>)
    ensures r.Ok? <==> ValidGroup(g) && !SlugTaken(groups, g.slug)
    ensures r.Err? ==> r.error == ServerError
    ensures r.Ok? ==> |r.value| == |groups| + 1 && r.value[..|groups|] == groups && r.value[|groups|] == g
    ensures Indexed(groups) && r.Ok? && FindGroup(groups, g.id).None? && !NameTaken(groups, g.name) ==> Indexed(r.value)
  {
    if !ValidGroup(g) || SlugTaken(groups, g.slug) then Err(ServerError)
    else
      assert (groups + [g])[..|groups|] == groups;
      Ok(groups + [g])
  }

  // ---------------------------------------------------------------------
  // Slug de-duplication

  /** `${baseSlug}-${n}`. */
  function Candidate(base: string, n: nat): string {
    base + "-" + NatToString(n)
  }

  lemma CandidateInjective(base: string, m: nat, n: nat)
    requires Candidate(base, m) == Candidate(base, n)
    ensures m == n
  {
    var k := |base| + 1;
    assert Candidate(base, m)[k..] == NatToString(m);
    assert Candidate(base, n)[k..] == NatToString(n);
    NatToStringInjective(m, n);
  }

  /** The candidates tried before `n`. */
  function Tried(base: string, n: nat): (r: set<string>)
    ensures forall s :: s in r <==> exists k :: 1 <= k < n && s == Candidate(base, k)
  {
    set k | 1 <= k < n :: Candidate(base, k)
  }

  /** The loop of `updateAttributeGroup` from suffix `n` on: the first
      suffix whose candidate no other group holds. `remaining` is the set
      of taken slugs not tried yet, which shrinks at every step. */
  function FreeSuffix(base: string, n: nat, taken: set<string>, remaining: set<string>): (r: nat)
    requires n >= 1 && remaining == taken - Tried(base, n)
    ensures r >= n && Candidate(base, r) !in taken
    ensures forall k :: n <= k < r ==> Candidate(base, k) in taken
    decreases remaining
  {
    var c := Candidate(base, n);
    if c !in taken then n
    else
      assert c !in Tried(base, n) by {
        if c in Tried(base, n) {
          var k :| 1 <= k < n && c == Candidate(base, k);
          CandidateInjective(base, k, n);
        }
      }
      assert remaining - {c} == taken - Tried(base, n + 1);
      FreeSuffix(base, n + 1, taken, remaining - {c})
  }

  /** The slugs of the groups other than `id`. */
  function OtherSlugs(groups: seq<Group>, id: Id): (r: set<string>)
    ensures forall s :: s in r <==> exists i :: 0 <= i < |groups| && groups[i].id != id && groups[i].slug == s
  {
    set i | 0 <= i < |groups| && groups[i].id != id :: groups[i].slug
  }

  /** The slug a rename settles on: the base slug when no other group holds
      it, otherwise `base-n` for the smallest `n >= 1` no other group
      holds. */
  function UniqueSlug(base: string, taken: set<string>): (r: string)
    ensures r !in taken
    ensures base !in taken ==> r == base
    ensures base in taken ==>
      exists n :: (n >= 1 && r == Candidate(base, n) && forall k :: 1 <= k < n ==> Candidate(base, k) in taken)
  {
    if base !in taken then base
    else
      assert Tried(base, 1) == {};
      Candidate(base, FreeSuffix(base, 1, taken, taken))
  }

  // ---------------------------------------------------------------------
  // Update

  datatype GroupPatch = GroupPatch(
    name: Option<string>,
    displayName: Option<string>,
    subCategory: Option<Id>,
    isVariant: Option<bool>,
    isFilterable: Option<bool>,
    displayType: Option<string>,
    values: ValuesField)

  /** `AttributeGroup.findById`. */
  function FindGroup(groups: seq<Group>, id: Id): (r: Option<nat>)
    ensures r.Some? ==> r.value < |groups| && groups[r.value].id == id
    ensures r.Some? ==> forall j :: 0 <= j < r.value ==> groups[j].id != id
    ensures r.None? <==> forall j :: 0 <= j < |groups| ==> groups[j].id != id
  {
    Collections.FirstIndex(groups, (g: Group) => g.id == id)
  }

  /** A `name` in the body renames the group when it is given and its
      trimmed form differs from the stored name. */
  predicate Renames(g: Group, patch: GroupPatch) {
    Given(patch.name) && Trim(patch.name.value) != g.name
  }

  /** The group with the body's fields assigned, given the slug and the
      display type already settled. */
  function PatchGroup(g: Group, patch: GroupPatch, slug: string, kind: DisplayType): (h: Group)
    requires patch.values.List? ==> AllTexts(patch.values.items)
    ensures h.id == g.id && h.createdBy == g.createdBy && h.published == g.published
    ensures h.slug == slug && h.displayType == kind
    ensures h.name == (if Renames(g, patch) then Trim(patch.name.value) else g.name)
    ensures h.displayName == (if patch.displayName.Some? then Trim(patch.displayName.value) else g.displayName)
    ensures h.subCategory == (if patch.subCategory.Some? then patch.subCategory else g.subCategory)
    ensures h.isVariant == patch.isVariant.GetOr(g.isVariant) && h.isFilterable == patch.isFilterable.GetOr(g.isFilterable)
    ensures h.values == (if patch.values.List? then CleanValues(Texts(patch.values.items)) else g.values)
  {
    g.(
      name := if Renames(g, patch) then Trim(patch.name.value) else g.name,
      slug := slug,
      displayName := if patch.displayName.Some? then Trim(patch.displayName.value) else g.displayName,
      subCategory := if patch.subCategory.Some? then patch.subCategory else g.subCategory,
      isVariant := patch.isVariant.GetOr(g.isVariant),
      isFilterable := patch.isFilterable.GetOr(g.isFilterable),
      displayType := kind,
      values := if patch.values.List? then CleanValues(Texts(patch.values.items)) else g.values)
  }

  /** The slug after an update: re-derived on a rename, kept otherwise. */
  function NewSlug(groups: seq<Group>, g: Group, patch: GroupPatch, slugify: string -> string): (r: string)
    ensures Renames(g, patch) ==> r !in OtherSlugs(groups, g.id)
    ensures !Renames(g, patch) ==> r == g.slug
  {
    if Renames(g, patch) then UniqueSlug(slugify(Trim(patch.name.value)), OtherSlugs(groups, g.id)) else g.slug
  }

  /** The display type after an update: the given one parsed (an unknown
      one is none, which `save` refuses), or the stored one. */
  function PatchKind(g: Group, patch: GroupPatch): (r: Option<DisplayType>)
    ensures patch.displayType.None? ==> r == Some(g.displayType)
    ensures patch.displayType.Some? ==> r == ParseDisplayType(patch.displayType.value)
  {
    if patch.displayType.Some? then ParseDisplayType(patch.displayType.value) else Some(g.displayType)
  }

  /** `updateAttributeGroup`. A group that is not found is a 404. A name
      whose trimmed form differs from the stored one renames the group and
      re-derives the slug through `UniqueSlug`, against the slugs of the
      other groups; a name another group holds is refused by the unique
      index (500). Each other field given is assigned (display name
      trimmed); an array of values is cleaned (a non-string element is a
      500). `save` refuses a blank name or display name, an unknown
      display type and a sub-category that does not cast to an ObjectId
      (500). */
  function UpdateGroup(groups: seq<Group>, id: Id, patch: GroupPatch, slugify: string -> string,
                       castable: Id -> bool)
    : (r: Result<seq<Group>, GroupError>)
    ensures FindGroup(groups, id).None? ==> r == Err(GroupNotFound)
    ensures FindGroup(groups, id).Some? && r.Err? ==> r.error == ServerError
    ensures r.Ok? <==>
      && FindGroup(groups, id).Some?
      && var g := groups[FindGroup(groups, id).value];
         && PatchKind(g, patch).Some?
         && (patch.values.List? ==> AllTexts(patch.values.items))
         && (patch.subCategory.Some? ==> castable(patch.subCategory.value))
         && ValidGroup(PatchGroup(g, patch, NewSlug(groups, g, patch, slugify), PatchKind(g, patch).value))
         && !(Renames(g, patch) && NameHeldElsewhere(groups, FindGroup(groups, id).value, Trim(patch.name.value)))
    ensures r.Ok? ==>
      && FindGroup(groups, id).Some?
      && var i := FindGroup(groups, id).value;
         && PatchKind(groups[i], patch).Some? && (patch.values.List? ==> AllTexts(patch.values.items))
         && r.value == groups[i := PatchGroup(groups[i], patch, NewSlug(groups, groups[i], patch, slugify),
                                              PatchKind(groups[i], patch).value)]
    ensures r.Ok? ==> FindGroup(groups, id).Some? && |r.value| == |groups|
    ensures r.Ok? ==> var i := FindGroup(groups, id).value;
      forall j :: 0 <= j < |groups| && j != i ==> r.value[j] == groups[j]
    ensures r.Ok? ==> var i := FindGroup(groups, id).value;
      ValidGroup(r.value[i]) && r.value[i].id == id && r.value[i].published == groups[i].published
    ensures r.Ok? ==> var i := FindGroup(groups, id).value;
      Renames(groups[i], patch) ==>
        && r.value[i].name == Trim(patch.name.value)
        && r.value[i].slug == UniqueSlug(slugify(Trim(patch.name.value)), OtherSlugs(groups, id))
    ensures r.Ok? ==> var i := FindGroup(groups, id).value;
      !Renames(groups[i], patch) ==> r.value[i].name == groups[i].name && r.value[i].slug == groups[i].slug
    ensures r.Ok? && patch.values.List? ==> AllTexts(patch.values.items)
    ensures r.Ok? && patch.values.List? && AllTexts(patch.values.items) ==>
      r.value[FindGroup(groups, id).value].values == CleanValues(Texts(patch.values.items))
    ensures r.Ok? && !patch.values.List? ==> var i := FindGroup(groups, id).value;
      r.value[i].values == groups[i].values
    ensures r.Ok? && patch.displayName.Some? ==> var i := FindGroup(groups, id).value;
      r.value[i].displayName == Trim(patch.displayName.value)
    ensures Indexed(groups) && r.Ok? ==> Indexed(r.value)
  {
    match FindGroup(groups, id)
    case None => Err(GroupNotFound)
    case Some(i) =>
      var g := groups[i];
      var kind := PatchKind(g, patch);
      if kind.None? then Err(ServerError)
      else if patch.values.List? && !AllTexts(patch.values.items) then Err(ServerError)
      else if patch.subCategory.Some? && !castable(patch.subCategory.value) then Err(ServerError)
      else
        var h := PatchGroup(g, patch, NewSlug(groups, g, patch, slugify), kind.value);
        if !ValidGroup(h) then Err(ServerError)
        else if Renames(g, patch) && NameHeldElsewhere(groups, i, h.name) then Err(ServerError)
        else
          UpdateKeepsIndexed(groups, i, h);
          Ok(groups[i := h])
  }

  /** Sending the same update twice leaves what the first one left: the
      renamed group no longer differs from the body's name, so its slug is
      kept, and every other assignment writes the value already there. */
  lemma UpdateGroupIdempotent(groups: seq<Group>, id: Id, patch: GroupPatch, slugify: string -> string,
                              castable: Id -> bool)
    requires UpdateGroup(groups, id, patch, slugify, castable).Ok?
    ensures var once := UpdateGroup(groups, id, patch, slugify, castable).value;
      UpdateGroup(once, id, patch, slugify, castable) == Ok(once)
  {
    var once := UpdateGroup(groups, id, patch, slugify, castable).value;
    var i := FindGroup(groups, id).value;
    var h := once[i];
    assert FindGroup(once, id) == Some(i) by {
      assert forall j :: 0 <= j < i ==> once[j] == groups[j];
    }
    assert !Renames(h, patch);
    if patch.displayName.Some? {
      TrimIdempotent(patch.displayName.value);
    }
    assert PatchKind(h, patch) == Some(h.displayType);
    var h2 := PatchGroup(h, patch, NewSlug(once, h, patch, slugify), h.displayType);
    assert h2 == h;
    assert once[i := h2] == once;
  }

  /** A body with no field leaves a valid group, and so the collection,
      as it was. */
  lemma EmptyPatchKeepsGroup(groups: seq<Group>, id: Id, slugify: string -> string, castable: Id -> bool)
    requires FindGroup(groups, id).Some? && ValidGroup(groups[FindGroup(groups, id).value])
    ensures UpdateGroup(groups, id, GroupPatch(None, None, None, None, None, None, Absent), slugify, castable) == Ok(groups)
  {
    var i := FindGroup(groups, id).value;
    assert groups[i := groups[i]] == groups;
  }

  predicate NameHeldElsewhere(groups: seq<Group>, i: nat, name: string) {
    exists j :: 0 <= j < |groups| && j != i && groups[j].name == name
  }

  /** Writing back a group under its own id, with a name no other group
      holds (or its own) and a slug no other group holds (or its own),
      keeps the three indexes. */
  lemma UpdateKeepsIndexed(groups: seq<Group>, i: nat, h: Group)
    requires i < |groups| && h.id == groups[i].id
    requires h.name == groups[i].name || !NameHeldElsewhere(groups, i, h.name)
    requires h.slug == groups[i].slug || h.slug !in OtherSlugs(groups, h.id)
    ensures Indexed(groups) ==> Indexed(groups[i := h])
  {
    if Indexed(groups) {
      var r := groups[i := h];
      forall j, k | 0 <= j < k < |r| ensures r[j].slug != r[k].slug {
        if j == i && h.slug != groups[i].slug {
          assert groups[k].id != h.id;
        } else if k == i && h.slug != groups[i].slug {
          assert groups[j].id != h.id;
        }
      }
    }
  }

  /** `togglePublished`: 404 for an unknown group; otherwise only
      `published` is negated. */
  function TogglePublished(groups: seq<Group>, id: Id): (r: Result<seq<Group>, GroupError>)
    ensures r.Err? <==> FindGroup(groups, id).None?
    ensures r.Err? ==> r.error == GroupNotFound
    ensures r.Ok? ==>
      var i := FindGroup(groups, id).value;
      r.value == groups[i := groups[i].(published := !groups[i].published)]
  {
    match FindGroup(groups, id)
    case None => Err(GroupNotFound)
    case Some(i) => Ok(groups[i := groups[i].(published := !groups[i].published)])
  }

  /** Toggling twice restores the collection. */
  lemma ToggleTwice(groups: seq<Group>, id: Id)
    requires TogglePublished(groups, id).Ok?
    ensures TogglePublished(TogglePublished(groups, id).value, id) == Ok(groups)
  {
    var i := FindGroup(groups, id).value;
    var once := TogglePublished(groups, id).value;
    assert forall j :: 0 <= j < |groups| ==> once[j].id == groups[j].id;
    assert FindGroup(once, id) == FindGroup(groups, id) by {
      SameIdsSameFind(groups, once, id);
    }
    assert once[i := once[i].(published := !once[i].published)] == groups;
  }

  /** Two collections with the same ids at the same positions answer
      `findById` alike. */
  lemma SameIdsSameFind(a: seq<Group>, b: seq<Group>, id: Id)
    requires |a| == |b| && forall j :: 0 <= j < |a| ==> a[j].id == b[j].id
    ensures FindGroup(a, id) == FindGroup(b, id)
  {
  }
}

=== FILE: auth.dfy ===
/** The account life cycle of the authentication controller: one-time
    passwords, e-mail sign-up and verification, log-in gates, password
    recovery, and the mobile-number log-in.

    Password hashing is the injective `Accounts.Digest`; `bcrypt.compare` is
    the parameter `matches`; `Math.random()` is the parameter `draw`; the
    clock is the parameter `now` (milliseconds). Sending mail or SMS writes
    nothing and is not modelled.
 */
module Auth {
  import opened Wrappers
  import opened Text
  import Collections
  import opened Accounts

  datatype AuthError =
    | MissingFields     // 400 "... required"
    | PasswordMismatch  // 400 "Passwords do not match"
    | EmailTaken        // 400 "Email already registered"
    | UserNotFound      // 404
    | WrongOtp          // 400 "Invalid OTP"
    | StaleOtp          // 400 "OTP has expired" / "OTP expired"
    | AlreadyVerified   // 400 "Email already verified"
    | NotVerified       // 403 "Email not verified"
    | Blocked           // 403 "you are blocked"
    | WrongPassword     // 401 "Invalid password"
    | ServerError       // 500

  function HttpStatus(e: AuthError): nat {
    match e
    case UserNotFound => 404
    case NotVerified => 403
    case Blocked => 403
    case WrongPassword => 401
    case ServerError => 500
    case _ => 400
  }

  /** The user collection after a request and the response. */
  datatype Reply<T> = Reply(users: seq<Account>, result: Result<T, AuthError>)

  // ---------------------------------------------------------------------
  // One-time passwords

  /** `generateOtp`: `Math.floor(100000 + Math.random() * 900000)` rendered
      in decimal, where `draw` is the integer part of the random product. */
  function GenerateOtp(draw: nat): (r: string)
    requires draw < 900000
    ensures |r| == 6 && AllDigits(r) && r[0] != '0'
    ensures DigitsValue(r) == 100000 + draw
  {
    var n := 100000 + draw;
    assert Pow10(5) == 100000 && Pow10(6) == 1000000 by {
      assert Pow10(1) == 10;
      assert Pow10(2) == 100;
      assert Pow10(3) == 1000;
      assert Pow10(4) == 10000;
    }
    NatToStringLength(n, 6);
    NatToStringRoundTrip(n);
    NatToString(n)
  }

  /** The password reads back, with `parseInt`, as the number drawn. */
  lemma OtpValue(draw: nat)
    requires draw < 900000
    ensures ParseInt(GenerateOtp(draw)) == Some(100000 + draw)
  {
    ParseIntOfDigits(GenerateOtp(draw));
  }

  /** Different draws give different passwords, so the 900000 draws give
      900000 passwords. */
  lemma OtpDistinct(a: nat, b: nat)
    requires a < 900000 && b < 900000 && a != b
    ensures GenerateOtp(a) != GenerateOtp(b)
  {
    OtpValue(a);
    OtpValue(b);
  }

  /** Distinct addresses: the collection invariant sign-up maintains. */
  predicate UniqueEmails(users: seq<Account>) {
    forall i, j :: 0 <= i < j < |users| ==> users[i].email != users[j].email
  }

  // ---------------------------------------------------------------------
  // E-mail sign-up

  datatype SignupInput = SignupInput(
    name: Option<string>,
    email: Option<string>,
    password: Option<string>,
    confirmPassword: Option<string>,
    accountType: Option<string>)

  /** The `accountType` enumeration. */
  function ParseRole(s: string): (r: Option<Role>)
    ensures r == Some(User) <==> s == "User"
    ensures r == Some(Seller) <==> s == "Seller"
    ensures r == Some(Admin) <==> s == "Admin"
  {
    if s == "User" then Some(User) else if s == "Seller" then Some(Seller) else if s == "Admin" then Some(Admin) else None
  }

  /** `signup`: every field must be present and non-empty, the two
      passwords equal and the address unregistered; all three refusals
      write nothing. The new user is appended unverified and active, with
      no orders, both passwords hashed, and a fresh password valid for five
      minutes. */
  function Signup(users: seq<Account>, id: Id, input: SignupInput, draw: nat, now: int): (r: Reply<Account>)
    requires draw < 900000
    ensures r.result.Err? ==> r.users == users
    ensures (!(Given(input.name) && Given(input.email) && Given(input.password)
               && Given(input.confirmPassword) && Given(input.accountType))) ==> r.result == Err(MissingFields)
    ensures r.result.Ok? <==>
      && Given(input.name) && Given(input.email) && Given(input.password)
      && Given(input.confirmPassword) && Given(input.accountType)
      && input.password == input.confirmPassword
      && FindByEmail(users, input.email.value).None?
      && ParseRole(input.accountType.value).Some?
    ensures r.result.Ok? ==>
      var u := r.result.value;
      && r.users == users + [u]
      && u.id == id && u.email == input.email.value && u.name == input.name.value
      && u.password == Digest(input.password.value) && u.confirmPassword == u.password
      && u.accountType == ParseRole(input.accountType.value).value
      && u.otp == Some(GenerateOtp(draw)) && u.otpExpires == Some(now + OtpLifetime)
      && !u.isEmailVerified && u.isActive && u.orders == []
    ensures UniqueEmails(users) ==> UniqueEmails(r.users)
  {
    if !(Given(input.name) && Given(input.email) && Given(input.password)
         && Given(input.confirmPassword) && Given(input.accountType)) then Reply(users, Err(MissingFields))
    else if input.password != input.confirmPassword then Reply(users, Err(PasswordMismatch))
    else if FindByEmail(users, input.email.value).Some? then Reply(users, Err(EmailTaken))
    else match ParseRole(input.accountType.value)
      case None => Reply(users, Err(ServerError))
      case Some(role) =>
        var u := Account(id, input.name.value, input.email.value, Digest(input.password.value),
                         Digest(input.confirmPassword.value), role, Some(GenerateOtp(draw)),
                         Some(now + OtpLifetime), false, true, []);
        Reply(users + [u], Ok(u))
  }

  /** `verifyOtp`. Email and password must be present (400) and the
      address known (404). A wrong password is refused before the expiry
      is looked at, and writes nothing; a right but expired one deletes the
      user; otherwise the user becomes verified and the password pair is
      cleared. */
  function VerifyOtp(users: seq<Account>, email: Option<string>, otp: Option<string>, now: int): (r: Reply<()>)
    ensures !(Given(email) && Given(otp)) ==> r == Reply(users, Err(MissingFields))
    ensures Given(email) && Given(otp) && FindByEmail(users, email.value).None? ==> r == Reply(users, Err(UserNotFound))
    ensures Given(email) && Given(otp) && FindByEmail(users, email.value).Some? ==>
      var i := FindByEmail(users, email.value).value;
      var u := users[i];
      && (!OtpMatches(u, otp.value) ==> r == Reply(users, Err(WrongOtp)))
      && (OtpMatches(u, otp.value) && OtpExpired(u, now) ==>
            r == Reply(Collections.RemoveAt(users, i), Err(StaleOtp)))
      && (OtpMatches(u, otp.value) && !OtpExpired(u, now) ==>
            r == Reply(Put(users, i, u.(isEmailVerified := true, otp := None, otpExpires := None)), Ok(())))
    ensures UniqueEmails(users) ==> UniqueEmails(r.users)
  {
    if !(Given(email) && Given(otp)) then Reply(users, Err(MissingFields))
    else match FindByEmail(users, email.value)
      case None => Reply(users, Err(UserNotFound))
      case Some(i) =>
        var u := users[i];
        if !OtpMatches(u, otp.value) then Reply(users, Err(WrongOtp))
        else if OtpExpired(u, now) then Reply(Collections.RemoveAt(users, i), Err(StaleOtp))
        else Reply(Put(users, i, u.(isEmailVerified := true, otp := None, otpExpires := None)), Ok(()))
  }

  /** Signing up and entering the mailed password within five minutes
      verifies exactly the new user. */
  lemma SignupThenVerify(users: seq<Account>, id: Id, input: SignupInput, draw: nat, now: int, later: int)
    requires draw < 900000
    requires Signup(users, id, input, draw, now).result.Ok?
    requires later <= now + OtpLifetime
    ensures var s := Signup(users, id, input, draw, now);
      var v := VerifyOtp(s.users, input.email, Some(GenerateOtp(draw)), later);
      && v.result.Ok?
      && v.users == users + [s.result.value.(isEmailVerified := true, otp := None, otpExpires := None)]
  {
    var s := Signup(users, id, input, draw, now);
    FindAfterAppend(users, input.email.value, s.result.value);
  }

  /** A verified user can no longer be verified again: the password pair
      is gone, so every password is refused and nothing is written. */
  lemma VerifyOnce(users: seq<Account>, email: string, otp: string, now: int, otp2: string, later: int)
    requires email != "" && otp != "" && otp2 != ""
    requires VerifyOtp(users, Some(email), Some(otp), now).result.Ok?
    ensures var v := VerifyOtp(users, Some(email), Some(otp), now);
      VerifyOtp(v.users, Some(email), Some(otp2), later) == Reply(v.users, Err(WrongOtp))
  {
    var i := FindByEmail(users, email).value;
    FindAfterPut(users, email, i, users[i].(isEmailVerified := true, otp := None, otpExpires := None));
  }

  /** `reSendOtp`: a known, unverified user gets a fresh password valid for
      five minutes; nothing else changes. A verified user is refused. */
  function ReSendOtp(users: seq<Account>, email: Option<string>, draw: nat, now: int): (r: Reply<()>)
    requires draw < 900000
    ensures r.result.Err? ==> r.users == users
    ensures !Given(email) ==> r.result == Err(MissingFields)
    ensures Given(email) && FindByEmail(users, email.value).None? ==> r.result == Err(UserNotFound)
    ensures Given(email) && FindByEmail(users, email.value).Some? ==>
      var i := FindByEmail(users, email.value).value;
      var u := users[i];
      && (u.isEmailVerified ==> r.result == Err(AlreadyVerified))
      && (!u.isEmailVerified ==> r == Reply(Put(users, i, u.(otp := Some(GenerateOtp(draw)), otpExpires := Some(now + OtpLifetime))), Ok(())))
  {
    if !Given(email) then Reply(users, Err(MissingFields))
    else match FindByEmail(users, email.value)
      case None => Reply(users, Err(UserNotFound))
      case Some(i) =>
        var u := users[i];
        if u.isEmailVerified then Reply(users, Err(AlreadyVerified))
        else Reply(Put(users, i, u.(otp := Some(GenerateOtp(draw)), otpExpires := Some(now + OtpLifetime))), Ok(()))
  }

  /** A resent password replaces the old one: right after the resend, the
      new password verifies and, when the two differ, the old one is
      refused. */
  lemma ResendReplaces(users: seq<Account>, email: string, draw: nat, now: int, previous: string)
    requires draw < 900000 && email != "" && previous != ""
    requires ReSendOtp(users, Some(email), draw, now).result.Ok?
    ensures var s := ReSendOtp(users, Some(email), draw, now);
      && VerifyOtp(s.users, Some(email), Some(GenerateOtp(draw)), now).result.Ok?
      && (previous != GenerateOtp(draw) ==> VerifyOtp(s.users, Some(email), Some(previous), now).result == Err(WrongOtp))
  {
    ResentAccount(users, email, draw, now);
    var after := ReSendOtp(users, Some(email), draw, now).users;
    var j := FindByEmail(after, email).value;
    assert OtpMatches(after[j], GenerateOtp(draw)) && !OtpExpired(after[j], now);
    assert previous != GenerateOtp(draw) ==> !OtpMatches(after[j], previous);
  }

  /** After a resend, the address finds the account holding the new
      password, valid until five minutes from now. */
  lemma ResentAccount(users: seq<Account>, email: string, draw: nat, now: int)
    requires draw < 900000 && email != ""
    requires ReSendOtp(users, Some(email), draw, now).result.Ok?
    ensures var after := ReSendOtp(users, Some(email), draw, now).users;
      && FindByEmail(after, email).Some?
      && after[FindByEmail(after, email).value].otp == Some(GenerateOtp(draw))
      && after[FindByEmail(after, email).value].otpExpires == Some(now + OtpLifetime)
  {
    var i := FindByEmail(users, email).value;
    var u := users[i].(otp := Some(GenerateOtp(draw)), otpExpires := Some(now + OtpLifetime));
    assert ReSendOtp(users, Some(email), draw, now).users == Put(users, i, u);
    FindAfterPut(users, email, i, u);
  }

  // ---------------------------------------------------------------------
  // Log-in

  /** `Login`, which reads and never writes. The gates come in a fixed
      order: both fields present (400), a known address (404), a verified
      address (403), an active account (403), and only then the password
      (401). The token identifies the user and their role. */
  function Login(users: seq<Account>, email: Option<string>, password: Option<string>,
                 matches: (string, Digest) -> bool): (r: Result<Actor, AuthError>)
    ensures !(Given(email) && Given(password)) ==> r == Err(MissingFields)
    ensures Given(email) && Given(password) && FindByEmail(users, email.value).None? ==> r == Err(UserNotFound)
    ensures Given(email) && Given(password) && FindByEmail(users, email.value).Some? ==>
      var u := users[FindByEmail(users, email.value).value];
      && (!u.isEmailVerified ==> r == Err(NotVerified))
      && (u.isEmailVerified && !u.isActive ==> r == Err(Blocked))
      && (u.isEmailVerified && u.isActive && !matches(password.value, u.password) ==> r == Err(WrongPassword))
      && (u.isEmailVerified && u.isActive && matches(password.value, u.password) ==> r == Ok(Actor(u.id, u.accountType)))
  {
    if !(Given(email) && Given(password)) then Err(MissingFields)
    else match FindByEmail(users, email.value)
      case None => Err(UserNotFound)
      case Some(i) =>
        var u := users[i];
        if !u.isEmailVerified then Err(NotVerified)
        else if !u.isActive then Err(Blocked)
        else if matches(password.value, u.password) then Ok(Actor(u.id, u.accountType))
        else Err(WrongPassword)
  }

  /** A blocked user is told so whatever password they give, the right one
      included: the block is checked before the password. */
  lemma BlockedBeforePassword(users: seq<Account>, email: string, p1: string, p2: string,
                              matches: (string, Digest) -> bool)
    requires email != "" && p1 != "" && p2 != ""
    requires FindByEmail(users, email).Some?
    requires !users[FindByEmail(users, email).value].isActive
    ensures Login(users, Some(email), Some(p1), matches) == Login(users, Some(email), Some(p2), matches)
  {
  }

  /** A freshly signed-up user cannot log in until verified. */
  lemma SignupNeedsVerification(users: seq<Account>, id: Id, input: SignupInput, draw: nat, now: int,
                                password: string, matches: (string, Digest) -> bool)
    requires draw < 900000 && password != ""
    requires Signup(users, id, input, draw, now).result.Ok?
    ensures Login(Signup(users, id, input, draw, now).users, input.email, Some(password), matches) == Err(NotVerified)
  {
    var s := Signup(users, id, input, draw, now);
    FindAfterAppend(users, input.email.value, s.result.value);
  }

  // ---------------------------------------------------------------------
  // Password recovery

  /** `forgotPassword`: a known user gets a fresh password valid for five
      minutes, verified or not; an unknown address is refused. */
  function ForgotPassword(users: seq<Account>, email: string, draw: nat, now: int): (r: Reply<()>)
    requires draw < 900000
    ensures FindByEmail(users, email).None? ==> r == Reply(users, Err(UserNotFound))
    ensures FindByEmail(users, email).Some? ==>
      var i := FindByEmail(users, email).value;
      r == Reply(Put(users, i, users[i].(otp := Some(GenerateOtp(draw)), otpExpires := Some(now + OtpLifetime))), Ok(()))
  {
    match FindByEmail(users, email)
    case None => Reply(users, Err(UserNotFound))
    case Some(i) => Reply(Put(users, i, users[i].(otp := Some(GenerateOtp(draw)), otpExpires := Some(now + OtpLifetime))), Ok(()))
  }

  /** `verifyForgotPasswordOtp`: like `verifyOtp`, except that an expired
      password is refused without deleting anyone and success leaves the
      verification flag alone, clearing only the password pair. */
  function VerifyForgotPasswordOtp(users: seq<Account>, email: Option<string>, otp: Option<string>, now: int)
    : (r: Reply<()>)
    ensures r.result.Err? ==> r.users == users
    ensures !(Given(email) && Given(otp)) ==> r.result == Err(MissingFields)
    ensures Given(email) && Given(otp) && FindByEmail(users, email.value).None? ==> r.result == Err(UserNotFound)
    ensures Given(email) && Given(otp) && FindByEmail(users, email.value).Some? ==>
      var i := FindByEmail(users, email.value).value;
      var u := users[i];
      && (!OtpMatches(u, otp.value) ==> r.result == Err(WrongOtp))
      && (OtpMatches(u, otp.value) && OtpExpired(u, now) ==> r.result == Err(StaleOtp))
      && (OtpMatches(u, otp.value) && !OtpExpired(u, now) ==>
            r == Reply(Put(users, i, u.(otp := None, otpExpires := None)), Ok(())))
  {
    if !(Given(email) && Given(otp)) then Reply(users, Err(MissingFields))
    else match FindByEmail(users, email.value)
      case None => Reply(users, Err(UserNotFound))
      case Some(i) =>
        var u := users[i];
        if !OtpMatches(u, otp.value) then Reply(users, Err(WrongOtp))
        else if OtpExpired(u, now) then Reply(users, Err(StaleOtp))
        else Reply(Put(users, i, u.(otp := None, otpExpires := None)), Ok(()))
  }

  /** The recovery round trip: right after `forgotPassword`, the password
      it sent verifies for the next five minutes, and the two steps
      together leave every account as it was except that the user's
      one-time password pair is cleared. */
  lemma ForgotThenVerify(users: seq<Account>, email: string, draw: nat, now: int, later: int)
    requires draw < 900000 && email != ""
    requires FindByEmail(users, email).Some?
    requires later <= now + OtpLifetime
    ensures var s := ForgotPassword(users, email, draw, now);
      var i := FindByEmail(users, email).value;
      && s.result.Ok?
      && VerifyForgotPasswordOtp(s.users, Some(email), Some(GenerateOtp(draw)), later)
         == Reply(Put(users, i, users[i].(otp := None, otpExpires := None)), Ok(()))
  {
    var i := FindByEmail(users, email).value;
    var u := users[i].(otp := Some(GenerateOtp(draw)), otpExpires := Some(now + OtpLifetime));
    var after := ForgotPassword(users, email, draw, now).users;
    assert after == Put(users, i, u);
    FindAfterPut(users, email, i, u);
    assert OtpMatches(after[i], GenerateOtp(draw)) && !OtpExpired(after[i], later);
    assert Put(after, i, after[i].(otp := None, otpExpires := None)) == Put(users, i, users[i].(otp := None, otpExpires := None));
  }

  /** `resetPassword`: all four fields present, the passwords equal and
      the address known; then both stored passwords become the new hash.
      The supplied one-time password is required but never compared. */
  function ResetPassword(users: seq<Account>, email: Option<string>, otp: Option<string>,
                         password: Option<string>, confirmPassword: Option<string>): (r: Reply<()>)
    ensures r.result.Err? ==> r.users == users
    ensures r.result.Ok? <==>
      Given(email) && Given(otp) && Given(password) && Given(confirmPassword)
      && password == confirmPassword && FindByEmail(users, email.value).Some?
    ensures r.result.Ok? ==>
      var i := FindByEmail(users, email.value).value;
      r.users == Put(users, i, users[i].(password := Digest(password.value), confirmPassword := Digest(password.value)))
  {
    if !(Given(email) && Given(otp) && Given(password) && Given(confirmPassword)) then Reply(users, Err(MissingFields))
    else if password != confirmPassword then Reply(users, Err(PasswordMismatch))
    else match FindByEmail(users, email.value)
      case None => Reply(users, Err(UserNotFound))
      case Some(i) =>
        var h := Digest(password.value);
        Reply(Put(users, i, users[i].(password := h, confirmPassword := h)), Ok(()))
  }

  /** Any non-empty one-time password resets the password of any known
      user: the stored one plays no part, nor does its expiry. */
  lemma ResetIgnoresOtp(users: seq<Account>, email: string, guess: string, stored: string, password: string)
    requires email != "" && guess != "" && stored != "" && password != ""
    ensures ResetPassword(users, Some(email), Some(guess), Some(password), Some(password))
         == ResetPassword(users, Some(email), Some(stored), Some(password), Some(password))
  {
  }

  /** With the new password, a verified and active user logs in. */
  lemma ResetThenLogin(users: seq<Account>, email: string, otp: string, password: string)
    requires email != "" && otp != "" && password != ""
    requires FindByEmail(users, email).Some?
    requires users[FindByEmail(users, email).value].isEmailVerified
    requires users[FindByEmail(users, email).value].isActive
    ensures var s := ResetPassword(users, Some(email), Some(otp), Some(password), Some(password));
      Login(s.users, Some(email), Some(password), (p: string, d: Digest) => Digest(p) == d).Ok?
  {
    var i := FindByEmail(users, email).value;
    FindAfterPut(users, email, i, users[i].(password := Digest(password), confirmPassword := Digest(password)));
  }

  // ---------------------------------------------------------------------
  // Mobile log-in

  /** A `Mobile` document: the number, its password pair and the role. */
  datatype MobileAccount = MobileAccount(id: Id, mobile: string, otp: Option<string>, otpExpires: Option<int>, accountType: Role)

  /** `Mobile.findOne({ mobile })`. */
  function FindByMobile(mobiles: seq<MobileAccount>, mobile: string): (r: Option<nat>)
    ensures r.Some? ==> r.value < |mobiles| && mobiles[r.value].mobile == mobile
    ensures r.Some? ==> forall j :: 0 <= j < r.value ==> mobiles[j].mobile != mobile
    ensures r.None? <==> forall j :: 0 <= j < |mobiles| ==> mobiles[j].mobile != mobile
  {
    Collections.FirstIndex(mobiles, (m: MobileAccount) => m.mobile == mobile)
  }

  /** The mobile counterparts of `Accounts.FindAfterPut` and
      `Accounts.FindAfterAppend`. */
  lemma FindMobileAfterPut(mobiles: seq<MobileAccount>, mobile: string, i: nat, m: MobileAccount)
    requires FindByMobile(mobiles, mobile) == Some(i) && m.mobile == mobile
    ensures FindByMobile(mobiles[i := m], mobile) == Some(i)
  {
    var r := mobiles[i := m];
    assert r[i].mobile == mobile;
    assert forall j :: 0 <= j < i ==> r[j] == mobiles[j];
  }

  lemma FindMobileAfterAppend(mobiles: seq<MobileAccount>, mobile: string, m: MobileAccount)
    requires FindByMobile(mobiles, mobile).None? && m.mobile == mobile
    ensures FindByMobile(mobiles + [m], mobile) == Some(|mobiles|)
  {
    var r := mobiles + [m];
    assert forall j :: 0 <= j < |mobiles| ==> r[j].mobile != mobile;
    assert r[|mobiles|].mobile == mobile;
  }

  /** The record for a number, registering it as a user when unknown. */
  function Register(mobiles: seq<MobileAccount>, id: Id, mobile: string): (r: seq<MobileAccount>)
    ensures FindByMobile(r, mobile).Some?
    ensures FindByMobile(mobiles, mobile).Some? ==> r == mobiles
    ensures FindByMobile(mobiles, mobile).None? ==> r == mobiles + [MobileAccount(id, mobile, None, None, User)]
  {
    if FindByMobile(mobiles, mobile).Some? then mobiles
    else
      FindMobileAfterAppend(mobiles, mobile, MobileAccount(id, mobile, None, None, User));
      mobiles + [MobileAccount(id, mobile, None, None, User)]
  }

  datatype MobileReply = MobileReply(mobiles: seq<MobileAccount>, result: Result<Actor, AuthError>)

  /** `sendOtp` as written: the record for the number is read and written
      without a null check, so an unknown number fails with 500 before any
      record exists. A known number gets a fresh password for five
      minutes. */
  function SendOtpAsWritten(mobiles: seq<MobileAccount>, mobile: Option<string>, draw: nat, now: int)
    : (r: Result<seq<MobileAccount>, AuthError>)
    requires draw < 900000
    ensures !Given(mobile) ==> r == Err(MissingFields)
    ensures Given(mobile) && FindByMobile(mobiles, mobile.value).None? ==> r == Err(ServerError)
    ensures r.Ok? ==> Given(mobile) && FindByMobile(mobiles, mobile.value).Some?
    ensures r.Ok? ==> var i := FindByMobile(mobiles, mobile.value).value;
      && |r.value| == |mobiles|
      && (forall j :: 0 <= j < |mobiles| && j != i ==> r.value[j] == mobiles[j])
      && r.value[i].id == mobiles[i].id && r.value[i].mobile == mobiles[i].mobile
      && r.value[i].accountType == mobiles[i].accountType
      && r.value[i].otp == Some(GenerateOtp(draw)) && r.value[i].otpExpires == Some(now + OtpLifetime)
  {
    if !Given(mobile) then Err(MissingFields)
    else match FindByMobile(mobiles, mobile.value)
      case None => Err(ServerError)
      case Some(i) => Ok(mobiles[i := mobiles[i].(otp := Some(GenerateOtp(draw)), otpExpires := Some(now + OtpLifetime))])
  }

  /** `sendOtp` as its "send and sign up" purpose describes it: an unknown
      number is registered as a user, then the number's record gets a
      fresh password for five minutes. */
  function SendOtp(mobiles: seq<MobileAccount>, id: Id, mobile: Option<string>, draw: nat, now: int)
    : (r: Result<seq<MobileAccount>, AuthError>)
    requires draw < 900000
    ensures !Given(mobile) ==> r == Err(MissingFields)
    ensures Given(mobile) ==> r.Ok?
    ensures r.Ok? ==>
      && FindByMobile(r.value, mobile.value).Some?
      && var m := r.value[FindByMobile(r.value, mobile.value).value];
         m.otp == Some(GenerateOtp(draw)) && m.otpExpires == Some(now + OtpLifetime)
    ensures Given(mobile) && FindByMobile(mobiles, mobile.value).Some? ==> r == SendOtpAsWritten(mobiles, mobile, draw, now)
    ensures Given(mobile) && FindByMobile(mobiles, mobile.value).None? ==>
      r == Ok(mobiles + [MobileAccount(id, mobile.value, Some(GenerateOtp(draw)), Some(now + OtpLifetime), User)])
  {
    if !Given(mobile) then Err(MissingFields)
    else
      var stored := Register(mobiles, id, mobile.value);
      var i := FindByMobile(stored, mobile.value).value;
      var m := stored[i].(otp := Some(GenerateOtp(draw)), otpExpires := Some(now + OtpLifetime));
      FindMobileAfterPut(stored, mobile.value, i, m);
      assert FindByMobile(mobiles, mobile.value).None? ==>
        stored[i := m] == mobiles + [MobileAccount(id, mobile.value, m.otp, m.otpExpires, User)] by {
        if FindByMobile(mobiles, mobile.value).None? {
          assert forall j :: 0 <= j < |mobiles| ==> stored[j] == mobiles[j];
          assert i == |mobiles|;
        }
      }
      Ok(stored[i := m])
  }

  /** `verifyOtpAndLogin`: number and password present (400), a known
      number (404), the right password (400) that has not expired (400,
      nothing deleted). On success the pair is cleared and the role reset
      to User, since the class-level `Mobile.accountType` it reads is never
      set. */
  function VerifyOtpAndLogin(mobiles: seq<MobileAccount>, mobile: Option<string>, otp: Option<string>, now: int)
    : (r: MobileReply)
    ensures r.result.Err? ==> r.mobiles == mobiles
    ensures !(Given(mobile) && Given(otp)) ==> r.result == Err(MissingFields)
    ensures Given(mobile) && Given(otp) && FindByMobile(mobiles, mobile.value).None? ==> r.result == Err(UserNotFound)
    ensures Given(mobile) && Given(otp) && FindByMobile(mobiles, mobile.value).Some? ==>
      var i := FindByMobile(mobiles, mobile.value).value;
      var m := mobiles[i];
      && (m.otp != otp ==> r.result == Err(WrongOtp))
      && (m.otp == otp && m.otpExpires.Some? && m.otpExpires.value < now ==> r.result == Err(StaleOtp))
      && (m.otp == otp && !(m.otpExpires.Some? && m.otpExpires.value < now) ==>
            r == MobileReply(mobiles[i := m.(otp := None, otpExpires := None, accountType := User)], Ok(Actor(m.id, User))))
  {
    if !(Given(mobile) && Given(otp)) then MobileReply(mobiles, Err(MissingFields))
    else match FindByMobile(mobiles, mobile.value)
      case None => MobileReply(mobiles, Err(UserNotFound))
      case Some(i) =>
        var m := mobiles[i];
        if m.otp != otp then MobileReply(mobiles, Err(WrongOtp))
        else if m.otpExpires.Some? && m.otpExpires.value < now then MobileReply(mobiles, Err(StaleOtp))
        else MobileReply(mobiles[i := m.(otp := None, otpExpires := None, accountType := User)], Ok(Actor(m.id, User)))
  }

  /** After the (corrected) send, entering the texted password within five
      minutes logs the number in, whether or not it was known before. */
  lemma SendThenLogin(mobiles: seq<MobileAccount>, id: Id, mobile: string, draw: nat, now: int, later: int)
    requires draw < 900000 && mobile != "" && later <= now + OtpLifetime
    ensures var s := SendOtp(mobiles, id, Some(mobile), draw, now);
      s.Ok? && VerifyOtpAndLogin(s.value, Some(mobile), Some(GenerateOtp(draw)), later).result.Ok?
  {
    var stored := Register(mobiles, id, mobile);
    var i := FindByMobile(stored, mobile).value;
    var m := stored[i].(otp := Some(GenerateOtp(draw)), otpExpires := Some(now + OtpLifetime));
    FindMobileAfterPut(stored, mobile, i, m);
  }

  /** As written, a number that was never seen cannot even start the
      mobile log-in: the send fails with 500 and no record is created. */
  lemma UnknownMobileCounterexample(draw: nat, now: int)
    requires draw < 900000
    ensures SendOtpAsWritten([], Some("9999999999"), draw, now) == Err(ServerError)
    ensures SendOtp([], "m1", Some("9999999999"), draw, now).Ok?
  {
  }
}

=== FILE: catalog.dfy ===
/** The product document: its fields, defaults, the setters Mongoose
    applies on assignment (`trim`) and the validators it runs on `save`
    (`required`, `min`, `maxlength`, `enum`).
 */
module Catalog {
  import opened Wrappers
  import opened Text

  /** `status`, one of "Pending", "Approved", "Rejected". */
  datatype ProductStatus = Pending | Approved | Rejected

  function ProductStatusName(s: ProductStatus): string {
    match s
    case Pending => "Pending"
    case Approved => "Approved"
    case Rejected => "Rejected"
  }

  /** The schema's enum check: a status string names one of the three
      statuses, and exactly then. */
  function ParseProductStatus(name: string): (r: Option<ProductStatus>)
    ensures r.Some? ==> ProductStatusName(r.value) == name
    ensures r.None? ==> forall s: ProductStatus :: ProductStatusName(s) != name
  {
    if name == "Pending" then Some(Pending)
    else if name == "Approved" then Some(Approved)
    else if name == "Rejected" then Some(Rejected)
    else None
  }

  lemma ProductStatusRoundTrip(s: ProductStatus)
    ensures ParseProductStatus(ProductStatusName(s)) == Some(s)
  {
  }

  datatype MediaKind = Image | Video

  /** An uploaded file as stored: the host's id and URL and its kind. */
  datatype Media = Media(publicId: string, url: string, kind: MediaKind)

  /** One `(groupName, value)` pair of a variant, such as ("Size", "M"). */
  datatype VariantAttribute = VariantAttribute(groupName: string, value: string)

  /** A variant as held in the document before validation; `price` and
      `stock` may be absent until `save` rejects them. */
  datatype Variant = Variant(
    attributes: seq<VariantAttribute>,
    price: Option<int>,
    discountedPrice: int,
    stock: Option<int>,
    sku: string,
    images: seq<Media>)

  datatype Product = Product(
    title: string,
    subTitle: string,
    description: string,
    price: int,
    discountedPrice: Option<int>,
    category: Id,
    subCategory: Id,
    variantAttributes: seq<string>,
    variants: seq<Variant>,
    stock: int,
    artisanName: string,
    artisanOrigin: string,
    material: string,
    tags: seq<string>,
    isHandmade: bool,
    isFeatured: bool,
    trending: bool,
    images: seq<Media>,
    createdBy: Id,
    status: ProductStatus)

  /** Product-level stock when none is given. */
  const DefaultStock: int := 3

  /** Default `material`. */
  const DefaultMaterial: string := "Mixed"

  /** Longest title and sub-title the schema accepts. */
  const MaxTitleLength: nat := 120

  // ---------------------------------------------------------------------
  // Setters (`trim: true`), applied whenever a field is assigned

  function TrimAttribute(a: VariantAttribute): VariantAttribute {
    VariantAttribute(Trim(a.groupName), Trim(a.value))
  }

  function TrimAttributes(attrs: seq<VariantAttribute>): (r: seq<VariantAttribute>)
    ensures |r| == |attrs|
    ensures forall i :: 0 <= i < |attrs| ==> r[i] == TrimAttribute(attrs[i])
  {
    seq(|attrs|, i requires 0 <= i < |attrs| => TrimAttribute(attrs[i]))
  }

  /** The setters are idempotent on attribute lists. */
  lemma TrimAttributesIdempotent(attrs: seq<VariantAttribute>)
    ensures TrimAttributes(TrimAttributes(attrs)) == TrimAttributes(attrs)
  {
    forall i | 0 <= i < |attrs|
      ensures TrimAttributes(TrimAttributes(attrs))[i] == TrimAttributes(attrs)[i]
    {
      TrimIdempotent(attrs[i].groupName);
      TrimIdempotent(attrs[i].value);
    }
  }

  // ---------------------------------------------------------------------
  // Validators run by `save`

  /** Both parts are required, which fails on the empty string. */
  predicate ValidAttribute(a: VariantAttribute) {
    a.groupName != "" && a.value != ""
  }

  /** Variant price required and non-negative, discounted price
      non-negative, stock required and non-negative, every attribute
      complete. */
  predicate ValidVariant(v: Variant) {
    && v.price.Some? && v.price.value >= 0
    && v.discountedPrice >= 0
    && v.stock.Some? && v.stock.value >= 0
    && forall i :: 0 <= i < |v.attributes| ==> ValidAttribute(v.attributes[i])
  }

  /** What `save` accepts: required texts present, titles at most 120
      UTF-16 code units, prices and stock non-negative, every variant valid
      and every variant-attribute name present. */
  predicate ValidProduct(p: Product) {
    && p.title != "" && Utf16Length(p.title) <= MaxTitleLength
    && p.subTitle != "" && Utf16Length(p.subTitle) <= MaxTitleLength
    && p.description != ""
    && p.price >= 0
    && (p.discountedPrice.Some? ==> p.discountedPrice.value >= 0)
    && p.stock >= 0
    && (forall i :: 0 <= i < |p.variants| ==> ValidVariant(p.variants[i]))
    && (forall i :: 0 <= i < |p.variantAttributes| ==> p.variantAttributes[i] != "")
  }

  /** The product with its product-level stock replaced; the inventory
      ledger changes nothing else. */
  function WithStock(p: Product, stock: int): Product {
    p.(stock := stock)
  }

  /** Replacing the stock twice keeps only the second value. */
  lemma WithStockTwice(p: Product, a: int, b: int)
    ensures WithStock(WithStock(p, a), b) == WithStock(p, b)
  {
  }

  /** Writing a product's own stock back onto it with any stock restores
      it. */
  lemma WithStockRestores(p: Product)
    ensures forall a :: WithStock(WithStock(p, a), p.stock) == p
  {
  }
}

=== FILE: collections.dfy ===
/** Sequence helpers for collections that the controllers search with
    `findOne` (first match in natural order) or filter with `deleteMany`.
 */
module Collections {
  import opened Wrappers

  /** Index of the first element satisfying `p`, as `findOne` returns the
      first matching document. */
  function FirstIndex<T>(s: seq<T>, p: T -> bool): (r: Option<nat>)
    ensures r.Some? ==> r.value < |s| && p(s[r.value])
    ensures r.Some? ==> forall j :: 0 <= j < r.value ==> !p(s[j])
    ensures r.None? <==> forall j :: 0 <= j < |s| ==> !p(s[j])
  {
    if |s| == 0 then None
    else if p(s[0]) then Some(0)
    else
      match FirstIndex(s[1..], p)
      case None => None
      case Some(i) => Some(i + 1)
  }

  /** The elements of `s` satisfying `p`, in order. */
  function Filter<T(!new)>(s: seq<T>, p: T -> bool): (r: seq<T>)
    ensures |r| <= |s|
    ensures forall x :: x in r <==> x in s && p(x)
  {
    if |s| == 0 then []
    else if p(s[0]) then [s[0]] + Filter(s[1..], p)
    else Filter(s[1..], p)
  }

  /** `s` without the element at index `i`, the rest in order (`splice(i, 1)`). */
  function RemoveAt<T>(s: seq<T>, i: nat): (r: seq<T>)
    requires i < |s|
    ensures |r| == |s| - 1
    ensures forall j :: 0 <= j < i ==> r[j] == s[j]
    ensures forall j :: i <= j < |r| ==> r[j] == s[j + 1]
  {
    s[..i] + s[i + 1..]
  }

  /** The elements of `s` as a set. */
  function Elements<T(!new)>(s: seq<T>): (r: set<T>)
    ensures forall x :: x in r <==> x in s
  {
    set x | x in s
  }

  /** No element occurs twice. */
  predicate NoDuplicates<T(==)>(s: seq<T>) {
    forall i, j :: 0 <= i < j < |s| ==> s[i] != s[j]
  }

  /** The first occurrence of every element of `s`, in order of first
      appearance (`[...new Set(s)]`). */
  function Distinct<T(==,!new)>(s: seq<T>): (r: seq<T>)
    ensures NoDuplicates(r)
    ensures forall x :: x in r <==> x in s
    ensures |r| <= |s|
  {
    var r := DistinctAfter([], s);
    assert [] + r == r;
    r
  }

  /** `seen` followed by the elements of `s` not yet seen, first occurrences
      only, with `seen` removed from the front. */
  function DistinctAfter<T(==,!new)>(seen: seq<T>, s: seq<T>): (r: seq<T>)
    ensures NoDuplicates(seen) ==> NoDuplicates(seen + r)
    ensures forall x :: x in r <==> x in s && x !in seen
    ensures |r| <= |s|
    decreases |s|
  {
    if |s| == 0 then []
    else if s[0] in seen then DistinctAfter(seen, s[1..])
    else
      var rest := DistinctAfter(seen + [s[0]], s[1..]);
      assert seen + [s[0]] + rest == seen + ([s[0]] + rest);
      [s[0]] + rest
  }

  /** `for (x of adds) if (!s.includes(x)) s.push(x)`: `s` kept as a
      prefix, each element of `adds` not already present appended once, in
      order of first appearance. */
  function AppendAbsent<T(==,!new)>(s: seq<T>, adds: seq<T>): (r: seq<T>)
    ensures |s| <= |r| && r[..|s|] == s
    ensures forall x :: x in r <==> x in s || x in adds
    ensures forall i :: |s| <= i < |r| ==> r[i] !in s
    ensures NoDuplicates(r[|s|..])
    ensures NoDuplicates(s) ==> NoDuplicates(r)
    ensures (forall x :: x in adds ==> x in s) ==> r == s
    decreases |adds|
  {
    if |adds| == 0 then s
    else
      var next := if adds[0] in s then s else s + [adds[0]];
      var r := AppendAbsent(next, adds[1..]);
      AppendStepPrefix(s, adds, next, r);
      AppendStepAbsent(s, adds[0], next, r);
      AppendStepDistinct(s, adds[0], next, r);
      r
  }

  /** The order of `AppendAbsent`: what follows `s` is exactly the
      elements of `adds` not in `s`, each at its first appearance, in the
      order of `adds`. */
  lemma {:induction false} AppendAbsentInOrder<T(!new)>(s: seq<T>, adds: seq<T>)
    ensures AppendAbsent(s, adds) == s + DistinctAfter(s, adds)
    decreases |adds|
  {
    if |adds| > 0 {
      var next := if adds[0] in s then s else s + [adds[0]];
      var rest := DistinctAfter(next, adds[1..]);
      assert AppendAbsent(s, adds) == AppendAbsent(next, adds[1..]);
      AppendAbsentInOrder(next, adds[1..]);
      if adds[0] in s {
        assert DistinctAfter(s, adds) == rest;
      } else {
        assert DistinctAfter(s, adds) == [adds[0]] + rest;
        assert next + rest == s + ([adds[0]] + rest);
      }
    }
  }

  /** One step of `AppendAbsent`: the prefix and the elements. */
  lemma AppendStepPrefix<T>(s: seq<T>, adds: seq<T>, next: seq<T>, r: seq<T>)
    requires |adds| > 0 && next == (if adds[0] in s then s else s + [adds[0]])
    requires |next| <= |r| && r[..|next|] == next
    requires forall x :: x in r <==> x in next || x in adds[1..]
    requires (forall x :: x in adds[1..] ==> x in next) ==> r == next
    ensures |s| <= |r| && r[..|s|] == s
    ensures forall x :: x in r <==> x in s || x in adds
    ensures (forall x :: x in adds ==> x in s) ==> r == s
  {
    assert forall x :: x in adds <==> x == adds[0] || x in adds[1..] by {
      assert adds == [adds[0]] + adds[1..];
    }
    assert r[..|s|] == r[..|next|][..|s|];
  }

  /** One step of `AppendAbsent`: nothing after the prefix occurs in it. */
  lemma AppendStepAbsent<T>(s: seq<T>, a: T, next: seq<T>, r: seq<T>)
    requires next == (if a in s then s else s + [a])
    requires |next| <= |r| && r[..|next|] == next
    requires forall i :: |next| <= i < |r| ==> r[i] !in next
    ensures forall i :: |s| <= i < |r| ==> r[i] !in s
  {
    forall i | |s| <= i < |r|
      ensures r[i] !in s
    {
      if i < |next| {
        assert r[i] == r[..|next|][i] == next[i];
      } else {
        assert r[i] !in next;
      }
    }
  }

  /** One step of `AppendAbsent`: what is appended is distinct. */
  lemma AppendStepDistinct<T>(s: seq<T>, a: T, next: seq<T>, r: seq<T>)
    requires next == (if a in s then s else s + [a])
    requires |next| <= |r| && r[..|next|] == next
    requires forall i :: |next| <= i < |r| ==> r[i] !in next
    requires NoDuplicates(r[|next|..])
    requires NoDuplicates(next) ==> NoDuplicates(r)
    ensures NoDuplicates(r[|s|..])
    ensures NoDuplicates(s) ==> NoDuplicates(r)
  {
    if a !in s {
      FreshSuffix(s, a, r);
      if NoDuplicates(s) {
        assert NoDuplicates(next);
      }
    }
  }

  /** A fresh element followed by distinct elements none of which occurs
      before them stays distinct. */
  lemma FreshSuffix<T>(s: seq<T>, a: T, r: seq<T>)
    requires a !in s && |s| + 1 <= |r| && r[..|s| + 1] == s + [a]
    requires forall i :: |s| + 1 <= i < |r| ==> r[i] !in s + [a]
    requires NoDuplicates(r[|s| + 1..])
    ensures NoDuplicates(r[|s|..])
  {
    var t := r[|s|..];
    forall i, j | 0 <= i < j < |t|
      ensures t[i] != t[j]
    {
      if i == 0 {
        assert t[0] == (s + [a])[|s|] == a;
        assert t[j] == r[|s| + j] && r[|s| + j] !in s + [a];
      } else {
        assert t[i] == r[|s| + 1..][i - 1] && t[j] == r[|s| + 1..][j - 1];
      }
    }
  }
}

=== FILE: coupons.dfy ===
/** Coupons: the record with its normalised code and defaults, the
    ordered applicability checks and the discount of `applyCoupon`, and the
    activation toggle.
 */
module Coupons {
  import opened Wrappers
  import opened Text
  import Collections

  datatype DiscountType = Flat | Percentage

  /** One use of a coupon: who, and when (the creation time by default). */
  datatype Usage = Usage(user: Id, usedAt: int)

  /** A stored coupon. Times are milliseconds since the epoch; amounts are
      whole currency units. */
  datatype Coupon = Coupon(
    id: Id,
    code: string,
    discountType: DiscountType,
    discountValue: int,
    minOrderAmount: int,
    startAt: int,
    expiresAt: int,
    isActive: bool,
    usedBy: seq<Usage>)

  datatype CouponError =
    | MissingCode     // 500: `code.toUpperCase()` on an absent code
    | NotFound        // 404 "Invalid or inactive coupon code."
    | NotYetValid     // 400
    | Expired         // 400
    | BelowMinimum    // 400 "Minimum order amount should be ..."
    | AlreadyUsed     // 400
    | Invalid         // 400 the schema refuses the document
    | DuplicateCode   // 400 the unique index refuses the document

  function HttpStatus(e: CouponError): nat {
    match e
    case MissingCode => 500
    case NotFound => 404
    case _ => 400
  }

  /** What the schema guarantees of a stored coupon: a non-empty code that
      is trimmed and upper-cased, and a non-negative discount value (with
      no upper bound, so percentages above 100 are representable). */
  predicate ValidCoupon(c: Coupon) {
    c.code != "" && NoEdgeSpace(c.code) && IsUpperCased(c.code) && c.discountValue >= 0
  }

  /** Codes are unique across the collection. */
  predicate UniqueCodes(coupons: seq<Coupon>) {
    forall i, j :: 0 <= i < j < |coupons| ==> coupons[i].code != coupons[j].code
  }

  /** A code as the schema's `uppercase` and `trim` setters leave it. They
      run on stored codes and on query values alike, so the value
      `applyCoupon` queries with, upper-cased first by the handler, is
      normalised exactly as a stored code was. */
  function NormalCode(code: string): (key: string)
    ensures NoEdgeSpace(key) && IsUpperCased(key)
  {
    UpperNormalises(code);
    TrimKeepsUpper(Upper(code));
    Trim(Upper(code))
  }

  /** The fields of a create request. */
  datatype CouponInput = CouponInput(
    code: Option<string>,
    discountType: Option<string>,
    discountValue: Option<int>,
    minOrderAmount: Option<int>,
    startAt: Option<int>,
    expiresAt: Option<int>,
    isActive: Option<bool>,
    usedBy: Option<seq<Usage>>)

  /** The string stored in `discountType`. */
  function ParseDiscountType(s: string): (r: Option<DiscountType>)
    ensures r == Some(Flat) <==> s == "flat"
    ensures r == Some(Percentage) <==> s == "percentage"
  {
    if s == "flat" then Some(Flat) else if s == "percentage" then Some(Percentage) else None
  }

  /** `Coupon.create(body)`: the setters upper-case and trim the code, the
      defaults fill the minimum amount (0), activity (true) and the usage
      list (empty; a usage list in the body is kept); the validators then refuse a missing or blank code, an
      unknown type, a missing or negative value and missing dates, and the
      unique index refuses a code already stored. */
  function CreateCoupon(coupons: seq<Coupon>, id: Id, input: CouponInput): (r: Result<seq<Coupon>, CouponError>)
    ensures r.Ok? ==> |r.value| == |coupons| + 1 && r.value[..|coupons|] == coupons
    ensures r.Ok? ==>
      var c := r.value[|coupons|];
      && ValidCoupon(c) && c.usedBy == input.usedBy.GetOr([])
      && c.minOrderAmount == input.minOrderAmount.GetOr(0)
      && c.isActive == input.isActive.GetOr(true)
      && input.code.Some? && c.code == NormalCode(input.code.value)
      && forall i :: 0 <= i < |coupons| ==> coupons[i].code != c.code
    ensures r.Ok? <==>
      && input.code.Some? && NormalCode(input.code.value) != ""
      && input.discountType.Some? && ParseDiscountType(input.discountType.value).Some?
      && input.discountValue.Some? && input.discountValue.value >= 0
      && input.startAt.Some? && input.expiresAt.Some?
      && forall i :: 0 <= i < |coupons| ==> coupons[i].code != NormalCode(input.code.value)
    ensures UniqueCodes(coupons) && r.Ok? ==> UniqueCodes(r.value)
  {
    if input.code.None? || input.discountType.None? || input.discountValue.None?
       || input.startAt.None? || input.expiresAt.None? then Err(Invalid)
    else
      var code := NormalCode(input.code.value);
      match ParseDiscountType(input.discountType.value)
      case None => Err(Invalid)
      case Some(kind) =>
        if code == "" || input.discountValue.value < 0 then Err(Invalid)
        else if exists i :: 0 <= i < |coupons| && coupons[i].code == code then Err(DuplicateCode)
        else
          var c := Coupon(id, code, kind, input.discountValue.value, input.minOrderAmount.GetOr(0),
                          input.startAt.value, input.expiresAt.value, input.isActive.GetOr(true),
                          input.usedBy.GetOr([]));
          assert (coupons + [c])[..|coupons|] == coupons;
          AppendFreshCode(coupons, c);
          Ok(coupons + [c])
  }

  /** A coupon whose code no stored coupon holds keeps the codes unique. */
  lemma AppendFreshCode(coupons: seq<Coupon>, c: Coupon)
    requires forall i :: 0 <= i < |coupons| ==> coupons[i].code != c.code
    ensures UniqueCodes(coupons) ==> UniqueCodes(coupons + [c])
  {
    var r := coupons + [c];
    assert forall i :: 0 <= i < |coupons| ==> r[i] == coupons[i];
  }

  /** `Math.round(x / 100)` on an integer `x`: the nearest integer, halves
      rounded up. */
  function RoundHundredth(x: int): (d: int)
    ensures 100 * d - 50 <= x < 100 * d + 50
  {
    (x + 50) / 100
  }

  /** The discount of a coupon on an amount: the value itself for a flat
      coupon, the rounded percentage of the amount otherwise; a missing
      amount makes the percentage NaN, answered as null (`None`). Nothing
      caps the discount at the amount. */
  function Discount(c: Coupon, orderAmount: Option<int>): (r: Option<int>)
    ensures c.discountType == Flat ==> r == Some(c.discountValue)
    ensures c.discountType == Percentage ==> (r.Some? <==> orderAmount.Some?)
    ensures c.discountType == Percentage && orderAmount.Some? ==>
      100 * r.value - 50 <= c.discountValue * orderAmount.value < 100 * r.value + 50
  {
    match c.discountType
    case Flat => Some(c.discountValue)
    case Percentage => if orderAmount.None? then None else Some(RoundHundredth(c.discountValue * orderAmount.value))
  }

  /** A percentage of at most 100 on a non-negative amount never exceeds
      the amount; a larger percentage does. */
  lemma PercentageBounds(c: Coupon, amount: nat)
    requires c.discountType == Percentage && c.discountValue >= 0
    ensures c.discountValue <= 100 ==> 0 <= Discount(c, Some(amount)).value <= amount
    ensures c.discountValue >= 101 && amount >= 50 ==> Discount(c, Some(amount)).value > amount
  {
    var d := Discount(c, Some(amount)).value;
    if c.discountValue <= 100 {
      assert c.discountValue * amount <= 100 * amount;
    }
    if c.discountValue >= 101 && amount >= 50 {
      assert c.discountValue * amount >= 101 * amount;
    }
  }

  /** The store after an apply and the response (the discount, possibly
      null). */
  datatype ApplyOutcome = ApplyOutcome(coupons: seq<Coupon>, result: Result<Option<int>, CouponError>)

  /** `findOne({ code: key, isActive: true })`: the first active coupon
      whose code is `key`. */
  function FindActive(coupons: seq<Coupon>, key: string): (r: Option<nat>)
    ensures r.Some? ==> r.value < |coupons| && coupons[r.value].isActive && coupons[r.value].code == key
    ensures r.Some? ==> forall j :: 0 <= j < r.value ==> !(coupons[j].isActive && coupons[j].code == key)
    ensures r.None? <==> forall j :: 0 <= j < |coupons| ==> !(coupons[j].isActive && coupons[j].code == key)
  {
    Collections.FirstIndex(coupons, (c: Coupon) => c.isActive && c.code == key)
  }

  /** The code a coupon was created with finds it while it is active,
      however the request spells it in case and surrounding blanks: the
      query normalises exactly as creation did. */
  lemma CreatedCodeFinds(coupons: seq<Coupon>, id: Id, input: CouponInput, query: string)
    requires CreateCoupon(coupons, id, input).Ok?
    requires CreateCoupon(coupons, id, input).value[|coupons|].isActive
    requires NormalCode(query) == NormalCode(input.code.value)
    ensures FindActive(CreateCoupon(coupons, id, input).value, NormalCode(query)) == Some(|coupons|)
  {
    var r := CreateCoupon(coupons, id, input).value;
    var key := NormalCode(query);
    assert r[|coupons|].code == key;
    assert forall j :: 0 <= j < |coupons| ==> r[j].code != key by {
      assert r[..|coupons|] == coupons;
      forall j | 0 <= j < |coupons| ensures r[j].code != key {
        assert r[j] == coupons[j];
      }
    }
    var f := FindActive(r, key);
    assert f.Some? by {
      assert r[|coupons|].isActive && r[|coupons|].code == key;
    }
    assert f.value == |coupons|;
  }

  /** `user` appears in the usage list. */
  predicate UsedBy(c: Coupon, user: Id) {
    exists k :: 0 <= k < |c.usedBy| && c.usedBy[k].user == user
  }

  /** `applyCoupon`. The checks run in order: the code must be present and
      name an active coupon; `now` must lie within [startAt, expiresAt]
      (both ends inclusive); the amount must reach the minimum (an absent
      amount compares false and passes); the user must not have used the
      coupon. Only an accepted apply writes: the user is recorded as having
      used the coupon at `now`, before any order exists. */
  function ApplyCoupon(coupons: seq<Coupon>, user: Id, code: Option<string>, orderAmount: Option<int>, now: int)
    : (r: ApplyOutcome)
    ensures r.result.Err? ==> r.coupons == coupons
    ensures code.None? ==> r.result == Err(MissingCode)
    ensures code.Some? && FindActive(coupons, NormalCode(code.value)).None? ==> r.result == Err(NotFound)
    ensures code.Some? && FindActive(coupons, NormalCode(code.value)).Some? ==>
      var i := FindActive(coupons, NormalCode(code.value)).value;
      var c := coupons[i];
      && (now < c.startAt ==> r.result == Err(NotYetValid))
      && (c.startAt <= now && now > c.expiresAt ==> r.result == Err(Expired))
      && (c.startAt <= now <= c.expiresAt && orderAmount.Some? && orderAmount.value < c.minOrderAmount ==>
            r.result == Err(BelowMinimum))
      && ((c.startAt <= now <= c.expiresAt && !(orderAmount.Some? && orderAmount.value < c.minOrderAmount)
           && UsedBy(c, user)) ==> r.result == Err(AlreadyUsed))
      && ((c.startAt <= now <= c.expiresAt && !(orderAmount.Some? && orderAmount.value < c.minOrderAmount)
           && !UsedBy(c, user)) ==>
            r == ApplyOutcome(coupons[i := c.(usedBy := c.usedBy + [Usage(user, now)])], Ok(Discount(c, orderAmount))))
    ensures r.result.Ok? ==>
      && code.Some? && FindActive(coupons, NormalCode(code.value)).Some?
      && var i := FindActive(coupons, NormalCode(code.value)).value;
         var c := coupons[i];
         && c.startAt <= now <= c.expiresAt && !UsedBy(c, user)
         && r.result.value == Discount(c, orderAmount)
         && r.coupons == coupons[i := c.(usedBy := c.usedBy + [Usage(user, now)])]
  {
    if code.None? then ApplyOutcome(coupons, Err(MissingCode))
    else match FindActive(coupons, NormalCode(code.value))
      case None => ApplyOutcome(coupons, Err(NotFound))
      case Some(i) =>
        var c := coupons[i];
        if now < c.startAt then ApplyOutcome(coupons, Err(NotYetValid))
        else if now > c.expiresAt then ApplyOutcome(coupons, Err(Expired))
        else if orderAmount.Some? && orderAmount.value < c.minOrderAmount then ApplyOutcome(coupons, Err(BelowMinimum))
        else if UsedBy(c, user) then ApplyOutcome(coupons, Err(AlreadyUsed))
        else ApplyOutcome(coupons[i := c.(usedBy := c.usedBy + [Usage(user, now)])], Ok(Discount(c, orderAmount)))
  }

  /** A coupon applies at most once per user: right after an accepted
      apply, the same request by the same user is refused as already used
      and writes nothing. */
  lemma ApplyOnce(coupons: seq<Coupon>, user: Id, code: Option<string>, orderAmount: Option<int>, now: int)
    requires ApplyCoupon(coupons, user, code, orderAmount, now).result.Ok?
    ensures var first := ApplyCoupon(coupons, user, code, orderAmount, now);
      var second := ApplyCoupon(first.coupons, user, code, orderAmount, now);
      second.result == Err(AlreadyUsed) && second.coupons == first.coupons
  {
    var first := ApplyCoupon(coupons, user, code, orderAmount, now);
    var key := NormalCode(code.value);
    var i := FindActive(coupons, key).value;
    var c := coupons[i].(usedBy := coupons[i].usedBy + [Usage(user, now)]);
    assert first.coupons == coupons[i := c];
    FindActiveAfterPut(coupons, key, i, c);
    assert c.usedBy[|c.usedBy| - 1].user == user;
  }

  /** Writing back the coupon `FindActive` found, with the same code and
      still active, keeps it the first match. */
  lemma FindActiveAfterPut(coupons: seq<Coupon>, key: string, i: nat, c: Coupon)
    requires FindActive(coupons, key) == Some(i)
    requires c.code == coupons[i].code && c.isActive
    ensures FindActive(coupons[i := c], key) == Some(i)
  {
    var r := coupons[i := c];
    assert forall j :: 0 <= j < i ==> r[j] == coupons[j];
    assert r[i].isActive && r[i].code == key;
    var f := FindActive(r, key);
    assert f.Some?;
    assert f.value == i;
  }

  /** `Coupon.findById(id)`: the position of the coupon with that id. */
  function FindById(coupons: seq<Coupon>, id: Id): (r: Option<nat>)
    ensures r.Some? ==> r.value < |coupons| && coupons[r.value].id == id
    ensures r.Some? ==> forall j :: 0 <= j < r.value ==> coupons[j].id != id
    ensures r.None? <==> forall j :: 0 <= j < |coupons| ==> coupons[j].id != id
  {
    Collections.FirstIndex(coupons, (c: Coupon) => c.id == id)
  }

  /** `couponToggle`: 404 for an unknown id; otherwise only `isActive` of
      that coupon is negated. */
  function CouponToggle(coupons: seq<Coupon>, id: Id): (r: Result<seq<Coupon>, CouponError>)
    ensures r.Err? <==> forall j :: 0 <= j < |coupons| ==> coupons[j].id != id
    ensures r.Err? ==> r.error == NotFound
    ensures r.Ok? ==> (exists i :: 0 <= i < |coupons| && coupons[i].id == id
                         && r.value == coupons[i := coupons[i].(isActive := !coupons[i].isActive)])
  {
    match FindById(coupons, id)
    case None => Err(NotFound)
    case Some(i) => Ok(coupons[i := coupons[i].(isActive := !coupons[i].isActive)])
  }

  /** Toggling twice restores the collection. */
  lemma ToggleTwice(coupons: seq<Coupon>, id: Id)
    requires CouponToggle(coupons, id).Ok?
    ensures CouponToggle(CouponToggle(coupons, id).value, id) == Ok(coupons)
  {
    var once := CouponToggle(coupons, id).value;
    var i := FindById(coupons, id).value;
    assert once[i].id == id;
    assert forall j :: 0 <= j < i ==> once[j].id != id;
    assert FindById(once, id) == Some(i);
    var twice := once[i := once[i].(isActive := !once[i].isActive)];
    assert CouponToggle(once, id) == Ok(twice);
    assert twice == coupons;
  }

  /** Toggling keeps every coupon valid and the codes unique. */
  lemma ToggleKeepsValid(coupons: seq<Coupon>, id: Id)
    requires forall i :: 0 <= i < |coupons| ==> ValidCoupon(coupons[i])
    requires UniqueCodes(coupons)
    requires CouponToggle(coupons, id).Ok?
    ensures var r := CouponToggle(coupons, id).value;
      (forall i :: 0 <= i < |r| ==> ValidCoupon(r[i])) && UniqueCodes(r)
  {
  }
}

=== FILE: customize_message.dfy ===
/** The customisation request a visitor sends: the schema's setters
    (trimming, lower-casing the email) and its validators (required
    fields, a ten-digit mobile number, an email pattern).
 */
module CustomizeMessages {
  import opened Wrappers
  import opened Text

  datatype CustomizeMessage = CustomizeMessage(
    name: string,
    mobileNumber: string,
    email: string,
    imagePublicId: string,
    imageUrl: string,
    link: Option<string>,
    message: Option<string>)

  /** The document as sent, before the setters run. */
  datatype MessageInput = MessageInput(
    name: Option<string>,
    mobileNumber: Option<string>,
    email: Option<string>,
    imagePublicId: Option<string>,
    imageUrl: Option<string>,
    link: Option<string>,
    message: Option<string>)

  // ---------------------------------------------------------------------
  // Validators

  /** `/^[0-9]{10}$/`. */
  predicate IsMobileNumber(s: string) {
    |s| == 10 && AllDigits(s)
  }

  /** `[\w-\.]`: in a class without the `u` flag the `-` next to `\w` is a
      literal, so a word character, '-' or '.'. */
  predicate IsLocalChar(c: char) {
    IsWordChar(c) || c == '-' || c == '.'
  }

  /** `[\w-]`. */
  predicate IsLabelChar(c: char) {
    IsWordChar(c) || c == '-'
  }

  predicate AllLabelChars(s: string) {
    forall i :: 0 <= i < |s| ==> IsLabelChar(s[i])
  }

  /** `([\w-]+\.)+` without its final dot: one or more non-empty labels of
      `[\w-]` joined by single dots. */
  predicate IsLabels(p: string) {
    && |p| > 0 && p[0] != '.' && p[|p| - 1] != '.'
    && (forall i :: 0 <= i < |p| ==> IsLabelChar(p[i]) || p[i] == '.')
    && (forall i :: 0 <= i < |p| - 1 ==> !(p[i] == '.' && p[i + 1] == '.'))
  }

  /** `([\w-]+\.)+[\w-]{2,4}`: labels, a dot, then a top-level label of two
      to four characters. No class here holds '.', so the last dot is the
      one before the top-level label. */
  predicate IsDomain(d: string) {
    var tld := AfterLastDot(d);
    && |tld| < |d| && 2 <= |tld| <= 4 && AllLabelChars(tld)
    && IsLabels(d[..|d| - |tld| - 1])
  }

  /** `/^[\w-\.]+@([\w-]+\.)+[\w-]{2,4}$/`. No class holds '@', so the one
      '@' separates the local part from the domain. */
  predicate IsEmail(s: string) {
    exists a :: 0 < a < |s| && s[a] == '@' && (forall i :: 0 <= i < a ==> IsLocalChar(s[i])) && IsDomain(s[a + 1..])
  }

  // ---------------------------------------------------------------------
  // Setters

  /** The `email` setters, `trim` and `lowercase`. */
  function NormaliseEmail(s: string): (r: string)
    ensures NoEdgeSpace(r) && IsLowerCased(r)
  {
    var t := Trim(s);
    LowerKeepsEdges(t);
    Lower(t)
  }

  lemma LowerKeepsEdges(s: string)
    requires NoEdgeSpace(s)
    ensures NoEdgeSpace(Lower(s)) && IsLowerCased(Lower(s))
  {
  }

  /** Lower-casing neither makes nor unmakes white space. */
  lemma LowerCharSpace(c: char)
    ensures IsSpace(LowerChar(c)) <==> IsSpace(c)
  {
  }

  lemma {:induction false} TrimStartLower(s: string)
    ensures TrimStart(Lower(s)) == Lower(TrimStart(s))
  {
    if |s| > 0 {
      var l := Lower(s);
      LowerCharSpace(s[0]);
      assert l[0] == LowerChar(s[0]);
      assert l[1..] == Lower(s[1..]);
      if IsSpace(s[0]) {
        TrimStartLower(s[1..]);
      }
    }
  }

  lemma {:induction false} TrimEndLower(s: string)
    ensures TrimEnd(Lower(s)) == Lower(TrimEnd(s))
  {
    if |s| > 0 {
      var l := Lower(s);
      LowerCharSpace(s[|s| - 1]);
      assert l[|s| - 1] == LowerChar(s[|s| - 1]);
      assert l[..|s| - 1] == Lower(s[..|s| - 1]);
      if IsSpace(s[|s| - 1]) {
        TrimEndLower(s[..|s| - 1]);
      }
    }
  }

  /** Trimming and lower-casing commute, so the order in which the two
      setters run does not matter. */
  lemma SettersCommute(s: string)
    ensures Trim(Lower(s)) == Lower(Trim(s))
  {
    TrimStartLower(s);
    TrimEndLower(TrimStart(s));
  }

  // ---------------------------------------------------------------------
  // Create

  /** The setters, then the validators of `save`: a name that is not
      blank, a ten-digit mobile number, an email matching the pattern once
      trimmed and lower-cased, and both image fields. Link and message are
      optional and trimmed. `None` stands for a validation error. */
  function Validate(input: MessageInput): (r: Option<CustomizeMessage>)
    ensures r.Some? <==>
      && input.name.Some? && !IsBlank(input.name.value)
      && input.mobileNumber.Some? && IsMobileNumber(input.mobileNumber.value)
      && input.email.Some? && NormaliseEmail(input.email.value) != "" && IsEmail(NormaliseEmail(input.email.value))
      && Given(input.imagePublicId) && Given(input.imageUrl)
    ensures r.Some? ==>
      && r.value.name == Trim(input.name.value) && NoEdgeSpace(r.value.name) && r.value.name != ""
      && r.value.email == NormaliseEmail(input.email.value) && IsLowerCased(r.value.email)
      && r.value.mobileNumber == input.mobileNumber.value
    ensures r.Some? ==>
      && (input.link.Some? <==> r.value.link.Some?) && (input.link.Some? ==> r.value.link.value == Trim(input.link.value))
      && (input.message.Some? <==> r.value.message.Some?)
      && (input.message.Some? ==> r.value.message.value == Trim(input.message.value))
  {
    if input.name.Some? && !IsBlank(input.name.value)
       && input.mobileNumber.Some? && IsMobileNumber(input.mobileNumber.value)
       && input.email.Some? && NormaliseEmail(input.email.value) != "" && IsEmail(NormaliseEmail(input.email.value))
       && Given(input.imagePublicId) && Given(input.imageUrl)
    then
      Some(CustomizeMessage(
        Trim(input.name.value), input.mobileNumber.value, NormaliseEmail(input.email.value),
        input.imagePublicId.value, input.imageUrl.value,
        if input.link.Some? then Some(Trim(input.link.value)) else None,
        if input.message.Some? then Some(Trim(input.message.value)) else None))
    else None
  }

  // ---------------------------------------------------------------------
  // The email pattern

  /** Every address built as local part, '@', a label, '.', and a two- to
      four-character top-level label matches. */
  lemma EmailAccepts(local: string, host: string, tld: string)
    requires |local| > 0 && forall i :: 0 <= i < |local| ==> IsLocalChar(local[i])
    requires |host| > 0 && AllLabelChars(host)
    requires 2 <= |tld| <= 4 && AllLabelChars(tld)
    ensures IsEmail(local + "@" + host + "." + tld)
  {
    var d := host + "." + tld;
    var s := local + "@" + d;
    assert local + "@" + host + "." + tld == s;
    var a := |local|;
    assert s[a + 1..] == d;
    DomainAccepts(host, tld);
    assert forall i :: 0 <= i < a ==> s[i] == local[i];
    assert s[a] == '@';
  }

  /** A label, '.', and a two- to four-character top-level label form a
      domain. */
  lemma DomainAccepts(host: string, tld: string)
    requires |host| > 0 && AllLabelChars(host)
    requires 2 <= |tld| <= 4 && AllLabelChars(tld)
    ensures IsDomain(host + "." + tld)
  {
    var d := host + "." + tld;
    AfterLastDotOfAppend(host, tld);
    assert d[..|d| - |tld| - 1] == host;
    assert IsLabels(host);
  }

  /** A string without '@' never matches. */
  lemma EmailNeedsAt(s: string)
    requires '@' !in s
    ensures !IsEmail(s)
  {
  }

  /** A domain whose top-level label has one character never matches. */
  lemma DomainRejectsShortTld(stem: string, c: char)
    requires c != '.'
    ensures !IsDomain(stem + "." + [c])
  {
    AfterLastDotOfAppend(stem, [c]);
  }

  /** A valid document always carries a lower-cased, matching email. */
  lemma ValidatedEmail(input: MessageInput)
    requires Validate(input).Some?
    ensures IsEmail(Validate(input).value.email) && IsLowerCased(Validate(input).value.email)
  {
  }
}

=== FILE: delivery.dfy ===
/** Delivery availability by pincode: the upsert that merges product ids
    and areas into the record of a known pincode, and the lookup of one
    product at one pincode.

    Whether a product id casts to an ObjectId is the parameter `castable`.
 */
module Delivery {
  import opened Wrappers
  import Collections

  /** `deliveryOptions[].type`. */
  datatype DeliveryType = OneDay | Standard

  function ParseDeliveryType(s: string): (r: Option<DeliveryType>)
    ensures r == Some(OneDay) <==> s == "oneDay"
    ensures r == Some(Standard) <==> s == "standard"
    ensures r.None? <==> s != "oneDay" && s != "standard"
  {
    if s == "oneDay" then Some(OneDay) else if s == "standard" then Some(Standard) else None
  }

  datatype DeliveryOption = DeliveryOption(kind: DeliveryType, price: int)

  /** A stored record. `areas` defaults to the empty list and
      `availability` to true. */
  datatype Availability = Availability(
    products: seq<Id>,
    pincode: string,
    areas: seq<string>,
    availability: bool,
    deliveryOptions: seq<DeliveryOption>)

  /** One option as sent: its `type` when it is a string, its `price` when
      it is a number. */
  datatype OptionInput = OptionInput(kind: Option<string>, price: Option<int>)

  /** The `area` field: absent, an array of strings, or a single string
      (which the array cast of `create` wraps into a one-element list). */
  datatype AreaInput = NoArea | AreaList(areas: seq<string>) | AreaText(text: string)

  datatype DeliveryInput = DeliveryInput(
    productIds: Option<seq<Id>>,
    pincode: Option<string>,
    deliveryOptions: Option<seq<OptionInput>>,
    area: AreaInput,
    availability: Option<bool>)

  datatype DeliveryError =
    | MissingFields   // 400 "Product IDs, Pincode, and Delivery Options are required"
    | InvalidOption   // 400 "Each delivery option must include a valid type and price"
    | NotAvailable    // 404 "Delivery not available for this pincode."
    | ServerError     // 500, a product id that does not cast to an ObjectId

  function HttpStatus(e: DeliveryError): nat {
    match e
    case NotAvailable => 404
    case ServerError => 500
    case _ => 400
  }

  /** An option whose type is one of the two and whose price is a number. */
  predicate ValidOption(o: OptionInput) {
    Given(o.kind) && ParseDeliveryType(o.kind.value).Some? && o.price.Some?
  }

  function ToOptions(inputs: seq<OptionInput>): (r: seq<DeliveryOption>)
    requires forall i :: 0 <= i < |inputs| ==> ValidOption(inputs[i])
    ensures |r| == |inputs|
    ensures forall i :: 0 <= i < |inputs| ==> r[i] == ToOption(inputs[i])
  {
    seq(|inputs|, i requires 0 <= i < |inputs| && ValidOption(inputs[i]) => ToOption(inputs[i]))
  }

  function ToOption(o: OptionInput): (r: DeliveryOption)
    requires ValidOption(o)
    ensures Some(r.kind) == ParseDeliveryType(o.kind.value) && Some(r.price) == o.price
  {
    DeliveryOption(ParseDeliveryType(o.kind.value).value, o.price.value)
  }

  /** `findOne({ pincode })`. */
  function FindPincode(records: seq<Availability>, pincode: string): (r: Option<nat>)
    ensures r.Some? ==> r.value < |records| && records[r.value].pincode == pincode
    ensures r.Some? ==> forall j :: 0 <= j < r.value ==> records[j].pincode != pincode
    ensures r.None? <==> forall j :: 0 <= j < |records| ==> records[j].pincode != pincode
  {
    Collections.FirstIndex(records, (d: Availability) => d.pincode == pincode)
  }

  /** No two records share a pincode. */
  predicate UniquePincodes(records: seq<Availability>) {
    forall i, j :: 0 <= i < j < |records| ==> records[i].pincode != records[j].pincode
  }

  /** A non-empty product list, a pincode and a non-empty option list. */
  predicate HasLists(input: DeliveryInput) {
    && input.productIds.Some? && |input.productIds.value| > 0
    && Given(input.pincode)
    && input.deliveryOptions.Some? && |input.deliveryOptions.value| > 0
  }

  /** The request passes the checks of `setDeliveryAvailability`. */
  predicate Accepted(input: DeliveryInput) {
    && HasLists(input)
    && forall i :: 0 <= i < |input.deliveryOptions.value| ==> ValidOption(input.deliveryOptions.value[i])
  }

  /** Every product id casts to an ObjectId. */
  predicate AllCastable(ids: seq<Id>, castable: Id -> bool) {
    forall i :: 0 <= i < |ids| ==> castable(ids[i])
  }

  /** The record created for a pincode not seen before: the lists as given,
      duplicates and all; `area || []`. */
  function NewRecord(input: DeliveryInput): (d: Availability)
    requires Accepted(input)
    ensures d.products == input.productIds.value && d.pincode == input.pincode.value
    ensures d.availability == input.availability.GetOr(true)
    ensures input.area.AreaList? ==> d.areas == input.area.areas
    ensures input.area.NoArea? ==> d.areas == []
    ensures input.area.AreaText? ==> d.areas == (if input.area.text == "" then [] else [input.area.text])
    ensures |d.deliveryOptions| == |input.deliveryOptions.value|
    ensures d.deliveryOptions == ToOptions(input.deliveryOptions.value)
  {
    var areas := match input.area
      case NoArea => []
      case AreaList(a) => a
      case AreaText(t) => if t == "" then [] else [t];
    Availability(input.productIds.value, input.pincode.value, areas, input.availability.GetOr(true),
                 ToOptions(input.deliveryOptions.value))
  }

  /** The record of a known pincode after the request: product ids and
      (only when `area` is an array) areas merged without new duplicates,
      the options replaced and the availability overwritten. */
  function Merge(d: Availability, input: DeliveryInput): (r: Availability)
    requires Accepted(input)
    ensures r.pincode == d.pincode
    ensures |d.products| <= |r.products| && r.products[..|d.products|] == d.products
    ensures forall x :: x in r.products <==> x in d.products || x in input.productIds.value
    ensures Collections.NoDuplicates(d.products) ==> Collections.NoDuplicates(r.products)
    ensures input.area.AreaList? ==> forall a :: a in r.areas <==> a in d.areas || a in input.area.areas
    ensures !input.area.AreaList? ==> r.areas == d.areas
    ensures |d.areas| <= |r.areas| && r.areas[..|d.areas|] == d.areas
    ensures r.availability == input.availability.GetOr(true)
    ensures r.deliveryOptions == ToOptions(input.deliveryOptions.value)
  {
    d.(
      products := Collections.AppendAbsent(d.products, input.productIds.value),
      areas := if input.area.AreaList? then Collections.AppendAbsent(d.areas, input.area.areas) else d.areas,
      deliveryOptions := ToOptions(input.deliveryOptions.value),
      availability := input.availability.GetOr(true))
  }

  /** The order of a merge: the stored ids, then the sent ids not yet
      stored, each once, in the order they were sent; the same for areas
      sent as an array. */
  lemma MergeInOrder(d: Availability, input: DeliveryInput)
    requires Accepted(input)
    ensures Merge(d, input).products == d.products + Collections.DistinctAfter(d.products, input.productIds.value)
    ensures input.area.AreaList? ==>
      Merge(d, input).areas == d.areas + Collections.DistinctAfter(d.areas, input.area.areas)
  {
    Collections.AppendAbsentInOrder(d.products, input.productIds.value);
    if input.area.AreaList? {
      Collections.AppendAbsentInOrder(d.areas, input.area.areas);
    }
  }

  /** `setDeliveryAvailability`. A request without a non-empty product
      list, a pincode and a non-empty option list, or with an option of
      unknown type or without a numeric price, is refused (400) and writes
      nothing. A product id that does not cast to an ObjectId makes the
      `push` into a known record, or the `create` of a new one, throw (500)
      before anything is saved. A known pincode's record is merged in
      place; otherwise a new record is appended. */
  function SetDeliveryAvailability(records: seq<Availability>, input: DeliveryInput, castable: Id -> bool)
    : (r: Result<seq<Availability>, DeliveryError>)
    ensures r.Ok? <==> Accepted(input) && AllCastable(input.productIds.value, castable)
    ensures r.Err? ==> r.error == (if !HasLists(input) then MissingFields
                                   else if !Accepted(input) then InvalidOption
                                   else ServerError)
    ensures r.Ok? && FindPincode(records, input.pincode.value).Some? ==>
      var i := FindPincode(records, input.pincode.value).value;
      && |r.value| == |records|
      && (forall j :: 0 <= j < |records| && j != i ==> r.value[j] == records[j])
      && r.value[i] == Merge(records[i], input)
    ensures r.Ok? && FindPincode(records, input.pincode.value).None? ==>
      r.value == records + [NewRecord(input)]
    ensures r.Ok? ==> FindPincode(r.value, input.pincode.value).Some?
    ensures UniquePincodes(records) && r.Ok? ==> UniquePincodes(r.value)
  {
    if !HasLists(input) then Err(MissingFields)
    else if !Accepted(input) then Err(InvalidOption)
    else if !AllCastable(input.productIds.value, castable) then Err(ServerError)
    else
      var pincode := input.pincode.value;
      match FindPincode(records, pincode)
      case Some(i) =>
        var r := records[i := Merge(records[i], input)];
        assert r[i].pincode == pincode;
        Ok(r)
      case None =>
        var r := records + [NewRecord(input)];
        assert r[|records|].pincode == pincode;
        Ok(r)
  }

  /** Sending the same request twice leaves what the first one left: every
      id and area is already present, and the options and availability are
      written with the same values. */
  lemma {:induction false} SetDeliveryIdempotent(records: seq<Availability>, input: DeliveryInput, castable: Id -> bool)
    requires SetDeliveryAvailability(records, input, castable).Ok?
    ensures var once := SetDeliveryAvailability(records, input, castable).value;
      SetDeliveryAvailability(once, input, castable) == Ok(once)
  {
    var pincode := input.pincode.value;
    var once := SetDeliveryAvailability(records, input, castable).value;
    var i := FindPincode(once, pincode).value;
    if FindPincode(records, pincode).Some? {
      assert FindPincode(records, pincode) == Some(i) by {
        var k := FindPincode(records, pincode).value;
        assert once[k].pincode == pincode;
        assert forall j :: 0 <= j < k ==> once[j] == records[j];
      }
    } else {
      assert i == |records| by {
        assert forall j :: 0 <= j < |records| ==> once[j] == records[j];
      }
    }
    var d := once[i];
    var again := Merge(d, input);
    assert again.products == d.products;
    assert again.areas == d.areas;
    assert again == d;
    assert once[i := again] == once;
  }

  /** `getDeliveryByPincode`: both fields are required (400); a product id
      that does not cast to an ObjectId makes the query throw (500); the
      first record at the pincode that lists the product is the answer,
      and there being none is a 404. */
  function GetDeliveryByPincode(records: seq<Availability>, productId: Option<Id>, pincode: Option<string>,
                                castable: Id -> bool)
    : (r: Result<Availability, DeliveryError>)
    ensures !(Given(productId) && Given(pincode)) ==> r == Err(MissingFields)
    ensures Given(productId) && Given(pincode) && !castable(productId.value) ==> r == Err(ServerError)
    ensures r.Ok? ==> r.value in records && r.value.pincode == pincode.value && productId.value in r.value.products
    ensures Given(productId) && Given(pincode) && castable(productId.value) ==>
      (r.Ok? <==>
       exists j :: 0 <= j < |records| && records[j].pincode == pincode.value && productId.value in records[j].products)
    ensures Given(productId) && Given(pincode) && castable(productId.value) ==>
      (r == Err(NotAvailable) <==>
       forall j :: 0 <= j < |records| ==> !(records[j].pincode == pincode.value && productId.value in records[j].products))
    ensures r.Ok? ==> exists j :: (0 <= j < |records| && records[j] == r.value &&
      forall k :: 0 <= k < j ==> !(records[k].pincode == pincode.value && productId.value in records[k].products))
  {
    if !(Given(productId) && Given(pincode)) then Err(MissingFields)
    else if !castable(productId.value) then Err(ServerError)
    else
      match Collections.FirstIndex(records, (d: Availability) => d.pincode == pincode.value && productId.value in d.products)
      case None => Err(NotAvailable)
      case Some(i) => Ok(records[i])
  }

  /** After a successful upsert every product sent is deliverable at that
      pincode. */
  lemma SetThenGet(records: seq<Availability>, input: DeliveryInput, product: Id, castable: Id -> bool)
    requires SetDeliveryAvailability(records, input, castable).Ok?
    requires product in input.productIds.value && product != ""
    ensures GetDeliveryByPincode(SetDeliveryAvailability(records, input, castable).value, Some(product), input.pincode,
                                 castable).Ok?
  {
    var r := SetDeliveryAvailability(records, input, castable).value;
    var i := FindPincode(r, input.pincode.value).value;
    assert product in r[i].products;
  }
}

=== FILE: orders.dfy ===
/** The order aggregate, the inventory ledger it drives, and the status
    machine the two order controllers enforce (each in its own way).

    The order schema itself is not part of this model: the order record
    below is the set of fields the controllers create, read and assign.
 */
module Orders {
  import opened Wrappers
  import Catalog
  import Accounts

  // ---------------------------------------------------------------------
  // Statuses

  datatype OrderStatus = Processing | Shipped | Delivered | Cancelled | RefundProcessing | Refunded

  /** The string stored in `orderStatus`. */
  function StatusName(s: OrderStatus): string {
    match s
    case Processing => "Processing"
    case Shipped => "Shipped"
    case Delivered => "Delivered"
    case Cancelled => "Cancelled"
    case RefundProcessing => "Refund Processing"
    case Refunded => "Refunded"
  }

  /** Reads a status string from a request body; `None` for any string that
      names no status. */
  function ParseStatus(name: string): (r: Option<OrderStatus>)
    ensures r.Some? ==> StatusName(r.value) == name
    ensures r.None? ==> forall s: OrderStatus :: StatusName(s) != name
  {
    if name == "Processing" then Some(Processing)
    else if name == "Shipped" then Some(Shipped)
    else if name == "Delivered" then Some(Delivered)
    else if name == "Cancelled" then Some(Cancelled)
    else if name == "Refund Processing" then Some(RefundProcessing)
    else if name == "Refunded" then Some(Refunded)
    else None
  }

  lemma StatusRoundTrip(s: OrderStatus)
    ensures ParseStatus(StatusName(s)) == Some(s)
  {
  }

  datatype PaymentStatus = PaymentPending | Completed | Failed

  /** The forward chain of the buyer-facing controller, in order. */
  const ForwardStatuses: seq<OrderStatus> := [Processing, Shipped, Delivered]

  /** `ForwardStatuses.indexOf(s)`: the position of `s` in the forward
      chain, or -1 for a status outside it. */
  function Rank(s: OrderStatus): (r: int)
    ensures -1 <= r < |ForwardStatuses|
    ensures r >= 0 ==> ForwardStatuses[r] == s
    ensures r == -1 <==> s !in ForwardStatuses
  {
    match s
    case Processing => 0
    case Shipped => 1
    case Delivered => 2
    case _ => -1
  }

  /** Statuses no ordinary update or cancellation may leave. */
  predicate IsFinal(s: OrderStatus) {
    s == Delivered || s == Cancelled
  }

  // ---------------------------------------------------------------------
  // Records

  /** One order line: product, quantity and unit price, stored as sent. */
  datatype OrderItem = OrderItem(product: Id, quantity: int, price: int)

  /** `shippingInfo` of the request. Optional parts are `None` when absent. */
  datatype ShippingInfo = ShippingInfo(
    firstName: string,
    lastName: string,
    streetAddress: string,
    apartment: Option<string>,
    phone: string,
    landmark: Option<string>,
    city: string,
    state: string,
    postalCode: string,
    kind: Option<string>)

  /** The shipping-address snapshot written at order time. */
  datatype Address = Address(
    user: Id,
    firstName: string,
    lastName: string,
    streetAddress: string,
    apartment: string,
    phone: string,
    addressLine: string,
    landmark: string,
    city: string,
    state: string,
    postalCode: string,
    kind: string,
    isDefault: bool,
    isArchived: bool)

  datatype Order = Order(
    user: Id,
    items: seq<OrderItem>,
    shippingAddress: Id,
    paymentMethod: string,
    paymentStatus: PaymentStatus,
    isPaid: bool,
    orderStatus: OrderStatus,
    totalAmount: int,
    shippingPrice: Option<int>,
    deliveredAt: Option<int>)

  /** The collections the order controllers touch. */
  datatype Db = Db(
    orders: map<Id, Order>,
    products: map<Id, Catalog.Product>,
    users: seq<Accounts.Account>,
    addresses: map<Id, Address>)

  /** What a request leaves behind: the store after it (written to even
      when the response is an error, if the controller wrote before
      failing) and the response. */
  datatype Outcome<T> = Outcome(db: Db, result: Result<T, OrderError>)

  /** Text of a notification, parameterised as the templates are. */
  datatype Message =
    | StatusChanged(status: OrderStatus)           // to the buyer
    | ProductOrderChanged(status: OrderStatus)     // to each seller
    | DeletedByAdmin(order: Id)                    // to the buyer

  /** A `Notification` document of type "order". */
  datatype Notification = Notification(recipient: Id, sender: Id, message: Message, relatedOrder: Id)

  datatype OrderError =
    | NoItems                        // 400 "No items to order"
    | MissingFields                  // 400 "Required fields are missing"
    | ProductNotFound(product: Id)   // 404
    | InsufficientStock(product: Id) // 400
    | InvalidOrderId                 // 400 "Invalid order ID"
    | OrderNotFound                  // 404
    | NotAuthorized                  // 403 owner or admin required
    | AdminsOnly                     // 403 admin required
    | AlreadyFinal(status: OrderStatus) // 400 "already delivered/cancelled"
    | InvalidStatus                  // 400 status not accepted
    | BackwardMove                   // 400 "Cannot move order status backward"
    | DeliveredNotDeletable          // 400
    | BuyerNotFound                  // 404 "User not found"
    | NoOrderIds                     // 400 "No orderIds provided"
    | EmptyOrder                     // 400 "No products found in order"
    | ServerError                    // 500

  function HttpStatus(e: OrderError): nat {
    match e
    case ProductNotFound(_) => 404
    case OrderNotFound => 404
    case BuyerNotFound => 404
    case NotAuthorized => 403
    case AdminsOnly => 403
    case ServerError => 500
    case _ => 400
  }

  /** Owner of the order or an administrator. */
  predicate MayAct(actor: Accounts.Actor, o: Order) {
    actor.accountType == Accounts.Admin || actor.id == o.user
  }

  /** Every product holds a non-negative stock, as the product validator
      demands on `save`. */
  predicate NonNegativeStock(products: map<Id, Catalog.Product>) {
    forall k :: k in products ==> products[k].stock >= 0
  }

  // ---------------------------------------------------------------------
  // Inventory ledger

  /** Total quantity ordered for product `k` across all lines of `items`. */
  function QuantityOf(items: seq<OrderItem>, k: Id): int {
    if |items| == 0 then 0
    else (if items[0].product == k then items[0].quantity else 0) + QuantityOf(items[1..], k)
  }

  lemma {:induction false} QuantityOfAppend(a: seq<OrderItem>, b: seq<OrderItem>, k: Id)
    ensures QuantityOf(a + b, k) == QuantityOf(a, k) + QuantityOf(b, k)
  {
    if |a| > 0 {
      assert (a + b)[1..] == a[1..] + b;
      QuantityOfAppend(a[1..], b, k);
    } else {
      assert a + b == b;
    }
  }

  /** A product that no line mentions has quantity zero. */
  lemma {:induction false} QuantityOfAbsent(items: seq<OrderItem>, k: Id)
    requires forall i :: 0 <= i < |items| ==> items[i].product != k
    ensures QuantityOf(items, k) == 0
  {
    if |items| > 0 {
      QuantityOfAbsent(items[1..], k);
    }
  }

  /** Every product with its stock blanked: the part of the catalogue the
      inventory ledger never touches. */
  function Listings(products: map<Id, Catalog.Product>): (r: map<Id, Catalog.Product>)
    ensures r.Keys == products.Keys
  {
    map k | k in products :: Catalog.WithStock(products[k], 0)
  }

  /** Two catalogues with the same listings and the same stocks are equal. */
  lemma ListingsAndStocks(p: map<Id, Catalog.Product>, q: map<Id, Catalog.Product>)
    requires p.Keys == q.Keys && Listings(p) == Listings(q)
    requires forall k :: k in p ==> p[k].stock == q[k].stock
    ensures p == q
  {
    forall k | k in p
      ensures p[k] == q[k]
    {
      assert Listings(p)[k] == Listings(q)[k];
      Catalog.WithStockRestores(p[k]);
      Catalog.WithStockRestores(q[k]);
    }
  }

  /** `Product.findByIdAndUpdate(id, { $inc: { stock: delta } })`: shifts
      the stock of an existing product; a missing product is left missing.
      No validator runs, so stock may become negative. */
  function Shift(products: map<Id, Catalog.Product>, k: Id, delta: int): (r: map<Id, Catalog.Product>)
    ensures r.Keys == products.Keys
    ensures forall j :: j in r ==> r[j].stock == products[j].stock + (if j == k then delta else 0)
    ensures Listings(r) == Listings(products)
  {
    if k in products then
      var r := products[k := Catalog.WithStock(products[k], products[k].stock + delta)];
      Catalog.WithStockTwice(products[k], products[k].stock + delta, 0);
      assert Listings(r)[k] == Listings(products)[k];
      r
    else products
  }

  /** The stock decrement of order creation, one `$inc` per line in order:
      every product loses exactly the summed quantity of its lines and
      nothing else about any product changes. */
  function Decrement(products: map<Id, Catalog.Product>, items: seq<OrderItem>): (r: map<Id, Catalog.Product>)
    ensures r.Keys == products.Keys && Listings(r) == Listings(products)
    ensures forall k :: k in r ==> r[k].stock == products[k].stock - QuantityOf(items, k)
  {
    if |items| == 0 then products
    else
      Decrement(Shift(products, items[0].product, -items[0].quantity), items[1..])
  }

  /** The restock of cancellation: every product regains exactly the
      summed quantity of its lines and nothing else changes. */
  function Restock(products: map<Id, Catalog.Product>, items: seq<OrderItem>): (r: map<Id, Catalog.Product>)
    ensures r.Keys == products.Keys && Listings(r) == Listings(products)
    ensures forall k :: k in r ==> r[k].stock == products[k].stock + QuantityOf(items, k)
  {
    if |items| == 0 then products
    else
      Restock(Shift(products, items[0].product, items[0].quantity), items[1..])
  }

  /** Cancelling an order gives back exactly what creating it took. */
  lemma RestockUndoesDecrement(products: map<Id, Catalog.Product>, items: seq<OrderItem>)
    ensures Restock(Decrement(products, items), items) == products
  {
    ListingsAndStocks(Restock(Decrement(products, items), items), products);
  }

  /** Restocking two batches of lines one after the other is restocking
      their concatenation. */
  lemma RestockConcat(products: map<Id, Catalog.Product>, a: seq<OrderItem>, b: seq<OrderItem>)
    ensures Restock(Restock(products, a), b) == Restock(products, a + b)
  {
    var left := Restock(Restock(products, a), b);
    var right := Restock(products, a + b);
    forall k | k in products
      ensures left[k].stock == right[k].stock
    {
      QuantityOfAppend(a, b, k);
    }
    ListingsAndStocks(left, right);
  }

  // ---------------------------------------------------------------------
  // Status changes of a single order

  /** `cancelOrder`'s write: Cancelled, payment Failed, delivery date
      cleared; `isPaid` and everything else kept. */
  function CancelledOrder(o: Order): (r: Order)
    ensures r.orderStatus == Cancelled && r.paymentStatus == Failed && r.deliveredAt.None?
    ensures r.(orderStatus := o.orderStatus, paymentStatus := o.paymentStatus, deliveredAt := o.deliveredAt) == o
  {
    o.(orderStatus := Cancelled, paymentStatus := Failed, deliveredAt := None)
  }
}

=== FILE: product_admin.dfy ===
/** The seller-facing product controller: product creation (required
    fields, file-type checks, status and tag normalisation, defaults), the
    whitelisted update, and the variant list edited by index.

    Uploading a file is the parameter `upload`, which returns the host's
    answer (the file's id, its `url` and its `secure_url`); `JSON.parse` of
    a tag or attribute list is the parameter `parseTags` /
    `parseAttributes`, `None` when it throws; whether a string casts to an
    ObjectId is the parameter `castable`.
 */
module ProductAdmin {
  import opened Wrappers
  import opened Text
  import opened Catalog
  import Collections

  datatype ProductError =
    | MissingFields          // 400 "Required fields missing"
    | InvalidCategory        // 400 "Invalid category or subCategory ID"
    | UnsupportedImage(ext: string)  // 400
    | UnsupportedVideo(ext: string)  // 400
    | InvalidProductId       // 400 "Invalid product ID"
    | ProductNotFound        // 404
    | InvalidIndex           // 400 "Invalid variant index"
    | ServerError            // 500, including a document `save` refuses

  function HttpStatus(e: ProductError): nat {
    match e
    case ProductNotFound => 404
    case ServerError => 500
    case _ => 400
  }

  // ---------------------------------------------------------------------
  // File types

  /** `isFileTypeSupported`. */
  predicate IsFileTypeSupported(t: string, supported: seq<string>) {
    t in supported
  }

  const ImageTypes: seq<string> := ["png", "jpeg", "jpg", "webp"]
  const VideoTypes: seq<string> := ["mp4", "mov", "webm"]

  /** An uploaded file: the client's name, when the upload layer sets it,
      and the fallback name. */
  datatype UploadFile = UploadFile(originalname: Option<string>, name: string)

  /** The extension the controller checks: the text after the last dot of
      the original name (or, when that is absent or empty, of the fallback
      name), lower-cased. */
  function Extension(f: UploadFile): (r: string)
    ensures '.' !in r && IsLowerCased(r)
  {
    var n := Or(f.originalname, f.name);
    var e := AfterLastDot(n);
    LowerKeepsDots(e);
    Lower(e)
  }

  /** Lower-casing touches no dot and lower-cases. */
  lemma LowerKeepsDots(s: string)
    requires '.' !in s
    ensures '.' !in Lower(s) && IsLowerCased(Lower(s))
  {
    var r := Lower(s);
    assert forall i :: 0 <= i < |r| ==> r[i] == LowerChar(s[i]);
    assert forall i :: 0 <= i < |r| ==> r[i] != '.';
  }

  /** A name `stem.ext` with a dot-free `ext` has extension `ext`
      lower-cased, whatever dots the stem holds. */
  lemma ExtensionOfName(stem: string, ext: string)
    requires '.' !in ext
    ensures Extension(UploadFile(Some(stem + "." + ext), "")) == Lower(ext)
  {
    AfterLastDotOfAppend(stem, ext);
  }

  /** The extensions of a list of files, in order. */
  function Extensions(files: seq<UploadFile>): (r: seq<string>)
    ensures |r| == |files| && forall i :: 0 <= i < |files| ==> r[i] == Extension(files[i])
  {
    seq(|files|, i requires 0 <= i < |files| => Extension(files[i]))
  }

  /** The position of the first extension outside `supported`: the
      controller checks the files in order and stops at the first one. */
  function FirstUnsupported(exts: seq<string>, supported: seq<string>): (r: Option<nat>)
    ensures r.None? <==> forall i :: 0 <= i < |exts| ==> IsFileTypeSupported(exts[i], supported)
    ensures r.Some? ==> r.value < |exts| && !IsFileTypeSupported(exts[r.value], supported)
    ensures r.Some? ==> forall j :: 0 <= j < r.value ==> IsFileTypeSupported(exts[j], supported)
  {
    Collections.FirstIndex(exts, (e: string) => !IsFileTypeSupported(e, supported))
  }

  /** The media host's answer to one upload. */
  datatype Uploaded = Uploaded(publicId: string, url: string, secureUrl: string)

  /** Which of the two URLs a handler stores: `createProduct` keeps
      `secure_url`, the update and variant handlers keep `url`. */
  datatype UrlChoice = SecureUrl | PlainUrl

  function StoredUrl(u: Uploaded, choice: UrlChoice): string {
    match choice
    case SecureUrl => u.secureUrl
    case PlainUrl => u.url
  }

  /** The stored records of uploaded files of one kind, in upload order. */
  function Uploads(files: seq<UploadFile>, kind: MediaKind, upload: UploadFile -> Uploaded, choice: UrlChoice)
    : (r: seq<Media>)
    ensures |r| == |files|
    ensures forall i :: 0 <= i < |files| ==>
      r[i] == Media(upload(files[i]).publicId, StoredUrl(upload(files[i]), choice), kind)
  {
    seq(|files|, i requires 0 <= i < |files| => Media(upload(files[i]).publicId, StoredUrl(upload(files[i]), choice), kind))
  }

  // ---------------------------------------------------------------------
  // Normalisation of createProduct's inputs

  /** The requested status if it names one, otherwise Pending. */
  function NormaliseStatus(status: Option<string>): (r: ProductStatus)
    ensures status.Some? && ParseProductStatus(status.value).Some? ==> r == ParseProductStatus(status.value).value
    ensures !(status.Some? && ParseProductStatus(status.value).Some?) ==> r == Pending
  {
    if status.Some? && ParseProductStatus(status.value).Some? then ParseProductStatus(status.value).value else Pending
  }

  /** Normalising the name of a normalised status gives it back. */
  lemma NormaliseStatusStable(status: Option<string>)
    ensures NormaliseStatus(Some(ProductStatusName(NormaliseStatus(status)))) == NormaliseStatus(status)
  {
    ProductStatusRoundTrip(NormaliseStatus(status));
  }

  /** `tags` of the request: a string (to be JSON-parsed), an array, or
      anything else. */
  datatype TagsInput = TagsText(text: string) | TagsList(tags: seq<string>) | TagsOther

  /** A string is parsed, falling back to [] when parsing throws; an array
      is kept as it is; anything else becomes []. An absent field is the
      string "[]". */
  function ParseTags(tags: TagsInput, parseTags: string -> Option<seq<string>>): (r: seq<string>)
    ensures tags.TagsList? ==> r == tags.tags
    ensures tags.TagsOther? ==> r == []
    ensures tags.TagsText? && parseTags(tags.text).None? ==> r == []
    ensures tags.TagsText? && parseTags(tags.text).Some? ==> r == parseTags(tags.text).value
  {
    match tags
    case TagsText(text) => parseTags(text).GetOr([])
    case TagsList(list) => list
    case TagsOther => []
  }

  /** The fields of a create request; absent or empty fields are `None`.
      The body is multipart, so every field arrives as a string: a price
      of "0" is present and is cast to 0 when the document is built. */
  datatype ProductInput = ProductInput(
    title: Option<string>,
    subTitle: Option<string>,
    description: Option<string>,
    price: Option<int>,
    discountedPrice: Option<int>,
    category: Option<Id>,
    subCategory: Option<Id>,
    stock: Option<int>,
    artisanName: Option<string>,
    artisanOrigin: Option<string>,
    material: Option<string>,
    tags: TagsInput,
    isFeatured: Option<bool>,
    isHandmade: Option<bool>,
    trending: Option<bool>,
    variantAttributes: seq<string>,
    variants: seq<Variant>,
    status: Option<string>)

  /** The request's required-field gate: the six fields present and at
      least one image. */
  predicate HasRequired(input: ProductInput, images: seq<UploadFile>) {
    HasRequiredFields(input) && |images| > 0
  }

  predicate HasRequiredFields(input: ProductInput) {
    && Given(input.title) && Given(input.subTitle) && Given(input.description)
    && input.price.Some?
    && Given(input.category) && Given(input.subCategory)
  }

  /** A variant as the sub-document setters store it: attribute parts
      trimmed. */
  function StoredVariant(v: Variant): (r: Variant)
    ensures r.(attributes := v.attributes) == v
    ensures |r.attributes| == |v.attributes|
  {
    v.(attributes := TrimAttributes(v.attributes))
  }

  function StoredVariants(vs: seq<Variant>): (r: seq<Variant>)
    ensures |r| == |vs| && forall i :: 0 <= i < |vs| ==> r[i] == StoredVariant(vs[i])
  {
    seq(|vs|, i requires 0 <= i < |vs| => StoredVariant(vs[i]))
  }

  /** The document `createProduct` builds: trimmed titles, the defaults for
      absent fields (stock 3, material "Mixed", handmade, not featured, not
      trending, empty artisan), normalised tags and status, the uploaded
      media and the creator. */
  function NewProduct(input: ProductInput, media: seq<Media>, creator: Id,
                      parseTags: string -> Option<seq<string>>): (p: Product)
    requires HasRequiredFields(input)
    ensures p.title == Trim(input.title.value) && p.subTitle == Trim(input.subTitle.value)
    ensures p.price == input.price.value && p.discountedPrice == input.discountedPrice
    ensures p.stock == input.stock.GetOr(DefaultStock) && p.material == input.material.GetOr(DefaultMaterial)
    ensures p.isHandmade == input.isHandmade.GetOr(true)
    ensures p.description == input.description.value
    ensures p.category == input.category.value && p.subCategory == input.subCategory.value
    ensures p.isFeatured == input.isFeatured.GetOr(false) && p.trending == input.trending.GetOr(false)
    ensures input.isFeatured.None? ==> !p.isFeatured
    ensures input.trending.None? ==> !p.trending
    ensures p.artisanName == Or(input.artisanName, "") && p.artisanOrigin == Or(input.artisanOrigin, "")
    ensures p.tags == ParseTags(input.tags, parseTags) && p.status == NormaliseStatus(input.status)
    ensures p.images == media && p.createdBy == creator
    ensures p.variantAttributes == TrimAll(input.variantAttributes) && p.variants == StoredVariants(input.variants)
  {
    Product(
      Trim(input.title.value), Trim(input.subTitle.value), input.description.value,
      input.price.value, input.discountedPrice, input.category.value, input.subCategory.value,
      TrimAll(input.variantAttributes), StoredVariants(input.variants),
      input.stock.GetOr(DefaultStock), Or(input.artisanName, ""), Or(input.artisanOrigin, ""),
      input.material.GetOr(DefaultMaterial), ParseTags(input.tags, parseTags),
      input.isHandmade.GetOr(true), input.isFeatured.GetOr(false), input.trending.GetOr(false),
      media, creator, NormaliseStatus(input.status))
  }

  /** `createProduct`. In order: the required fields and at least one
      image (400); the category and sub-category looked up by id, where an
      id that does not cast to an ObjectId makes `findById` throw (500) and
      an unknown one is a 400; every image, then every video, of a
      supported type (400, the first offender named); then the product is
      built and saved, which the schema may still refuse (500). Nothing is
      stored unless the whole request succeeds, and then exactly the built
      product is added. */
  function CreateProduct(products: map<Id, Product>, categories: set<Id>, subCategories: set<Id>,
                         id: Id, creator: Id, input: ProductInput,
                         images: seq<UploadFile>, videos: seq<UploadFile>,
                         upload: UploadFile -> Uploaded,
                         parseTags: string -> Option<seq<string>>, castable: Id -> bool)
    : (r: Result<map<Id, Product>, ProductError>)
    requires id !in products
    ensures !HasRequired(input, images) ==> r == Err(MissingFields)
    ensures HasRequired(input, images) && !(castable(input.category.value) && castable(input.subCategory.value))
            ==> r == Err(ServerError)
    ensures HasRequired(input, images) && castable(input.category.value) && castable(input.subCategory.value)
            && !(input.category.value in categories && input.subCategory.value in subCategories)
            ==> r == Err(InvalidCategory)
    ensures r.Err? && r.error.UnsupportedImage? ==> !IsFileTypeSupported(r.error.ext, ImageTypes)
    ensures r.Err? && r.error.UnsupportedVideo? ==> !IsFileTypeSupported(r.error.ext, VideoTypes)
    ensures r.Ok? <==>
      && HasRequired(input, images)
      && castable(input.category.value) && castable(input.subCategory.value)
      && input.category.value in categories && input.subCategory.value in subCategories
      && UploadMedia(images, videos, upload).Ok?
      && ValidProduct(NewProduct(input, UploadMedia(images, videos, upload).value, creator, parseTags))
    ensures r.Ok? ==>
      && HasRequired(input, images)
      && UploadMedia(images, videos, upload).Ok?
      && r.value == products[id := NewProduct(input, UploadMedia(images, videos, upload).value, creator, parseTags)]
  {
    if !HasRequired(input, images) then Err(MissingFields)
    else if !(castable(input.category.value) && castable(input.subCategory.value)) then Err(ServerError)
    else if !(input.category.value in categories && input.subCategory.value in subCategories) then Err(InvalidCategory)
    else match UploadMedia(images, videos, upload)
      case Err(e) => Err(e)
      case Ok(media) =>
        Save(products, id, NewProduct(input, media, creator, parseTags))
  }

  /** `save` of a product document: the validators accept it or the
      request ends in a 500 with nothing written. */
  function Save(products: map<Id, Product>, id: Id, p: Product): (r: Result<map<Id, Product>, ProductError>)
    ensures r.Ok? <==> ValidProduct(p)
    ensures r.Err? ==> r.error == ServerError
    ensures r.Ok? ==> r.value.Keys == products.Keys + {id} && r.value[id] == p
    ensures r.Ok? ==> forall k :: k in products && k != id ==> r.value[k] == products[k]
  {
    if ValidProduct(p) then Ok(products[id := p]) else Err(ServerError)
  }

  /** The images, then the videos, checked and uploaded in order; both
      kinds keep the host's `secure_url`. */
  function UploadMedia(images: seq<UploadFile>, videos: seq<UploadFile>, upload: UploadFile -> Uploaded)
    : (r: Result<seq<Media>, ProductError>)
    ensures r.Err? ==> r.error.UnsupportedImage? || r.error.UnsupportedVideo?
    ensures r.Err? && r.error.UnsupportedImage? ==> !IsFileTypeSupported(r.error.ext, ImageTypes)
    ensures r.Err? && r.error.UnsupportedVideo? ==>
      && !IsFileTypeSupported(r.error.ext, VideoTypes)
      && forall i :: 0 <= i < |images| ==> IsFileTypeSupported(Extensions(images)[i], ImageTypes)
    ensures r.Ok? <==>
      && (forall i :: 0 <= i < |images| ==> IsFileTypeSupported(Extensions(images)[i], ImageTypes))
      && (forall i :: 0 <= i < |videos| ==> IsFileTypeSupported(Extensions(videos)[i], VideoTypes))
    ensures r.Ok? ==> r.value == Uploads(images, Image, upload, SecureUrl) + Uploads(videos, Video, upload, SecureUrl)
  {
    match FirstUnsupported(Extensions(images), ImageTypes)
    case Some(i) => Err(UnsupportedImage(Extensions(images)[i]))
    case None =>
      match FirstUnsupported(Extensions(videos), VideoTypes)
      case Some(i) => Err(UnsupportedVideo(Extensions(videos)[i]))
      case None => Ok(Uploads(images, Image, upload, SecureUrl) + Uploads(videos, Video, upload, SecureUrl))
  }

  /** A request the schema has nothing against: titles that are not blank
      and at most 120 code units once trimmed, a description, prices and
      stock that are not negative, complete variants and attribute names. */
  predicate WellFormedInput(input: ProductInput)
    requires HasRequiredFields(input)
  {
    && !IsBlank(input.title.value) && Utf16Length(Trim(input.title.value)) <= MaxTitleLength
    && !IsBlank(input.subTitle.value) && Utf16Length(Trim(input.subTitle.value)) <= MaxTitleLength
    && input.price.value >= 0
    && (input.discountedPrice.Some? ==> input.discountedPrice.value >= 0)
    && (input.stock.Some? ==> input.stock.value >= 0)
    && (forall i :: 0 <= i < |input.variants| ==> ValidVariant(StoredVariant(input.variants[i])))
    && (forall i :: 0 <= i < |input.variantAttributes| ==> !IsBlank(input.variantAttributes[i]))
  }

  /** The converse of the refusals: a well-formed request with an image,
      known castable categories and supported files is stored, as the
      document `NewProduct` builds. */
  lemma CreateAcceptsWellFormed(products: map<Id, Product>, categories: set<Id>, subCategories: set<Id>,
                                id: Id, creator: Id, input: ProductInput,
                                images: seq<UploadFile>, videos: seq<UploadFile>,
                                upload: UploadFile -> Uploaded,
                                parseTags: string -> Option<seq<string>>, castable: Id -> bool)
    requires id !in products && HasRequired(input, images) && WellFormedInput(input)
    requires castable(input.category.value) && castable(input.subCategory.value)
    requires input.category.value in categories && input.subCategory.value in subCategories
    requires forall i :: 0 <= i < |images| ==> IsFileTypeSupported(Extensions(images)[i], ImageTypes)
    requires forall i :: 0 <= i < |videos| ==> IsFileTypeSupported(Extensions(videos)[i], VideoTypes)
    ensures var r := CreateProduct(products, categories, subCategories, id, creator, input, images, videos,
                                   upload, parseTags, castable);
      && r.Ok? && id in r.value
      && r.value[id] == NewProduct(input, Uploads(images, Image, upload, SecureUrl) + Uploads(videos, Video, upload, SecureUrl),
                                   creator, parseTags)
  {
    var media := UploadMedia(images, videos, upload).value;
    NewProductValid(input, media, creator, parseTags);
  }

  /** The document built from a well-formed request passes `save`. */
  lemma NewProductValid(input: ProductInput, media: seq<Media>, creator: Id,
                        parseTags: string -> Option<seq<string>>)
    requires HasRequiredFields(input) && WellFormedInput(input)
    ensures ValidProduct(NewProduct(input, media, creator, parseTags))
  {
    var p := NewProduct(input, media, creator, parseTags);
    assert p.title != [] && p.subTitle != [];
    StoredVariantsValid(input.variants);
    TrimAllNotBlank(input.variantAttributes);
  }

  /** Variants that are valid once stored stay valid in the stored list. */
  lemma StoredVariantsValid(vs: seq<Variant>)
    requires forall i :: 0 <= i < |vs| ==> ValidVariant(StoredVariant(vs[i]))
    ensures forall i :: 0 <= i < |vs| ==> ValidVariant(StoredVariants(vs)[i])
  {
  }

  /** Names that are not blank trim to non-empty names. */
  lemma TrimAllNotBlank(names: seq<string>)
    requires forall i :: 0 <= i < |names| ==> !IsBlank(names[i])
    ensures forall i :: 0 <= i < |names| ==> TrimAll(names)[i] != ""
  {
  }

  // ---------------------------------------------------------------------
  // updateProduct

  /** The whitelisted fields of an update; `None` for a field the body does
      not define. `status` is the raw string, checked by `save`. */
  datatype ProductPatch = ProductPatch(
    title: Option<string>,
    subTitle: Option<string>,
    description: Option<string>,
    price: Option<int>,
    discountedPrice: Option<int>,
    stock: Option<int>,
    category: Option<Id>,
    subCategory: Option<Id>,
    tags: Option<seq<string>>,
    material: Option<string>,
    isHandmade: Option<bool>,
    isFeatured: Option<bool>,
    trending: Option<bool>,
    variantAttributes: Option<seq<string>>,
    status: Option<string>)

  /** The patch assigned field by field, through the setters: titles
      trimmed, attribute names trimmed, everything else as sent; fields the
      patch leaves undefined, and the fields outside the whitelist, keep
      their values. `save` then refuses (`None`) a status string naming no
      status (the enum validator) and a category or sub-category that does
      not cast to an ObjectId (a cast error). */
  function ApplyPatch(p: Product, patch: ProductPatch, castable: Id -> bool): (r: Option<Product>)
    ensures r.None? <==>
      || (patch.status.Some? && ParseProductStatus(patch.status.value).None?)
      || (patch.category.Some? && !castable(patch.category.value))
      || (patch.subCategory.Some? && !castable(patch.subCategory.value))
    ensures r.Some? ==> var q := r.value;
      && q.title == (if patch.title.Some? then Trim(patch.title.value) else p.title)
      && q.subTitle == (if patch.subTitle.Some? then Trim(patch.subTitle.value) else p.subTitle)
      && q.description == patch.description.GetOr(p.description)
      && q.price == patch.price.GetOr(p.price)
      && q.discountedPrice == (if patch.discountedPrice.Some? then patch.discountedPrice else p.discountedPrice)
      && q.stock == patch.stock.GetOr(p.stock)
    ensures r.Some? ==> var q := r.value;
      && q.category == patch.category.GetOr(p.category)
      && q.subCategory == patch.subCategory.GetOr(p.subCategory)
      && q.tags == patch.tags.GetOr(p.tags)
      && q.material == patch.material.GetOr(p.material)
      && q.isHandmade == patch.isHandmade.GetOr(p.isHandmade)
      && q.isFeatured == patch.isFeatured.GetOr(p.isFeatured)
      && q.trending == patch.trending.GetOr(p.trending)
    ensures r.Some? ==> var q := r.value;
      && q.variantAttributes == (if patch.variantAttributes.Some? then TrimAll(patch.variantAttributes.value) else p.variantAttributes)
      && (patch.status.None? ==> q.status == p.status)
      && (patch.status.Some? ==> ProductStatusName(q.status) == patch.status.value)
    ensures r.Some? ==> var q := r.value;
      && q.variants == p.variants && q.images == p.images && q.createdBy == p.createdBy
      && q.artisanName == p.artisanName && q.artisanOrigin == p.artisanOrigin
  {
    var status := if patch.status.Some? then ParseProductStatus(patch.status.value) else Some(p.status);
    if status.None? then None
    else if patch.category.Some? && !castable(patch.category.value) then None
    else if patch.subCategory.Some? && !castable(patch.subCategory.value) then None
    else Some(p.(
      title := if patch.title.Some? then Trim(patch.title.value) else p.title,
      subTitle := if patch.subTitle.Some? then Trim(patch.subTitle.value) else p.subTitle,
      description := patch.description.GetOr(p.description),
      price := patch.price.GetOr(p.price),
      discountedPrice := if patch.discountedPrice.Some? then patch.discountedPrice else p.discountedPrice,
      stock := patch.stock.GetOr(p.stock),
      category := patch.category.GetOr(p.category),
      subCategory := patch.subCategory.GetOr(p.subCategory),
      tags := patch.tags.GetOr(p.tags),
      material := patch.material.GetOr(p.material),
      isHandmade := patch.isHandmade.GetOr(p.isHandmade),
      isFeatured := patch.isFeatured.GetOr(p.isFeatured),
      trending := patch.trending.GetOr(p.trending),
      variantAttributes := if patch.variantAttributes.Some? then TrimAll(patch.variantAttributes.value) else p.variantAttributes,
      status := status.value))
  }

  /** Assigning the same patch again changes nothing more: every field
      the patch defines already holds what it assigns. */
  lemma ApplyPatchIdempotent(p: Product, patch: ProductPatch, castable: Id -> bool)
    requires ApplyPatch(p, patch, castable).Some?
    ensures ApplyPatch(ApplyPatch(p, patch, castable).value, patch, castable) == ApplyPatch(p, patch, castable)
  {
    var q := ApplyPatch(p, patch, castable).value;
    assert Absorbs(q, patch);
    PatchFixpoint(q, patch, castable);
  }

  /** Every field the patch defines holds the value assigning it stores. */
  predicate Absorbs(q: Product, patch: ProductPatch) {
    && (patch.title.Some? ==> q.title == Trim(patch.title.value))
    && (patch.subTitle.Some? ==> q.subTitle == Trim(patch.subTitle.value))
    && (patch.description.Some? ==> q.description == patch.description.value)
    && (patch.price.Some? ==> q.price == patch.price.value)
    && (patch.discountedPrice.Some? ==> q.discountedPrice == patch.discountedPrice)
    && (patch.stock.Some? ==> q.stock == patch.stock.value)
    && (patch.category.Some? ==> q.category == patch.category.value)
    && (patch.subCategory.Some? ==> q.subCategory == patch.subCategory.value)
    && (patch.tags.Some? ==> q.tags == patch.tags.value)
    && (patch.material.Some? ==> q.material == patch.material.value)
    && (patch.isHandmade.Some? ==> q.isHandmade == patch.isHandmade.value)
    && (patch.isFeatured.Some? ==> q.isFeatured == patch.isFeatured.value)
    && (patch.trending.Some? ==> q.trending == patch.trending.value)
    && (patch.variantAttributes.Some? ==> q.variantAttributes == TrimAll(patch.variantAttributes.value))
    && (patch.status.Some? ==> ProductStatusName(q.status) == patch.status.value)
  }

  /** A product that already holds what an accepted patch assigns is left
      as it is by that patch. */
  lemma PatchFixpoint(q: Product, patch: ProductPatch, castable: Id -> bool)
    requires ApplyPatch(q, patch, castable).Some? && Absorbs(q, patch)
    ensures ApplyPatch(q, patch, castable) == Some(q)
  {
    ProductStatusRoundTrip(q.status);
    SameFields(ApplyPatch(q, patch, castable).value, q);
  }

  /** Two products that agree on every field are equal. */
  lemma SameFields(a: Product, b: Product)
    requires a.title == b.title && a.subTitle == b.subTitle && a.description == b.description
    requires a.price == b.price && a.discountedPrice == b.discountedPrice && a.stock == b.stock
    requires a.category == b.category && a.subCategory == b.subCategory && a.tags == b.tags
    requires a.material == b.material && a.isHandmade == b.isHandmade && a.isFeatured == b.isFeatured
    requires a.trending == b.trending && a.variantAttributes == b.variantAttributes && a.status == b.status
    requires a.variants == b.variants && a.images == b.images && a.createdBy == b.createdBy
    requires a.artisanName == b.artisanName && a.artisanOrigin == b.artisanOrigin
    ensures a == b
  {
  }

  /** The gallery after an update: replaced by the uploads (keeping `url`)
      when files are sent, otherwise kept. */
  function Gallery(q: Product, images: Option<seq<UploadFile>>, upload: UploadFile -> Uploaded): (r: Product)
    ensures images.None? ==> r == q
    ensures images.Some? ==> r == q.(images := Uploads(images.value, Image, upload, PlainUrl))
  {
    if images.Some? then q.(images := Uploads(images.value, Image, upload, PlainUrl)) else q
  }

  /** `updateProduct`: 404 for an unknown product; otherwise the defined
      whitelisted fields are assigned and, when files are sent, the gallery
      is replaced by their uploads; `save` may refuse the result (500).
      Fields outside the whitelist never change. */
  function UpdateProduct(products: map<Id, Product>, id: Id, patch: ProductPatch,
                         images: Option<seq<UploadFile>>, upload: UploadFile -> Uploaded, castable: Id -> bool)
    : (r: Result<map<Id, Product>, ProductError>)
    ensures id !in products ==> r == Err(ProductNotFound)
    ensures r.Err? && id in products ==> r.error == ServerError
    ensures r.Ok? <==>
      && id in products && ApplyPatch(products[id], patch, castable).Some?
      && ValidProduct(Gallery(ApplyPatch(products[id], patch, castable).value, images, upload))
    ensures r.Ok? ==>
      && id in products && ApplyPatch(products[id], patch, castable).Some?
      && r.value == products[id := Gallery(ApplyPatch(products[id], patch, castable).value, images, upload)]
    ensures r.Ok? ==>
      && r.value.Keys == products.Keys
      && var (p, q) := (products[id], r.value[id]);
         && q.variants == p.variants && q.createdBy == p.createdBy
         && q.artisanName == p.artisanName && q.artisanOrigin == p.artisanOrigin
         && (images.None? ==> q.images == p.images)
         && (images.Some? ==> q.images == Uploads(images.value, Image, upload, PlainUrl))
  {
    if id !in products then Err(ProductNotFound)
    else match ApplyPatch(products[id], patch, castable)
      case None => Err(ServerError)
      case Some(q) => Save(products, id, Gallery(q, images, upload))
  }

  /** Sending the same update twice leaves what the first one left. */
  lemma UpdateProductIdempotent(products: map<Id, Product>, id: Id, patch: ProductPatch,
                                images: Option<seq<UploadFile>>, upload: UploadFile -> Uploaded, castable: Id -> bool)
    requires UpdateProduct(products, id, patch, images, upload, castable).Ok?
    ensures var once := UpdateProduct(products, id, patch, images, upload, castable).value;
      UpdateProduct(once, id, patch, images, upload, castable) == Ok(once)
  {
    var once := UpdateProduct(products, id, patch, images, upload, castable).value;
    var q := ApplyPatch(products[id], patch, castable).value;
    var g := Gallery(q, images, upload);
    assert once[id] == g;
    ApplyPatchIdempotent(products[id], patch, castable);
    GalleryOverPatch(q, patch, castable, images, upload);
    assert once[id := g] == once;
  }

  /** Patching the product after its gallery was replaced gives the
      gallery-replaced patch: `ApplyPatch` never touches the images. */
  lemma GalleryOverPatch(q: Product, patch: ProductPatch, castable: Id -> bool,
                         images: Option<seq<UploadFile>>, upload: UploadFile -> Uploaded)
    requires ApplyPatch(q, patch, castable) == Some(q)
    ensures ApplyPatch(Gallery(q, images, upload), patch, castable) == Some(Gallery(q, images, upload))
  {
    var g := Gallery(q, images, upload);
    var h := ApplyPatch(g, patch, castable).value;
    assert h.(images := q.images) == q;
  }

  /** The empty patch without files saves a valid product unchanged. */
  lemma EmptyPatchIsIdentity(products: map<Id, Product>, id: Id, upload: UploadFile -> Uploaded, castable: Id -> bool)
    requires id in products && ValidProduct(products[id])
    ensures UpdateProduct(products, id, ProductPatch(None, None, None, None, None, None, None, None,
                                                     None, None, None, None, None, None, None), None, upload, castable)
            == Ok(products)
  {
    var patch := ProductPatch(None, None, None, None, None, None, None, None, None, None, None, None, None, None, None);
    assert ApplyPatch(products[id], patch, castable) == Some(products[id]);
    assert products[id := products[id]] == products;
  }

  // ---------------------------------------------------------------------
  // Variants by index

  /** `parseInt(variantIndex)` checked against the list: a number with
      `0 <= i < length`, otherwise `None`. */
  function VariantIndex(text: string, length: nat): (r: Option<nat>)
    ensures r.Some? <==> ParseInt(text).Some? && 0 <= ParseInt(text).value < length
    ensures r.Some? ==> r.value == ParseInt(text).value
  {
    match ParseInt(text)
    case None => None
    case Some(i) => if 0 <= i < length then Some(i) else None
  }

  /** The index as a path segment reads back as itself. */
  lemma VariantIndexRoundTrip(i: nat, length: nat)
    requires i < length
    ensures VariantIndex(NatToString(i), length) == Some(i)
  {
    ParseIntRoundTrip(i);
  }

  /** `parseInt` without a radix reads an index after `0x` in radix 16,
      so "0x1" addresses the second variant and "0x10" the seventeenth. */
  lemma VariantIndexHex(h: string, length: nat)
    requires |h| > 0 && AllHexDigits(h)
    ensures VariantIndex("0x" + h, length) == (if HexValue(h) < length then Some(HexValue(h)) else None)
  {
    ParseIntOfHex(h);
  }

  /** A bare "0x", or "0x" before a character that is no hexadecimal
      digit, is `NaN`, so no index at all. */
  lemma VariantIndexBareHex(rest: string, length: nat)
    requires |rest| == 0 || !IsHexDigit(rest[0])
    ensures VariantIndex("0x" + rest, length) == None
  {
    ParseIntBareHexPrefix(rest);
  }

  /** `attributes` of a variant request: absent (or an empty string), a
      JSON string, or an array. */
  datatype AttributesInput = NoAttributes | AttributesText(text: string) | AttributesList(list: seq<VariantAttribute>)

  /** The fields `updateProductVariant` may change; `None` for a field the
      body does not define. */
  datatype VariantPatch = VariantPatch(
    price: Option<int>,
    discountedPrice: Option<int>,
    stock: Option<int>,
    sku: Option<string>,
    attributes: AttributesInput)

  /** The product with its variant at index `i` replaced. */
  function ReplaceVariant(p: Product, i: nat, v: Variant): (q: Product)
    requires i < |p.variants|
    ensures q == p.(variants := q.variants) && |q.variants| == |p.variants|
    ensures q.variants[i] == v && forall j :: 0 <= j < |p.variants| && j != i ==> q.variants[j] == p.variants[j]
  {
    p.(variants := p.variants[i := v])
  }

  /** The new images of a variant update: the uploads, keeping `url`,
      when files are sent. */
  function VariantMedia(images: Option<seq<UploadFile>>, upload: UploadFile -> Uploaded): (r: Option<seq<Media>>)
    ensures r.Some? <==> images.Some?
    ensures r.Some? ==> r.value == Uploads(images.value, Image, upload, PlainUrl)
  {
    if images.Some? then Some(Uploads(images.value, Image, upload, PlainUrl)) else None
  }

  /** `updateProductVariant`: 404 for an unknown product, 400 for an index
      outside the list; a JSON attribute string that does not parse is a
      500. Only the addressed variant changes, and in it only the defined
      fields and, when files are sent, its images; `save` may refuse the
      result (500). */
  function UpdateProductVariant(products: map<Id, Product>, productId: Id, indexText: string, patch: VariantPatch,
                                images: Option<seq<UploadFile>>, upload: UploadFile -> Uploaded,
                                parseAttributes: string -> Option<seq<VariantAttribute>>)
    : (r: Result<map<Id, Product>, ProductError>)
    ensures productId !in products ==> r == Err(ProductNotFound)
    ensures productId in products && VariantIndex(indexText, |products[productId].variants|).None? ==> r == Err(InvalidIndex)
    ensures (productId in products && VariantIndex(indexText, |products[productId].variants|).Some?
             && NewAttributes(patch.attributes, parseAttributes).None?) ==> r == Err(ServerError)
    ensures r.Ok? <==>
      && productId in products
      && VariantIndex(indexText, |products[productId].variants|).Some?
      && NewAttributes(patch.attributes, parseAttributes).Some?
      && var (p, i) := (products[productId], VariantIndex(indexText, |products[productId].variants|).value);
         ValidProduct(ReplaceVariant(p, i, PatchVariant(p.variants[i], patch, NewAttributes(patch.attributes, parseAttributes).value,
                                                       VariantMedia(images, upload))))
    ensures r.Ok? ==>
      && productId in products
      && VariantIndex(indexText, |products[productId].variants|).Some?
      && NewAttributes(patch.attributes, parseAttributes).Some?
      && var (p, i) := (products[productId], VariantIndex(indexText, |products[productId].variants|).value);
         r.value == products[productId := ReplaceVariant(p, i, PatchVariant(p.variants[i], patch,
                                                         NewAttributes(patch.attributes, parseAttributes).value,
                                                         VariantMedia(images, upload)))]
  {
    if productId !in products then Err(ProductNotFound)
    else
      var p := products[productId];
      match VariantIndex(indexText, |p.variants|)
      case None => Err(InvalidIndex)
      case Some(i) =>
        match NewAttributes(patch.attributes, parseAttributes)
        case None => Err(ServerError)
        case Some(attributes) =>
          Save(products, productId, ReplaceVariant(p, i, PatchVariant(p.variants[i], patch, attributes, VariantMedia(images, upload))))
  }

  /** Sending the same variant update twice leaves what the first one
      left: the index still addresses the same variant and every
      assignment is idempotent. */
  lemma UpdateVariantIdempotent(products: map<Id, Product>, productId: Id, indexText: string, patch: VariantPatch,
                                images: Option<seq<UploadFile>>, upload: UploadFile -> Uploaded,
                                parseAttributes: string -> Option<seq<VariantAttribute>>)
    requires UpdateProductVariant(products, productId, indexText, patch, images, upload, parseAttributes).Ok?
    ensures var once := UpdateProductVariant(products, productId, indexText, patch, images, upload, parseAttributes).value;
      UpdateProductVariant(once, productId, indexText, patch, images, upload, parseAttributes) == Ok(once)
  {
    var once := UpdateProductVariant(products, productId, indexText, patch, images, upload, parseAttributes).value;
    var p := products[productId];
    var i := VariantIndex(indexText, |p.variants|).value;
    var attributes := NewAttributes(patch.attributes, parseAttributes).value;
    var media := VariantMedia(images, upload);
    var v := PatchVariant(p.variants[i], patch, attributes, media);
    var q := ReplaceVariant(p, i, v);
    assert once == products[productId := q];
    PatchVariantIdempotent(p.variants[i], patch, attributes, media);
    ReplaceSame(q, i);
    UpdateAt(once, productId, indexText, patch, images, upload, parseAttributes, i, attributes, q);
    MapPutSame(once, productId, q);
  }

  /** Replacing a variant by itself keeps the product. */
  lemma ReplaceSame(q: Product, i: nat)
    requires i < |q.variants|
    ensures ReplaceVariant(q, i, q.variants[i]) == q
  {
    assert q.variants[i := q.variants[i]] == q.variants;
  }

  /** An update whose checks pass saves the product with the addressed
      variant patched. */
  lemma UpdateAt(products: map<Id, Product>, productId: Id, indexText: string, patch: VariantPatch,
                 images: Option<seq<UploadFile>>, upload: UploadFile -> Uploaded,
                 parseAttributes: string -> Option<seq<VariantAttribute>>,
                 i: nat, attributes: Option<seq<VariantAttribute>>, q: Product)
    requires productId in products
    requires VariantIndex(indexText, |products[productId].variants|) == Some(i)
    requires NewAttributes(patch.attributes, parseAttributes) == Some(attributes)
    requires q == ReplaceVariant(products[productId], i,
                                 PatchVariant(products[productId].variants[i], patch, attributes, VariantMedia(images, upload)))
    requires ValidProduct(q)
    ensures UpdateProductVariant(products, productId, indexText, patch, images, upload, parseAttributes)
            == Ok(products[productId := q])
  {
  }

  /** Patching a patched variant again with the same values changes
      nothing. */
  lemma PatchVariantIdempotent(v: Variant, patch: VariantPatch, attributes: Option<seq<VariantAttribute>>,
                               media: Option<seq<Media>>)
    ensures var w := PatchVariant(v, patch, attributes, media);
      PatchVariant(w, patch, attributes, media) == w
  {
    if attributes.Some? {
      TrimAttributesIdempotent(attributes.value);
    }
  }

  /** The attribute list an update assigns: `Some(None)` when the field is
      absent or an empty string (falsy, so left alone), `Some(Some(list))`
      for an array or a string that parses, `None` when parsing throws. */
  function NewAttributes(input: AttributesInput, parseAttributes: string -> Option<seq<VariantAttribute>>)
    : (r: Option<Option<seq<VariantAttribute>>>)
    ensures input.NoAttributes? ==> r == Some(None)
    ensures input.AttributesList? ==> r == Some(Some(input.list))
    ensures input.AttributesText? && input.text == "" ==> r == Some(None)
    ensures input.AttributesText? && input.text != "" ==>
      (r.None? <==> parseAttributes(input.text).None?)
      && (r.Some? ==> r.value == parseAttributes(input.text))
  {
    match input
    case NoAttributes => Some(None)
    case AttributesText(text) =>
      if text == "" then Some(None)
      else if parseAttributes(text).None? then None
      else Some(parseAttributes(text))
    case AttributesList(list) => Some(Some(list))
  }

  /** A variant with the defined fields of the patch assigned, attributes
      through the trimming setters and, when given, new images. */
  function PatchVariant(v: Variant, patch: VariantPatch, attributes: Option<seq<VariantAttribute>>,
                        media: Option<seq<Media>>): (r: Variant)
    ensures r.price == (if patch.price.Some? then patch.price else v.price)
    ensures r.stock == (if patch.stock.Some? then patch.stock else v.stock)
    ensures r.sku == patch.sku.GetOr(v.sku)
    ensures r.discountedPrice == patch.discountedPrice.GetOr(v.discountedPrice)
    ensures attributes.None? ==> r.attributes == v.attributes
    ensures attributes.Some? ==> r.attributes == TrimAttributes(attributes.value)
    ensures r.images == media.GetOr(v.images)
  {
    v.(
      price := if patch.price.Some? then patch.price else v.price,
      discountedPrice := patch.discountedPrice.GetOr(v.discountedPrice),
      stock := if patch.stock.Some? then patch.stock else v.stock,
      sku := patch.sku.GetOr(v.sku),
      attributes := if attributes.Some? then TrimAttributes(attributes.value) else v.attributes,
      images := media.GetOr(v.images))
  }

  /** The body of `createProductVariant`. */
  datatype VariantInput = VariantInput(
    attributes: AttributesInput,
    price: Option<int>,
    discountedPrice: Option<int>,
    stock: Option<int>,
    sku: Option<string>)

  /** The attributes of a new variant: a string is JSON-parsed (`None` when
      that throws), an array is used, an absent field is the empty list. */
  function CreationAttributes(input: AttributesInput, parseAttributes: string -> Option<seq<VariantAttribute>>)
    : (r: Option<seq<VariantAttribute>>)
    ensures input.NoAttributes? ==> r == Some([])
    ensures input.AttributesText? ==> r == parseAttributes(input.text)
    ensures input.AttributesList? ==> r == Some(input.list)
  {
    match input
    case NoAttributes => Some([])
    case AttributesText(text) => parseAttributes(text)
    case AttributesList(list) => Some(list)
  }

  /** The variant `createProductVariant` pushes: attributes through the
      trimming setters, price and stock as sent, discounted price 0 and
      sku "" when falsy, and the uploaded images. */
  function NewVariant(input: VariantInput, attributes: seq<VariantAttribute>, media: seq<Media>): (v: Variant)
    ensures v.attributes == TrimAttributes(attributes) && v.images == media
    ensures v.price == input.price && v.stock == input.stock
    ensures v.discountedPrice == (if input.discountedPrice.Some? then input.discountedPrice.value else 0)
    ensures v.sku == Or(input.sku, "")
  {
    Variant(TrimAttributes(attributes), input.price,
            if input.discountedPrice.Some? then input.discountedPrice.value else 0,
            input.stock, Or(input.sku, ""), media)
  }

  /** `createProductVariant`. A JSON attribute string is parsed first,
      before the product is even looked up, so an unparsable one is a 500
      for any product; then 404 for an unknown product. The variant is
      appended at the end; `save` may refuse the result (500). */
  function CreateProductVariant(products: map<Id, Product>, productId: Id, input: VariantInput,
                                images: seq<UploadFile>, upload: UploadFile -> Uploaded,
                                parseAttributes: string -> Option<seq<VariantAttribute>>)
    : (r: Result<map<Id, Product>, ProductError>)
    ensures CreationAttributes(input.attributes, parseAttributes).None? ==> r == Err(ServerError)
    ensures CreationAttributes(input.attributes, parseAttributes).Some? && productId !in products
            ==> r == Err(ProductNotFound)
    ensures r.Ok? <==>
      && CreationAttributes(input.attributes, parseAttributes).Some? && productId in products
      && var p := products[productId];
         ValidProduct(p.(variants := p.variants + [NewVariant(input, CreationAttributes(input.attributes, parseAttributes).value,
                                                              Uploads(images, Image, upload, PlainUrl))]))
    ensures r.Ok? ==>
      && CreationAttributes(input.attributes, parseAttributes).Some? && productId in products
      && var p := products[productId];
         r.value == products[productId := p.(variants := p.variants + [NewVariant(input,
                                             CreationAttributes(input.attributes, parseAttributes).value,
                                             Uploads(images, Image, upload, PlainUrl))])]
  {
    match CreationAttributes(input.attributes, parseAttributes)
    case None => Err(ServerError)
    case Some(attributes) =>
      if productId !in products then Err(ProductNotFound)
      else
        var p := products[productId];
        var v := NewVariant(input, attributes, Uploads(images, Image, upload, PlainUrl));
        Save(products, productId, p.(variants := p.variants + [v]))
  }

  /** `deleteProductVariant`: a 24-hex product id (400), a known product
      (404), an index inside the list (400); the variant at that index is
      removed and the others keep their order; `save` may refuse the
      result (500). */
  function DeleteProductVariant(products: map<Id, Product>, productId: Id, indexText: string)
    : (r: Result<map<Id, Product>, ProductError>)
    ensures !IsHexObjectId(productId) ==> r == Err(InvalidProductId)
    ensures IsHexObjectId(productId) && productId !in products ==> r == Err(ProductNotFound)
    ensures (IsHexObjectId(productId) && productId in products
             && VariantIndex(indexText, |products[productId].variants|).None?) ==> r == Err(InvalidIndex)
    ensures r.Ok? ==>
      && productId in products && r.value.Keys == products.Keys
      && (forall k :: k in products && k != productId ==> r.value[k] == products[k])
      && var (p, q) := (products[productId], r.value[productId]);
         && VariantIndex(indexText, |p.variants|).Some?
         && var i := VariantIndex(indexText, |p.variants|).value;
            && ValidProduct(q)
            && q == p.(variants := q.variants)
            && |q.variants| == |p.variants| - 1
            && q.variants == p.variants[..i] + p.variants[i + 1..]
  {
    if !IsHexObjectId(productId) then Err(InvalidProductId)
    else if productId !in products then Err(ProductNotFound)
    else
      var p := products[productId];
      match VariantIndex(indexText, |p.variants|)
      case None => Err(InvalidIndex)
      case Some(i) =>
        var q := p.(variants := p.variants[..i] + p.variants[i + 1..]);
        Save(products, productId, q)
  }

  /** Deleting the variant just created, by its index, gives the catalog
      back. */
  lemma DeleteUndoesCreate(products: map<Id, Product>, productId: Id, input: VariantInput,
                           images: seq<UploadFile>, upload: UploadFile -> Uploaded,
                           parseAttributes: string -> Option<seq<VariantAttribute>>)
    requires IsHexObjectId(productId)
    requires CreateProductVariant(products, productId, input, images, upload, parseAttributes).Ok?
    requires ValidProduct(products[productId])
    ensures var created := CreateProductVariant(products, productId, input, images, upload, parseAttributes).value;
      DeleteProductVariant(created, productId, NatToString(|products[productId].variants|)) == Ok(products)
  {
    var created := CreateProductVariant(products, productId, input, images, upload, parseAttributes).value;
    var p := products[productId];
    var v := NewVariant(input, CreationAttributes(input.attributes, parseAttributes).value,
                        Uploads(images, Image, upload, PlainUrl));
    assert created == products[productId := p.(variants := p.variants + [v])];
    DeleteAppended(products, productId, v);
  }

  /** Deleting, by its index, the variant appended last gives the catalog
      back. */
  lemma DeleteAppended(products: map<Id, Product>, productId: Id, v: Variant)
    requires IsHexObjectId(productId) && productId in products && ValidProduct(products[productId])
    ensures var p := products[productId];
      DeleteProductVariant(products[productId := p.(variants := p.variants + [v])], productId, NatToString(|p.variants|))
      == Ok(products)
  {
    var n := |products[productId].variants|;
    VariantIndexRoundTrip(n, n + 1);
    DeleteAppendedAt(products, productId, v, NatToString(n));
  }

  /** The same, for any index text that addresses the appended variant. */
  lemma DeleteAppendedAt(products: map<Id, Product>, productId: Id, v: Variant, indexText: string)
    requires IsHexObjectId(productId) && productId in products && ValidProduct(products[productId])
    requires VariantIndex(indexText, |products[productId].variants| + 1) == Some(|products[productId].variants|)
    ensures var p := products[productId];
      DeleteProductVariant(products[productId := p.(variants := p.variants + [v])], productId, indexText)
      == Ok(products)
  {
    var p := products[productId];
    var n := |p.variants|;
    var q := p.(variants := p.variants + [v]);
    var m := products[productId := q];
    assert m[productId] == q;
    DropLastVariant(p, v);
    DeleteAt(m, productId, indexText, n, p);
    MapPutBack(products, productId, q);
  }

  /** Removing the last variant of a product that gained one gives the
      product back. */
  lemma DropLastVariant(p: Product, v: Variant)
    ensures var q := p.(variants := p.variants + [v]);
      p == q.(variants := q.variants[..|p.variants|] + q.variants[|p.variants| + 1..])
  {
    var q := p.(variants := p.variants + [v]);
    assert q.variants[..|p.variants|] + q.variants[|p.variants| + 1..] == p.variants;
  }

  /** A delete whose checks pass saves the product without the addressed
      variant. */
  lemma DeleteAt(products: map<Id, Product>, productId: Id, indexText: string, i: nat, p: Product)
    requires IsHexObjectId(productId) && productId in products
    requires VariantIndex(indexText, |products[productId].variants|) == Some(i)
    requires p == products[productId].(variants := products[productId].variants[..i] + products[productId].variants[i + 1..])
    requires ValidProduct(p)
    ensures DeleteProductVariant(products, productId, indexText) == Ok(products[productId := p])
  {
  }

  /** Overwriting a key and then writing its old value back restores the
      map. */
  lemma MapPutBack<K, V>(m: map<K, V>, k: K, v: V)
    requires k in m
    ensures m[k := v][k := m[k]] == m
  {
  }

  /** Writing a key's own value back leaves the map as it was. */
  lemma MapPutSame<K, V>(m: map<K, V>, k: K, v: V)
    requires k in m && m[k] == v
    ensures m[k := v] == m
  {
  }
}

=== FILE: refunds.dfy ===
/** The return/refund request: the buyer's order jumps to "Refund
    Processing" and a refund record naming the order's first product is
    stored.
 */
module Refunds {
  import opened Wrappers
  import Accounts
  import opened Orders
  import UserOrders

  /** A stored return/refund request; `createdAt` is the creation time. */
  datatype Refund = Refund(
    user: Id,
    product: Id,
    order: Id,
    returnReason: string,
    refundReason: string,
    feedback: Option<string>,
    createdAt: int)

  /** The request body; absent fields are `None`. */
  datatype RefundBody = RefundBody(returnReason: Option<string>, refundReason: Option<string>, feedback: Option<string>)

  /** The refund validator: the three references and both reasons are
      required (an empty string fails `required`); feedback is optional. */
  predicate ValidRefund(r: Refund) {
    r.user != "" && r.product != "" && r.order != "" && r.returnReason != "" && r.refundReason != ""
  }

  /** The record as built from the request, with the creation time
      defaulted to `now`. */
  function NewRefund(user: Id, product: Id, order: Id, body: RefundBody, now: int): (r: Refund)
    ensures r.createdAt == now && r.user == user && r.product == product && r.order == order
    ensures r.feedback == body.feedback
    ensures ValidRefund(r) <==> user != "" && product != "" && order != ""
                                && Given(body.returnReason) && Given(body.refundReason)
  {
    Refund(user, product, order, body.returnReason.GetOr(""), body.refundReason.GetOr(""), body.feedback, now)
  }

  /** The store after a request and the response. */
  datatype RefundOutcome = RefundOutcome(db: Db, refunds: seq<Refund>, result: Result<Refund, OrderError>)

  /** `createReturnRefundRequest`. The order must belong to the requester
      (404 otherwise) and have a line (400 otherwise); both refusals write
      nothing. Then the status is saved as "Refund Processing" whatever it
      was, and only then is the record validated: a record that fails
      answers 500 with the status already changed and nothing stored. */
  function RequestRefund(db: Db, refunds: seq<Refund>, actor: Accounts.Actor, orderId: Id,
                         body: RefundBody, now: int): (r: RefundOutcome)
    ensures r.result.Err? ==> r.refunds == refunds
    ensures orderId !in db.orders || db.orders[orderId].user != actor.id ==>
      r == RefundOutcome(db, refunds, Err(OrderNotFound))
    ensures orderId in db.orders && db.orders[orderId].user == actor.id && |db.orders[orderId].items| == 0 ==>
      r == RefundOutcome(db, refunds, Err(EmptyOrder))
    ensures orderId in db.orders && db.orders[orderId].user == actor.id && |db.orders[orderId].items| > 0 ==>
      var o := db.orders[orderId];
      && r.db == db.(orders := db.orders[orderId := o.(orderStatus := RefundProcessing)])
      && var record := NewRefund(actor.id, o.items[0].product, orderId, body, now);
         (if ValidRefund(record) then r.result == Ok(record) && r.refunds == refunds + [record]
          else r.result == Err(ServerError))
  {
    if orderId !in db.orders || db.orders[orderId].user != actor.id then RefundOutcome(db, refunds, Err(OrderNotFound))
    else
      var o := db.orders[orderId];
      if |o.items| == 0 then RefundOutcome(db, refunds, Err(EmptyOrder))
      else
        var saved := db.(orders := db.orders[orderId := o.(orderStatus := RefundProcessing)]);
        var record := NewRefund(actor.id, o.items[0].product, orderId, body, now);
        if ValidRefund(record) then RefundOutcome(saved, refunds + [record], Ok(record))
        else RefundOutcome(saved, refunds, Err(ServerError))
  }

  /** The jump is unguarded: a delivered or cancelled order of the
      requester with at least one line ends in "Refund Processing", and the
      stored record names its first line's product. */
  lemma RefundFromAnyStatus(db: Db, refunds: seq<Refund>, actor: Accounts.Actor, orderId: Id, body: RefundBody, now: int)
    requires orderId in db.orders && db.orders[orderId].user == actor.id && |db.orders[orderId].items| > 0
    ensures var r := RequestRefund(db, refunds, actor, orderId, body, now);
      && r.db.orders[orderId].orderStatus == RefundProcessing
      && (r.result.Ok? ==> r.result.value.product == db.orders[orderId].items[0].product)
      && (r.result.Err? ==> r.refunds == refunds)
  {
  }

  /** Through a refund request, a cancelled order re-enters the forward
      chain: the buyer-facing update then accepts Processing, which it
      refuses for the cancelled order itself. */
  lemma RefundReopensCancelled(db: Db, refunds: seq<Refund>, buyer: Accounts.Actor, admin: Accounts.Actor,
                               orderId: Id, body: RefundBody, now: int, validId: Id -> bool)
    requires orderId in db.orders && db.orders[orderId].user == buyer.id && |db.orders[orderId].items| > 0
    requires db.orders[orderId].orderStatus == Cancelled
    requires admin.accountType == Accounts.Admin && validId(orderId)
    ensures UserOrders.UpdateOrderStatus(db, admin, orderId, "Processing", validId, now).result.Err?
    ensures var r := RequestRefund(db, refunds, buyer, orderId, body, now);
      UserOrders.UpdateOrderStatus(r.db, admin, orderId, "Processing", validId, now).result.Ok?
  {
    assert ParseStatus("Processing") == Some(Processing);
  }
}

=== FILE: settings.dfy ===
/** The site settings: a single document, created by the first save and
    updated in place by every later one.
 */
module SiteSettings {
  import opened Wrappers

  datatype Settings = Settings(
    siteTitle: string,
    supportEmail: string,
    contactPhone: string,
    facebook: string,
    instagram: string,
    twitter: string,
    linkedin: string,
    openingTime: string,
    closingTime: string,
    address: string,
    footerText: string,
    customerCareItems: seq<string>)

  const DefaultSiteTitle: string := "Handicraft Bazaar"
  const DefaultOpeningTime: string := "10:00 AM"
  const DefaultClosingTime: string := "7:00 PM"

  /** The validator on `customerCareItems`. */
  const MaxCustomerCareItems: nat := 5

  /** The data passed to `saveSettings`; an absent key is `None`. */
  datatype SettingsData = SettingsData(
    siteTitle: Option<string>,
    supportEmail: Option<string>,
    contactPhone: Option<string>,
    facebook: Option<string>,
    instagram: Option<string>,
    twitter: Option<string>,
    linkedin: Option<string>,
    openingTime: Option<string>,
    closingTime: Option<string>,
    address: Option<string>,
    footerText: Option<string>,
    customerCareItems: Option<seq<string>>)

  datatype SettingsError =
    | MissingFields      // thrown before any query
    | ValidationFailed   // refused by the schema's validators

  /** The schema's validators: the four required strings non-empty and at
      most five customer-care items. */
  predicate ValidSettings(s: Settings) {
    && s.siteTitle != "" && s.supportEmail != "" && s.contactPhone != "" && s.address != ""
    && |s.customerCareItems| <= MaxCustomerCareItems
  }

  /** At most one settings document exists. */
  predicate Singleton(store: seq<Settings>) {
    |store| <= 1
  }

  /** `getSettings`: `findOne({})`, the first document or none. */
  function GetSettings(store: seq<Settings>): (r: Option<Settings>)
    ensures r.None? <==> |store| == 0
    ensures r.Some? ==> r.value in store
  {
    if |store| == 0 then None else Some(store[0])
  }

  /** `Settings.create(data)`: the defaults fill the absent keys. */
  function Defaults(data: SettingsData): (s: Settings)
    ensures s.siteTitle == data.siteTitle.GetOr(DefaultSiteTitle)
    ensures s.openingTime == data.openingTime.GetOr(DefaultOpeningTime)
    ensures s.closingTime == data.closingTime.GetOr(DefaultClosingTime)
    ensures s.facebook == data.facebook.GetOr("") && s.instagram == data.instagram.GetOr("")
    ensures s.twitter == data.twitter.GetOr("") && s.linkedin == data.linkedin.GetOr("")
    ensures s.footerText == data.footerText.GetOr("") && s.customerCareItems == data.customerCareItems.GetOr([])
    ensures s.supportEmail == data.supportEmail.GetOr("") && s.contactPhone == data.contactPhone.GetOr("")
    ensures s.address == data.address.GetOr("")
  {
    Settings(
      data.siteTitle.GetOr(DefaultSiteTitle), data.supportEmail.GetOr(""), data.contactPhone.GetOr(""),
      data.facebook.GetOr(""), data.instagram.GetOr(""), data.twitter.GetOr(""), data.linkedin.GetOr(""),
      data.openingTime.GetOr(DefaultOpeningTime), data.closingTime.GetOr(DefaultClosingTime),
      data.address.GetOr(""), data.footerText.GetOr(""), data.customerCareItems.GetOr([]))
  }

  /** `findByIdAndUpdate(id, data)`: the keys present overwrite, the
      others stay. */
  function Overwrite(s: Settings, data: SettingsData): (r: Settings)
    ensures r.siteTitle == data.siteTitle.GetOr(s.siteTitle)
    ensures r.supportEmail == data.supportEmail.GetOr(s.supportEmail)
    ensures r.contactPhone == data.contactPhone.GetOr(s.contactPhone)
    ensures r.address == data.address.GetOr(s.address)
    ensures r.customerCareItems == data.customerCareItems.GetOr(s.customerCareItems)
    ensures r.openingTime == data.openingTime.GetOr(s.openingTime) && r.closingTime == data.closingTime.GetOr(s.closingTime)
    ensures r.facebook == data.facebook.GetOr(s.facebook) && r.instagram == data.instagram.GetOr(s.instagram)
    ensures r.twitter == data.twitter.GetOr(s.twitter) && r.linkedin == data.linkedin.GetOr(s.linkedin)
    ensures r.footerText == data.footerText.GetOr(s.footerText)
  {
    Settings(
      data.siteTitle.GetOr(s.siteTitle), data.supportEmail.GetOr(s.supportEmail), data.contactPhone.GetOr(s.contactPhone),
      data.facebook.GetOr(s.facebook), data.instagram.GetOr(s.instagram), data.twitter.GetOr(s.twitter),
      data.linkedin.GetOr(s.linkedin), data.openingTime.GetOr(s.openingTime), data.closingTime.GetOr(s.closingTime),
      data.address.GetOr(s.address), data.footerText.GetOr(s.footerText),
      data.customerCareItems.GetOr(s.customerCareItems))
  }

  /** The update validators (`runValidators`), which look only at the keys
      being set. */
  predicate UpdateValid(data: SettingsData) {
    && (data.siteTitle.Some? ==> data.siteTitle.value != "")
    && (data.customerCareItems.Some? ==> |data.customerCareItems.value| <= MaxCustomerCareItems)
  }

  /** `saveSettings`. Without a support email, a contact phone and an
      address nothing is queried. A first save creates the document with
      the defaults; every later save overwrites the first document with
      the keys given. The validators refuse an empty site title and more
      than five customer-care items, leaving the store as it was. */
  function SaveSettings(store: seq<Settings>, data: SettingsData): (r: (seq<Settings>, Result<Settings, SettingsError>))
    ensures !(Given(data.supportEmail) && Given(data.contactPhone) && Given(data.address)) ==>
      r == (store, Err(MissingFields))
    ensures r.1.Err? ==> r.0 == store
    ensures r.1.Ok? ==> |r.0| == (if |store| == 0 then 1 else |store|) && r.0[0] == r.1.value
    ensures r.1.Ok? && |store| > 0 ==> r.0[1..] == store[1..]
    ensures r.1.Ok? ==> r.1.value.supportEmail == data.supportEmail.value
    ensures r.1.Ok? ==> r.1.value.contactPhone == data.contactPhone.value && r.1.value.address == data.address.value
    ensures r.1.Ok? && |store| == 0 ==> r.1.value == Defaults(data)
    ensures r.1.Ok? && |store| > 0 ==> r.1.value == Overwrite(store[0], data)
    ensures r.1.Ok? <==>
      (Given(data.supportEmail) && Given(data.contactPhone) && Given(data.address)
       && (if |store| == 0 then ValidSettings(Defaults(data)) else UpdateValid(data)))
    ensures Singleton(store) ==> Singleton(r.0)
    ensures (|store| == 0 || ValidSettings(store[0])) && r.1.Ok? ==> ValidSettings(r.1.value)
  {
    if !(Given(data.supportEmail) && Given(data.contactPhone) && Given(data.address)) then (store, Err(MissingFields))
    else if |store| == 0 then
      var s := Defaults(data);
      if ValidSettings(s) then ([s], Ok(s)) else (store, Err(ValidationFailed))
    else if UpdateValid(data) then
      var s := Overwrite(store[0], data);
      (store[0 := s], Ok(s))
    else (store, Err(ValidationFailed))
  }

  /** Saving the same data twice leaves what the first save left. */
  lemma SaveIdempotent(store: seq<Settings>, data: SettingsData)
    requires SaveSettings(store, data).1.Ok?
    ensures SaveSettings(SaveSettings(store, data).0, data) == SaveSettings(store, data)
  {
    var once := SaveSettings(store, data).0;
    assert Overwrite(once[0], data) == once[0];
    assert once[0 := once[0]] == once;
  }

  /** What a save stores is what `getSettings` returns next. */
  lemma SaveThenGet(store: seq<Settings>, data: SettingsData)
    requires SaveSettings(store, data).1.Ok?
    ensures GetSettings(SaveSettings(store, data).0) == Some(SaveSettings(store, data).1.value)
  {
  }
}

=== FILE: sub_categories.dfy ===
/** Sub-categories and their links from categories: creation with its
    compensating delete, rename, delete while unreferenced, and the
    publication toggle.

    A sub-category stores a name, a slug (`slugify(name, { lower: true,
    strict: true })`, the parameter `slugify`) and a `published` flag; a
    category stores the list of its sub-categories' ids.
 */
module SubCategories {
  import opened Wrappers
  import opened Text
  import Catalog

  datatype SubCategory = SubCategory(name: string, slug: string, published: bool)

  datatype Category = Category(subCategories: seq<Id>)

  /** The two collections a sub-category operation touches. */
  datatype Tree = Tree(subs: map<Id, SubCategory>, categories: map<Id, Category>)

  datatype SubError =
    | MissingFields      // 400
    | DuplicateName      // 400 "Sub-category already exists"
    | InvalidId          // 400 "Invalid sub-category ID format"
    | InUse(count: nat)  // 400 "Cannot delete. n product(s) are using this sub-category."
    | CategoryNotFound   // 404
    | SubNotFound        // 404
    | ServerError        // 500

  function HttpStatus(e: SubError): nat {
    match e
    case CategoryNotFound => 404
    case SubNotFound => 404
    case ServerError => 500
    case _ => 400
  }

  /** The collections after a request, and the response. */
  datatype Reply = Reply(tree: Tree, result: Result<Id, SubError>)

  /** `SubCategory.findOne({ name })` finds something. */
  predicate NameTaken(subs: map<Id, SubCategory>, name: string) {
    exists k :: k in subs && subs[k].name == name
  }

  predicate UniqueNames(subs: map<Id, SubCategory>) {
    forall a, b :: a in subs && b in subs && a != b ==> subs[a].name != subs[b].name
  }

  /** Every sub-category is listed by some category. */
  predicate NoOrphans(t: Tree) {
    forall s :: s in t.subs ==> exists c :: c in t.categories && s in t.categories[c].subCategories
  }

  /** Every product names an existing sub-category. */
  predicate Referenced(products: map<Id, Catalog.Product>, subs: map<Id, SubCategory>) {
    forall p :: p in products ==> products[p].subCategory in subs
  }

  /** The category with the new sub-category's id pushed onto its list. */
  function Link(t: Tree, categoryId: Id, id: Id): (r: map<Id, Category>)
    requires categoryId in t.categories
    ensures r.Keys == t.categories.Keys
    ensures r[categoryId].subCategories == t.categories[categoryId].subCategories + [id]
    ensures forall c :: c in t.categories && c != categoryId ==> r[c] == t.categories[c]
  {
    var cat := t.categories[categoryId];
    t.categories[categoryId := cat.(subCategories := cat.subCategories + [id])]
  }

  /** `createSubCategory` as written. Name and category id are required
      (400) and the name must be free (400); the sub-category is then
      created before the category is looked up. An unknown category is
      answered 404 after deleting it again, but a category id that cannot
      be cast to an ObjectId (`castable` false) makes `findById` throw and
      the catch answers 500 with the new sub-category still stored. */
  function CreateSubCategoryAsWritten(t: Tree, id: Id, name: Option<string>, categoryId: Option<Id>,
                                      slugify: string -> string, castable: Id -> bool): (r: Reply)
    requires id !in t.subs
    ensures !(Given(name) && Given(categoryId)) ==> r == Reply(t, Err(MissingFields))
    ensures Given(name) && Given(categoryId) && !NameTaken(t.subs, name.value) && !castable(categoryId.value) ==>
      r.result == Err(ServerError) && id in r.tree.subs && r.tree.categories == t.categories
  {
    if !(Given(name) && Given(categoryId)) then Reply(t, Err(MissingFields))
    else if NameTaken(t.subs, name.value) then Reply(t, Err(DuplicateName))
    else
      var created := t.(subs := t.subs[id := SubCategory(name.value, slugify(name.value), true)]);
      if !castable(categoryId.value) then Reply(created, Err(ServerError))
      else if categoryId.value !in t.categories then Reply(t, Err(CategoryNotFound))
      else Reply(created.(categories := Link(t, categoryId.value, id)), Ok(id))
  }

  /** A category id such as "abc" leaves a sub-category no category lists. */
  lemma OrphanCounterexample(slugify: string -> string, castable: Id -> bool)
    requires !castable("abc")
    ensures var t := Tree(map[], map[]);
      var r := CreateSubCategoryAsWritten(t, "s1", Some("Rugs"), Some("abc"), slugify, castable);
      r.result.Err? && !NoOrphans(r.tree)
  {
    var t := Tree(map[], map[]);
    var r := CreateSubCategoryAsWritten(t, "s1", Some("Rugs"), Some("abc"), slugify, castable);
    assert "s1" in r.tree.subs;
  }

  /** `createSubCategory` with the compensating delete applied on every
      refusal after the create, the failed cast included: a refused
      request leaves both collections as they were, and a created
      sub-category is linked from its category. */
  function CreateSubCategory(t: Tree, id: Id, name: Option<string>, categoryId: Option<Id>,
                             slugify: string -> string, castable: Id -> bool): (r: Reply)
    requires id !in t.subs
    ensures r.result.Err? ==> r.tree == t
    ensures !(Given(name) && Given(categoryId)) ==> r.result == Err(MissingFields)
    ensures Given(name) && Given(categoryId) && NameTaken(t.subs, name.value) ==> r.result == Err(DuplicateName)
    ensures r.result.Ok? <==>
      Given(name) && Given(categoryId) && !NameTaken(t.subs, name.value)
      && castable(categoryId.value) && categoryId.value in t.categories
    ensures r.result.Ok? ==>
      && r.result.value == id
      && r.tree.subs == t.subs[id := SubCategory(name.value, slugify(name.value), true)]
      && r.tree.categories.Keys == t.categories.Keys
      && id in r.tree.categories[categoryId.value].subCategories
    ensures NoOrphans(t) ==> NoOrphans(r.tree)
    ensures UniqueNames(t.subs) ==> UniqueNames(r.tree.subs)
  {
    if !(Given(name) && Given(categoryId)) then Reply(t, Err(MissingFields))
    else if NameTaken(t.subs, name.value) then Reply(t, Err(DuplicateName))
    else if !castable(categoryId.value) then Reply(t, Err(ServerError))
    else if categoryId.value !in t.categories then Reply(t, Err(CategoryNotFound))
    else
      var r := Reply(Tree(t.subs[id := SubCategory(name.value, slugify(name.value), true)],
                          Link(t, categoryId.value, id)), Ok(id));
      assert NoOrphans(t) ==> NoOrphans(r.tree) by {
        if NoOrphans(t) {
          forall s | s in r.tree.subs
            ensures exists c :: c in r.tree.categories && s in r.tree.categories[c].subCategories
          {
            if s == id {
              assert id in r.tree.categories[categoryId.value].subCategories;
            } else {
              var c :| c in t.categories && s in t.categories[c].subCategories;
              assert s in r.tree.categories[c].subCategories;
            }
          }
        }
      }
      r
  }

  /** `updateSubCategory`: a malformed id is a 400 and an unknown one a
      404. A name that is given and differs from the stored one must be
      free (400) and renames the sub-category, re-deriving its slug;
      otherwise nothing changes. */
  function UpdateSubCategory(t: Tree, id: Id, name: Option<string>, slugify: string -> string): (r: Reply)
    ensures r.result.Err? ==> r.tree == t
    ensures !IsHexObjectId(id) ==> r.result == Err(InvalidId)
    ensures IsHexObjectId(id) && id !in t.subs ==> r.result == Err(SubNotFound)
    ensures (IsHexObjectId(id) && id in t.subs && Given(name) && name.value != t.subs[id].name
             && NameTaken(t.subs, name.value)) ==> r.result == Err(DuplicateName)
    ensures IsHexObjectId(id) && id in t.subs ==>
      (r.result.Ok? <==> !(Given(name) && name.value != t.subs[id].name && NameTaken(t.subs, name.value)))
    ensures r.result.Ok? ==> r.result.value == id
    ensures r.result.Ok? ==> id in t.subs && r.tree.categories == t.categories && r.tree.subs.Keys == t.subs.Keys
    ensures r.result.Ok? ==> forall k :: k in t.subs && k != id ==> r.tree.subs[k] == t.subs[k]
    ensures r.result.Ok? && Given(name) && name.value != t.subs[id].name ==>
      r.tree.subs[id] == t.subs[id].(name := name.value, slug := slugify(name.value))
    ensures r.result.Ok? && !(Given(name) && name.value != t.subs[id].name) ==> r.tree == t
    ensures UniqueNames(t.subs) ==> UniqueNames(r.tree.subs)
    ensures NoOrphans(t) ==> NoOrphans(r.tree)
  {
    if !IsHexObjectId(id) then Reply(t, Err(InvalidId))
    else if id !in t.subs then Reply(t, Err(SubNotFound))
    else
      var s := t.subs[id];
      if Given(name) && name.value != s.name then
        if NameTaken(t.subs, name.value) then Reply(t, Err(DuplicateName))
        else Reply(t.(subs := t.subs[id := s.(name := name.value, slug := slugify(name.value))]), Ok(id))
      else
        assert t.subs[id := s] == t.subs;
        Reply(t, Ok(id))
  }

  /** Sending the same rename twice leaves what the first one left: the
      stored name now equals the one sent, so nothing is checked or
      written again. */
  lemma UpdateSubCategoryIdempotent(t: Tree, id: Id, name: Option<string>, slugify: string -> string)
    requires UpdateSubCategory(t, id, name, slugify).result.Ok?
    ensures var once := UpdateSubCategory(t, id, name, slugify);
      UpdateSubCategory(once.tree, id, name, slugify) == once
  {
  }

  /** `deleteSubCategory`: a malformed id is a 400, an unknown one a 404,
      and a sub-category any product names is kept (400, with the number
      of those products). The categories' lists are not touched, so they
      may go on naming the deleted id. */
  function DeleteSubCategory(t: Tree, products: map<Id, Catalog.Product>, id: Id): (r: Reply)
    ensures r.result.Err? ==> r.tree == t
    ensures !IsHexObjectId(id) ==> r.result == Err(InvalidId)
    ensures IsHexObjectId(id) && id !in t.subs ==> r.result == Err(SubNotFound)
    ensures r.result.Err? && r.result.error.InUse? ==>
      r.result.error.count > 0 && exists p :: p in products && products[p].subCategory == id
    ensures r.result.Ok? <==>
      IsHexObjectId(id) && id in t.subs && forall p :: p in products ==> products[p].subCategory != id
    ensures r.result.Ok? ==> r.tree == t.(subs := t.subs - {id})
    ensures Referenced(products, t.subs) ==> Referenced(products, r.tree.subs)
    ensures NoOrphans(t) ==> NoOrphans(r.tree)
  {
    if !IsHexObjectId(id) then Reply(t, Err(InvalidId))
    else if id !in t.subs then Reply(t, Err(SubNotFound))
    else
      var using := set p | p in products && products[p].subCategory == id;
      if |using| > 0 then Reply(t, Err(InUse(|using|)))
      else
        assert forall p :: p in products ==> products[p].subCategory != id by {
          assert forall p :: p in products && products[p].subCategory == id ==> p in using;
        }
        Reply(t.(subs := t.subs - {id}), Ok(id))
  }

  /** After a delete the category that linked the sub-category still
      lists its id, which no sub-category carries any more. */
  lemma DeleteLeavesLink(t: Tree, products: map<Id, Catalog.Product>, id: Id, categoryId: Id)
    requires categoryId in t.categories && id in t.categories[categoryId].subCategories
    requires DeleteSubCategory(t, products, id).result.Ok?
    ensures var after := DeleteSubCategory(t, products, id).tree;
      id in after.categories[categoryId].subCategories && id !in after.subs
  {
  }

  /** `toggleSubCategoryPublish`: 404 for an unknown id; otherwise only
      `published` is negated. */
  function TogglePublish(t: Tree, id: Id): (r: Reply)
    ensures r.result.Err? <==> id !in t.subs
    ensures r.result.Err? ==> r == Reply(t, Err(SubNotFound))
    ensures r.result.Ok? ==>
      && r.tree.categories == t.categories && r.tree.subs.Keys == t.subs.Keys
      && (forall k :: k in t.subs && k != id ==> r.tree.subs[k] == t.subs[k])
      && r.tree.subs[id].published == !t.subs[id].published
      && r.tree.subs[id].name == t.subs[id].name && r.tree.subs[id].slug == t.subs[id].slug
  {
    if id !in t.subs then Reply(t, Err(SubNotFound))
    else Reply(t.(subs := t.subs[id := t.subs[id].(published := !t.subs[id].published)]), Ok(id))
  }

  /** Toggling twice restores both collections. */
  lemma ToggleTwice(t: Tree, id: Id)
    requires id in t.subs
    ensures TogglePublish(TogglePublish(t, id).tree, id).tree == t
  {
    var once := TogglePublish(t, id).tree;
    var twice := TogglePublish(once, id).tree;
    assert twice.subs[id] == t.subs[id];
    assert twice.subs == t.subs;
  }
}

=== FILE: text.dfy ===
/** String primitives the controllers and Mongoose schemas rely on:
    `String.prototype.trim`, ASCII case mapping, the 24-hex-digit id
    pattern, `Number.prototype.toString` on naturals, `parseInt` with the
    default radix, and `name.split(".").pop()`.
 */
module Text {
  import opened Wrappers

  // ---------------------------------------------------------------------
  // Whitespace and trimming

  /** The characters `String.prototype.trim` and `parseInt` skip: the
      white space of section 12.2 of ECMA-262 (tab, vertical tab, form
      feed, the byte-order mark and every space separator, category Zs)
      and the line terminators of section 12.3 (LF, CR, U+2028, U+2029). */
  predicate IsSpace(c: char) {
    || c == '\t' || c == '\U{000B}' || c == '\U{000C}' || c == '\U{FEFF}'
    || c == ' ' || c == '\U{00A0}' || c == '\U{1680}' || '\U{2000}' <= c <= '\U{200A}'
    || c == '\U{202F}' || c == '\U{205F}' || c == '\U{3000}'
    || c == '\n' || c == '\r' || c == '\U{2028}' || c == '\U{2029}'
  }

  /** Neither the first nor the last character is white space. */
  predicate NoEdgeSpace(s: string) {
    |s| > 0 ==> !IsSpace(s[0]) && !IsSpace(s[|s| - 1])
  }

  predicate AllSpace(s: string) {
    forall i :: 0 <= i < |s| ==> IsSpace(s[i])
  }

  /** `s` with its leading white space removed. */
  function TrimStart(s: string): (r: string)
    ensures |r| <= |s| && r == s[|s| - |r|..]
    ensures AllSpace(s[..|s| - |r|])
    ensures |r| > 0 ==> !IsSpace(r[0])
  {
    if |s| > 0 && IsSpace(s[0]) then TrimStart(s[1..]) else s
  }

  /** `s` with its trailing white space removed. */
  function TrimEnd(s: string): (r: string)
    ensures |r| <= |s| && r == s[..|r|]
    ensures AllSpace(s[|r|..])
    ensures |r| > 0 ==> !IsSpace(r[|r| - 1])
  {
    if |s| > 0 && IsSpace(s[|s| - 1]) then TrimEnd(s[..|s| - 1]) else s
  }

  /** Number of leading white-space characters of `s`. */
  function LeadingSpace(s: string): (n: nat)
    ensures n <= |s|
  {
    |s| - |TrimStart(s)|
  }

  /** `String.prototype.trim`: the infix of `s` left after cutting its
      leading and trailing white space. */
  function Trim(s: string): (r: string)
    ensures NoEdgeSpace(r)
    ensures LeadingSpace(s) + |r| <= |s|
    ensures r == s[LeadingSpace(s)..LeadingSpace(s) + |r|]
    ensures AllSpace(s[..LeadingSpace(s)]) && AllSpace(s[LeadingSpace(s) + |r|..])
  {
    var t := TrimStart(s);
    var i := |s| - |t|;
    assert LeadingSpace(s) == i && t == s[i..] && AllSpace(s[..i]);
    var r := TrimEnd(t);
    InfixParts(s, i, t, r);
    r
  }

  /** Cutting a white-space prefix and then a white-space suffix leaves an
      infix with white space on both sides of it and none at its edges. */
  lemma InfixParts(s: string, i: nat, t: string, r: string)
    requires i <= |s| && t == s[i..] && AllSpace(s[..i]) && (|t| > 0 ==> !IsSpace(t[0]))
    requires |r| <= |t| && r == t[..|r|] && AllSpace(t[|r|..]) && (|r| > 0 ==> !IsSpace(r[|r| - 1]))
    ensures i + |r| <= |s| && r == s[i..i + |r|]
    ensures AllSpace(s[..i]) && AllSpace(s[i + |r|..])
    ensures NoEdgeSpace(r)
  {
    assert s[i + |r|..] == t[|r|..];
    if |r| > 0 {
      assert r[0] == t[0];
    }
  }

  /** Every string trimmed, positions kept. */
  function TrimAll(names: seq<string>): (r: seq<string>)
    ensures |r| == |names|
    ensures forall i :: 0 <= i < |names| ==> r[i] == Trim(names[i])
  {
    seq(|names|, i requires 0 <= i < |names| => Trim(names[i]))
  }

  /** Trimming yields the empty string exactly for white-space-only input. */
  lemma TrimEmptyIffBlank(s: string)
    ensures Trim(s) == [] <==> AllSpace(s)
  {
    var i := LeadingSpace(s);
    if Trim(s) == [] {
      assert i == |s|;
      forall k | 0 <= k < |s|
        ensures IsSpace(s[k])
      {
        assert s[k] == s[..i][k];
      }
    }
  }

  /** A string without edge white space is its own trim. */
  lemma TrimOfTrimmed(s: string)
    requires NoEdgeSpace(s)
    ensures Trim(s) == s
  {
    assert TrimStart(s) == s;
  }

  /** Trimming twice is trimming once. */
  lemma TrimIdempotent(s: string)
    ensures Trim(Trim(s)) == Trim(s)
  {
    TrimOfTrimmed(Trim(s));
  }

  /** Trimming every string of a list twice is trimming it once. */
  lemma TrimAllIdempotent(names: seq<string>)
    ensures TrimAll(TrimAll(names)) == TrimAll(names)
  {
    forall i | 0 <= i < |names|
      ensures TrimAll(TrimAll(names))[i] == TrimAll(names)[i]
    {
      TrimIdempotent(names[i]);
    }
  }

  /** `!s.trim()`: the string is empty or white space only. */
  predicate IsBlank(s: string) {
    Trim(s) == []
  }

  // ---------------------------------------------------------------------
  // UTF-16 length

  /** Code units of one character: two for a character outside the Basic
      Multilingual Plane, which UTF-16 stores as a surrogate pair. */
  function CodeUnits(c: char): (n: nat)
    ensures 1 <= n <= 2
  {
    if c as int > 0xFFFF then 2 else 1
  }

  /** JavaScript's `length`, which the `maxlength` validator compares:
      the number of UTF-16 code units. */
  function Utf16Length(s: string): (n: nat)
    ensures |s| <= n <= 2 * |s|
  {
    if |s| == 0 then 0 else CodeUnits(s[0]) + Utf16Length(s[1..])
  }

  /** On text inside the Basic Multilingual Plane the two lengths agree. */
  lemma {:induction false} Utf16LengthOfBmp(s: string)
    requires forall i :: 0 <= i < |s| ==> s[i] as int <= 0xFFFF
    ensures Utf16Length(s) == |s|
  {
    if |s| > 0 {
      assert forall i :: 0 <= i < |s[1..]| ==> s[1..][i] == s[i + 1];
      Utf16LengthOfBmp(s[1..]);
    }
  }

  /** A string of `n` characters outside the Basic Multilingual Plane has
      length `2 * n`, so 61 emoji already exceed a limit of 120. */
  lemma {:induction false} Utf16LengthOfAstral(s: string)
    requires forall i :: 0 <= i < |s| ==> s[i] as int > 0xFFFF
    ensures Utf16Length(s) == 2 * |s|
  {
    if |s| > 0 {
      assert forall i :: 0 <= i < |s[1..]| ==> s[1..][i] == s[i + 1];
      Utf16LengthOfAstral(s[1..]);
    }
  }

  // ---------------------------------------------------------------------
  // ASCII case mapping (`toLowerCase` / `toUpperCase` on the ASCII range)

  function LowerChar(c: char): char {
    if 'A' <= c <= 'Z' then (c as int - 'A' as int + 'a' as int) as char else c
  }

  function UpperChar(c: char): char {
    if 'a' <= c <= 'z' then (c as int - 'a' as int + 'A' as int) as char else c
  }

  function Lower(s: string): (r: string)
    ensures |r| == |s|
    ensures forall i :: 0 <= i < |s| ==> r[i] == LowerChar(s[i])
  {
    seq(|s|, i requires 0 <= i < |s| => LowerChar(s[i]))
  }

  function Upper(s: string): (r: string)
    ensures |r| == |s|
    ensures forall i :: 0 <= i < |s| ==> r[i] == UpperChar(s[i])
  {
    seq(|s|, i requires 0 <= i < |s| => UpperChar(s[i]))
  }

  predicate IsUpperCased(s: string) {
    forall i :: 0 <= i < |s| ==> !('a' <= s[i] <= 'z')
  }

  predicate IsLowerCased(s: string) {
    forall i :: 0 <= i < |s| ==> !('A' <= s[i] <= 'Z')
  }

  /** Upper-casing leaves no lower-case letter and is idempotent. */
  lemma UpperNormalises(s: string)
    ensures IsUpperCased(Upper(s))
    ensures Upper(Upper(s)) == Upper(s)
    ensures IsUpperCased(s) ==> Upper(s) == s
  {
  }

  /** Trimming an upper-cased string keeps it upper-cased. */
  lemma TrimKeepsUpper(s: string)
    requires IsUpperCased(s)
    ensures IsUpperCased(Trim(s))
  {
    var i := LeadingSpace(s);
    var t := Trim(s);
    SliceKeepsUpper(s, i, i + |t|);
  }

  lemma SliceKeepsUpper(s: string, a: nat, b: nat)
    requires a <= b <= |s| && IsUpperCased(s)
    ensures IsUpperCased(s[a..b])
  {
    forall k | 0 <= k < b - a
      ensures !('a' <= s[a..b][k] <= 'z')
    {
      assert s[a..b][k] == s[a + k];
    }
  }

  // ---------------------------------------------------------------------
  // Digits, identifiers

  predicate IsDigit(c: char) {
    '0' <= c <= '9'
  }

  predicate AllDigits(s: string) {
    forall i :: 0 <= i < |s| ==> IsDigit(s[i])
  }

  predicate IsHexDigit(c: char) {
    IsDigit(c) || 'a' <= c <= 'f' || 'A' <= c <= 'F'
  }

  /** The pattern `/^[0-9a-fA-F]{24}$/` the controllers test ids against. */
  predicate IsHexObjectId(s: string) {
    |s| == 24 && forall i :: 0 <= i < |s| ==> IsHexDigit(s[i])
  }

  /** JavaScript's `\w`: ASCII letters, digits and underscore. */
  predicate IsWordChar(c: char) {
    'a' <= c <= 'z' || 'A' <= c <= 'Z' || IsDigit(c) || c == '_'
  }

  // ---------------------------------------------------------------------
  // Decimal rendering and parsing of naturals

  function DigitChar(d: nat): (c: char)
    requires d < 10
    ensures IsDigit(c)
  {
    ('0' as int + d) as char
  }

  function DigitValue(c: char): (d: nat)
    requires IsDigit(c)
    ensures d < 10
  {
    c as int - '0' as int
  }

  /** Value of a string of decimal digits. */
  function DigitsValue(s: string): nat
    requires AllDigits(s)
  {
    if |s| == 0 then 0 else DigitsValue(s[..|s| - 1]) * 10 + DigitValue(s[|s| - 1])
  }

  /** `String(n)` for a natural `n`: decimal digits, no leading zero. */
  function NatToString(n: nat): (r: string)
    ensures |r| >= 1 && AllDigits(r)
    ensures |r| > 1 ==> r[0] != '0'
  {
    if n < 10 then [DigitChar(n)] else NatToString(n / 10) + [DigitChar(n % 10)]
  }

  /** Reading back the digits of `n` yields `n`. */
  lemma {:induction false} NatToStringRoundTrip(n: nat)
    ensures DigitsValue(NatToString(n)) == n
  {
    if n >= 10 {
      var s := NatToString(n);
      assert s[..|s| - 1] == NatToString(n / 10);
      NatToStringRoundTrip(n / 10);
    }
  }

  /** Distinct naturals render to distinct strings. */
  lemma NatToStringInjective(m: nat, n: nat)
    requires NatToString(m) == NatToString(n)
    ensures m == n
  {
    NatToStringRoundTrip(m);
    NatToStringRoundTrip(n);
  }

  function Pow10(k: nat): (p: nat)
    ensures p >= 1
  {
    if k == 0 then 1 else 10 * Pow10(k - 1)
  }

  /** A natural with `k` decimal digits renders to exactly `k` characters. */
  lemma {:induction false} NatToStringLength(n: nat, k: nat)
    requires k >= 1 && Pow10(k - 1) <= n < Pow10(k)
    ensures |NatToString(n)| == k
  {
    if k > 1 {
      assert Pow10(k - 2) <= n / 10 < Pow10(k - 1);
      NatToStringLength(n / 10, k - 1);
    }
  }

  /** The longest prefix of `s` made of decimal digits. */
  function DigitPrefix(s: string): (r: string)
    ensures |r| <= |s| && r == s[..|r|] && AllDigits(r)
    ensures |r| < |s| ==> !IsDigit(s[|r|])
  {
    if |s| > 0 && IsDigit(s[0]) then [s[0]] + DigitPrefix(s[1..]) else []
  }

  /** The text `parseInt` reads digits from: leading white space and one
      optional sign removed. */
  function Unsigned(s: string): (u: string)
    ensures |u| <= |s| && u == s[|s| - |u|..]
  {
    var t := TrimStart(s);
    if |t| > 0 && (t[0] == '-' || t[0] == '+') then t[1..] else t
  }

  /** Whether `Unsigned(s)` follows a minus sign. */
  predicate IsNegative(s: string) {
    var t := TrimStart(s);
    |t| > 0 && t[0] == '-'
  }

  /** `0x` or `0X`, which `parseInt` without a radix reads as radix 16. */
  predicate HasHexPrefix(u: string) {
    |u| >= 2 && u[0] == '0' && (u[1] == 'x' || u[1] == 'X')
  }

  predicate AllHexDigits(s: string) {
    forall i :: 0 <= i < |s| ==> IsHexDigit(s[i])
  }

  function HexDigitValue(c: char): (d: nat)
    requires IsHexDigit(c)
    ensures d < 16
    ensures IsDigit(c) ==> d == DigitValue(c)
  {
    if IsDigit(c) then c as int - '0' as int
    else if 'a' <= c <= 'f' then c as int - 'a' as int + 10
    else c as int - 'A' as int + 10
  }

  /** Value of a string of hexadecimal digits. */
  function HexValue(s: string): nat
    requires AllHexDigits(s)
  {
    if |s| == 0 then 0 else HexValue(s[..|s| - 1]) * 16 + HexDigitValue(s[|s| - 1])
  }

  /** The longest prefix of `s` made of hexadecimal digits. */
  function HexDigitPrefix(s: string): (r: string)
    ensures |r| <= |s| && r == s[..|r|] && AllHexDigits(r)
    ensures |r| < |s| ==> !IsHexDigit(s[|r|])
  {
    if |s| > 0 && IsHexDigit(s[0]) then [s[0]] + HexDigitPrefix(s[1..]) else []
  }

  /** `parseInt(s)` with no radix argument: leading white space is
      skipped and an optional sign read; after `0x` or `0X` the longest run
      of hexadecimal digits is read, otherwise the longest run of decimal
      digits; no digit at all is `NaN` (`None`). */
  function ParseInt(s: string): (r: Option<int>)
    ensures var u := Unsigned(s);
      r.None? <==> if HasHexPrefix(u) then |u| == 2 || !IsHexDigit(u[2]) else |u| == 0 || !IsDigit(u[0])
    ensures var u := Unsigned(s);
      r.Some? && HasHexPrefix(u) ==>
        var h := HexDigitPrefix(u[2..]);
        r.value == if IsNegative(s) then -(HexValue(h) as int) else HexValue(h)
    ensures var u := Unsigned(s);
      r.Some? && !HasHexPrefix(u) ==>
        var d := DigitPrefix(u);
        r.value == if IsNegative(s) then -(DigitsValue(d) as int) else DigitsValue(d)
  {
    var u := Unsigned(s);
    var magnitude :=
      if HasHexPrefix(u) then
        var h := HexDigitPrefix(u[2..]);
        if |h| == 0 then None else Some(HexValue(h))
      else
        var d := DigitPrefix(u);
        if |d| == 0 then None else Some(DigitsValue(d));
    match magnitude
    case None => None
    case Some(m) => if IsNegative(s) then Some(-(m as int)) else Some(m)
  }

  /** `parseInt(String(n)) === n` for every natural `n`. */
  lemma ParseIntRoundTrip(n: nat)
    ensures ParseInt(NatToString(n)) == Some(n)
  {
    var s := NatToString(n);
    NatToStringRoundTrip(n);
    ParseIntOfDigits(s);
  }

  /** A non-empty run of decimal digits parses to its value. */
  lemma ParseIntOfDigits(s: string)
    requires |s| > 0 && AllDigits(s)
    ensures ParseInt(s) == Some(DigitsValue(s))
  {
    assert !IsSpace(s[0]) && s[0] != '-' && s[0] != '+';
    assert TrimStart(s) == s;
    assert Unsigned(s) == s && !IsNegative(s);
    assert !HasHexPrefix(s) by {
      if |s| >= 2 { assert IsDigit(s[1]); }
    }
    AllDigitsPrefix(s);
  }

  /** `0x` followed by hexadecimal digits parses to their value in radix
      16, so "0x1A" is 26 and not 0. */
  lemma ParseIntOfHex(h: string)
    requires |h| > 0 && AllHexDigits(h)
    ensures ParseInt("0x" + h) == Some(HexValue(h))
  {
    var s := "0x" + h;
    HexText(h);
    assert s[2..] == h;
    AllHexDigitsPrefix(h);
  }

  /** `0x` with no hexadecimal digit after it is `NaN`. */
  lemma ParseIntBareHexPrefix(rest: string)
    requires |rest| == 0 || !IsHexDigit(rest[0])
    ensures ParseInt("0x" + rest).None?
  {
    var s := "0x" + rest;
    HexText(rest);
    assert |s| == 2 || s[2] == rest[0];
  }

  /** Text starting with `0x` has no blank or sign to skip, and is read in
      radix 16. */
  lemma HexText(rest: string)
    ensures var s := "0x" + rest;
      Unsigned(s) == s && !IsNegative(s) && HasHexPrefix(s)
  {
    var s := "0x" + rest;
    assert s[0] == '0' && s[1] == 'x' && !IsSpace(s[0]);
    assert TrimStart(s) == s;
  }

  lemma {:induction false} AllHexDigitsPrefix(s: string)
    requires AllHexDigits(s)
    ensures HexDigitPrefix(s) == s
  {
    if |s| > 0 {
      AllHexDigitsPrefix(s[1..]);
    }
  }

  lemma {:induction false} AllDigitsPrefix(s: string)
    requires AllDigits(s)
    ensures DigitPrefix(s) == s
  {
    if |s| > 0 {
      AllDigitsPrefix(s[1..]);
    }
  }

  // ---------------------------------------------------------------------
  // File extensions

  /** `s.split(".").pop()`: the longest suffix of `s` without a dot (all of
      `s` when it has no dot). */
  function AfterLastDot(s: string): (r: string)
    ensures |r| <= |s| && r == s[|s| - |r|..]
    ensures '.' !in r
    ensures |r| < |s| ==> s[|s| - |r| - 1] == '.'
  {
    if |s| == 0 then []
    else if s[|s| - 1] == '.' then []
    else
      var rest := AfterLastDot(s[..|s| - 1]);
      assert s[..|s| - 1][|s| - 1 - |rest|..] + [s[|s| - 1]] == s[|s| - |rest| - 1..];
      rest + [s[|s| - 1]]
  }

  /** A name of the form `stem.ext` with a dot-free `ext` has extension
      `ext`. */
  lemma {:induction false} AfterLastDotOfAppend(stem: string, ext: string)
    requires '.' !in ext
    ensures AfterLastDot(stem + "." + ext) == ext
  {
    if |ext| > 0 {
      var s := stem + "." + ext;
      assert s[..|s| - 1] == stem + "." + ext[..|ext| - 1];
      AfterLastDotOfAppend(stem, ext[..|ext| - 1]);
    } else {
      assert (stem + "." + ext)[|stem + "." + ext| - 1] == '.';
    }
  }
}

=== FILE: user_orders.dfy ===
/** The buyer-facing order controller: placing, reading, cancelling,
    advancing and deleting a single order.

    Each operation takes the store and the requester and returns an
    `Outcome`: the store after the request and the response. Checks that
    fail before any write leave the store untouched.
 */
module UserOrders {
  import opened Wrappers
  import Accounts
  import Collections
  import opened Orders

  // ---------------------------------------------------------------------
  // Placing an order

  /** The body of a create request. `paymentMethod` is "" when absent;
      `totalAmount` distinguishes absence from every value, as the
      controller tests it with `=== undefined`. */
  datatype OrderRequest = OrderRequest(
    orderItems: Option<seq<OrderItem>>,
    shippingInfo: Option<ShippingInfo>,
    paymentMethod: string,
    totalAmount: Option<int>,
    shippingPrice: Option<int>)

  /** Every field the controller needs is present. */
  predicate Complete(req: OrderRequest) {
    && req.orderItems.Some? && |req.orderItems.value| > 0
    && req.shippingInfo.Some?
    && req.paymentMethod != ""
    && req.totalAmount.Some?
  }

  /** The two field checks, in order: the item list first, then the other
      required fields. */
  function CheckRequest(req: OrderRequest): (r: Result<seq<OrderItem>, OrderError>)
    ensures r == Err(NoItems) <==> req.orderItems.None? || |req.orderItems.value| == 0
    ensures r.Ok? <==> Complete(req)
    ensures r.Ok? ==> r.value == req.orderItems.value
    ensures r.Err? ==> r.error == NoItems || r.error == MissingFields
  {
    if req.orderItems.None? || |req.orderItems.value| == 0 then Err(NoItems)
    else if req.shippingInfo.None? || req.paymentMethod == "" || req.totalAmount.None? then Err(MissingFields)
    else Ok(req.orderItems.value)
  }

  /** The line's product exists and holds at least the line's quantity. */
  predicate Covered(products: map<Id, Catalog.Product>, item: OrderItem) {
    item.product in products && products[item.product].stock >= item.quantity
  }

  /** The response to an uncovered line: 404 for a missing product, 400
      for too little stock. */
  function LineError(products: map<Id, Catalog.Product>, item: OrderItem): OrderError {
    if item.product !in products then ProductNotFound(item.product)
    else InsufficientStock(item.product)
  }

  /** The stock check as written: each line on its own against the stock
      before the order, the first uncovered line deciding the error. */
  function CheckLines(products: map<Id, Catalog.Product>, items: seq<OrderItem>): (r: Option<OrderError>)
    ensures r.None? <==> forall i :: 0 <= i < |items| ==> Covered(products, items[i])
    ensures r.Some? ==>
      exists i :: (0 <= i < |items| && !Covered(products, items[i])
                   && r.value == LineError(products, items[i])
                   && forall j :: 0 <= j < i ==> Covered(products, items[j]))
  {
    match Collections.FirstIndex(items, (l: OrderItem) => !Covered(products, l))
    case None => None
    case Some(i) => Some(LineError(products, items[i]))
  }

  /** The line's product exists and holds at least the summed quantity of
      all lines of the order for that product. */
  predicate CoveredInTotal(products: map<Id, Catalog.Product>, items: seq<OrderItem>, item: OrderItem) {
    item.product in products && products[item.product].stock >= QuantityOf(items, item.product)
  }

  /** The corrected stock check: lines for the same product are summed. */
  function CheckTotals(products: map<Id, Catalog.Product>, items: seq<OrderItem>): (r: Option<OrderError>)
    ensures r.None? <==> forall i :: 0 <= i < |items| ==> CoveredInTotal(products, items, items[i])
    ensures r.Some? ==>
      exists i :: (0 <= i < |items| && !CoveredInTotal(products, items, items[i])
                   && r.value == LineError(products, items[i])
                   && forall j :: 0 <= j < i ==> CoveredInTotal(products, items, items[j]))
  {
    match Collections.FirstIndex(items, (l: OrderItem) => !CoveredInTotal(products, items, l))
    case None => None
    case Some(i) =>
      Some(if items[i].product !in products then ProductNotFound(items[i].product)
           else InsufficientStock(items[i].product))
  }

  /** The shipping-address snapshot: absent or empty apartment and landmark
      become "", an absent or empty type becomes "Home", the street address
      doubles as the address line, and the snapshot is neither default nor
      archived. */
  function Snapshot(user: Id, info: ShippingInfo): (a: Address)
    ensures a.user == user && a.addressLine == info.streetAddress && a.streetAddress == info.streetAddress
    ensures a.firstName == info.firstName && a.lastName == info.lastName && a.phone == info.phone
    ensures a.city == info.city && a.state == info.state && a.postalCode == info.postalCode
    ensures a.kind != "" && a.kind == Or(info.kind, "Home")
    ensures a.apartment == Or(info.apartment, "") && a.landmark == Or(info.landmark, "")
    ensures !a.isDefault && !a.isArchived
  {
    Address(user, info.firstName, info.lastName, info.streetAddress, Or(info.apartment, ""),
            info.phone, info.streetAddress, Or(info.landmark, ""), info.city, info.state,
            info.postalCode, Or(info.kind, "Home"), false, false)
  }

  /** The order document as created: it starts in Processing, undelivered,
      and is paid exactly when the payment method is "Online". Amounts are
      stored as sent and never recomputed from the lines. */
  function NewOrder(user: Id, items: seq<OrderItem>, address: Id, paymentMethod: string,
                    totalAmount: int, shippingPrice: Option<int>): (o: Order)
    ensures o.orderStatus == Processing && o.deliveredAt.None?
    ensures o.paymentStatus == Completed <==> paymentMethod == "Online"
    ensures o.paymentStatus == PaymentPending <==> paymentMethod != "Online"
    ensures o.isPaid <==> paymentMethod == "Online"
    ensures o.user == user && o.items == items && o.shippingAddress == address
    ensures o.paymentMethod == paymentMethod
    ensures o.totalAmount == totalAmount && o.shippingPrice == shippingPrice
  {
    var online := paymentMethod == "Online";
    Order(user, items, address, paymentMethod, if online then Completed else PaymentPending,
          online, Processing, totalAmount, shippingPrice, None)
  }

  /** The writes after the checks: the address snapshot and the order are
      created first; a buyer missing from the users answers 404 with both
      already written and no stock touched; otherwise the order id is
      appended to the buyer's list and every line's quantity is taken from
      its product. */
  function Place(db: Db, actor: Accounts.Actor, req: OrderRequest, orderId: Id, addressId: Id): (r: Outcome<Id>)
    requires Complete(req)
    ensures r.db.addresses == db.addresses[addressId := Snapshot(actor.id, req.shippingInfo.value)]
    ensures r.db.orders == db.orders[orderId := NewOrder(actor.id, req.orderItems.value, addressId,
                                      req.paymentMethod, req.totalAmount.value, req.shippingPrice)]
    ensures r.result.Err? <==> Accounts.FindById(db.users, actor.id).None?
    ensures r.result.Err? ==> r.result.error == BuyerNotFound && r.db.products == db.products && r.db.users == db.users
    ensures r.result.Ok? ==> r.result.value == orderId
    ensures r.result.Ok? ==> r.db.products == Decrement(db.products, req.orderItems.value)
    ensures r.result.Ok? ==>
      var i := Accounts.FindById(db.users, actor.id).value;
      r.db.users == db.users[i := db.users[i].(orders := db.users[i].orders + [orderId])]
  {
    var items := req.orderItems.value;
    var order := NewOrder(actor.id, items, addressId, req.paymentMethod, req.totalAmount.value, req.shippingPrice);
    var written := db.(addresses := db.addresses[addressId := Snapshot(actor.id, req.shippingInfo.value)],
                       orders := db.orders[orderId := order]);
    match Accounts.FindById(db.users, actor.id)
    case None => Outcome(written, Err(BuyerNotFound))
    case Some(i) =>
      var buyer := db.users[i].(orders := db.users[i].orders + [orderId]);
      Outcome(written.(users := Accounts.Put(db.users, i, buyer),
                       products := Decrement(db.products, items)), Ok(orderId))
  }

  /** `createOrder` as written: the request checks and the per-line stock
      check run before any write and leave the store unchanged on failure. */
  function CreateOrderAsWritten(db: Db, actor: Accounts.Actor, req: OrderRequest, orderId: Id, addressId: Id): (r: Outcome<Id>)
    ensures CheckRequest(req).Err? ==> r == Outcome(db, Err(CheckRequest(req).error))
    ensures Complete(req) && CheckLines(db.products, req.orderItems.value).Some? ==>
      r == Outcome(db, Err(CheckLines(db.products, req.orderItems.value).value))
    ensures Complete(req) && CheckLines(db.products, req.orderItems.value).None? ==>
      r == Place(db, actor, req, orderId, addressId)
    ensures r.result.Ok? ==>
      && Complete(req)
      && (forall i :: 0 <= i < |req.orderItems.value| ==> Covered(db.products, req.orderItems.value[i]))
      && r.db.products == Decrement(db.products, req.orderItems.value)
  {
    match CheckRequest(req)
    case Err(e) => Outcome(db, Err(e))
    case Ok(items) =>
      match CheckLines(db.products, items)
      case Some(e) => Outcome(db, Err(e))
      case None => Place(db, actor, req, orderId, addressId)
  }

  /** `createOrder` with the stock check summing the lines of each product:
      the same checks and writes, and an order it accepts never drives a
      stock below zero. */
  function CreateOrder(db: Db, actor: Accounts.Actor, req: OrderRequest, orderId: Id, addressId: Id): (r: Outcome<Id>)
    ensures CheckRequest(req).Err? ==> r == Outcome(db, Err(CheckRequest(req).error))
    ensures Complete(req) && CheckTotals(db.products, req.orderItems.value).Some? ==>
      r == Outcome(db, Err(CheckTotals(db.products, req.orderItems.value).value))
    ensures Complete(req) && CheckTotals(db.products, req.orderItems.value).None? ==>
      r == Place(db, actor, req, orderId, addressId)
    ensures r.result.Ok? ==>
      && Complete(req)
      && (forall i :: 0 <= i < |req.orderItems.value| ==>
            CoveredInTotal(db.products, req.orderItems.value, req.orderItems.value[i]))
      && r.db.products == Decrement(db.products, req.orderItems.value)
    ensures NonNegativeStock(db.products) ==> NonNegativeStock(r.db.products)
  {
    match CheckRequest(req)
    case Err(e) => Outcome(db, Err(e))
    case Ok(items) =>
      match CheckTotals(db.products, items)
      case Some(e) => Outcome(db, Err(e))
      case None =>
        var r := Place(db, actor, req, orderId, addressId);
        assert NonNegativeStock(db.products) ==> NonNegativeStock(r.db.products) by {
          if NonNegativeStock(db.products) && r.result.Ok? {
            DecrementKeepsNonNegative(db.products, items);
          }
        }
        r
  }

  /** Taking the summed quantities that the stock covers leaves every
      stock non-negative. */
  lemma DecrementKeepsNonNegative(products: map<Id, Catalog.Product>, items: seq<OrderItem>)
    requires NonNegativeStock(products)
    requires forall i :: 0 <= i < |items| ==> CoveredInTotal(products, items, items[i])
    ensures NonNegativeStock(Decrement(products, items))
  {
    var r := Decrement(products, items);
    forall k | k in r
      ensures r[k].stock >= 0
    {
      if exists i :: 0 <= i < |items| && items[i].product == k {
        var i :| 0 <= i < |items| && items[i].product == k;
        assert CoveredInTotal(products, items, items[i]);
      } else {
        QuantityOfAbsent(items, k);
      }
    }
  }

  /** A product with stock 5 and an order of two lines of 3 for it. */
  function OverdrawProducts(): map<Id, Catalog.Product> {
    map["p" := Catalog.Product("Vase", "Clay vase", "Hand thrown", 100, None, "c", "s", [], [],
                               5, "", "", Catalog.DefaultMaterial, [], true, false, false, [], "seller", Catalog.Pending)]
  }

  function OverdrawRequest(): OrderRequest {
    OrderRequest(Some([OrderItem("p", 3, 100), OrderItem("p", 3, 100)]),
                 Some(ShippingInfo("A", "B", "1 Road", None, "9999999999", None, "C", "S", "123456", None)),
                 "COD", Some(600), None)
  }

  /** As written, two lines of 3 against a stock of 5 both pass the check
      and the stock ends at -1; the corrected check refuses the order with
      400 and writes nothing. */
  lemma OverdrawCounterexample(users: seq<Accounts.Account>)
    requires |users| > 0
    ensures var db := Db(map[], OverdrawProducts(), users, map[]);
      var actor := Accounts.Actor(users[0].id, Accounts.User);
      var asWritten := CreateOrderAsWritten(db, actor, OverdrawRequest(), "o", "a");
      var corrected := CreateOrder(db, actor, OverdrawRequest(), "o", "a");
      && NonNegativeStock(db.products)
      && asWritten.result == Ok("o") && asWritten.db.products["p"].stock == -1
      && corrected == Outcome(db, Err(InsufficientStock("p")))
  {
    var db := Db(map[], OverdrawProducts(), users, map[]);
    var items := OverdrawRequest().orderItems.value;
    assert Covered(db.products, items[0]) && Covered(db.products, items[1]);
    assert QuantityOf(items, "p") == 6;
    assert !CoveredInTotal(db.products, items, items[0]);
    assert Accounts.FindById(users, users[0].id).Some?;
  }

  // ---------------------------------------------------------------------
  // Reading, cancelling, advancing and deleting one order

  /** `getSingleOrder`: a malformed id is 400, a missing order 404; the
      buyer is populated, and a buyer no longer in the users makes the
      owner comparison dereference null (500); a requester who is neither
      the buyer nor an admin gets 403. */
  function GetSingleOrder(db: Db, actor: Accounts.Actor, orderId: Id, validId: Id -> bool): (r: Result<Order, OrderError>)
    ensures r.Ok? <==>
      && validId(orderId) && orderId in db.orders
      && Accounts.FindById(db.users, db.orders[orderId].user).Some?
      && MayAct(actor, db.orders[orderId])
    ensures r.Ok? ==> r.value == db.orders[orderId]
    ensures !validId(orderId) ==> r == Err(InvalidOrderId)
    ensures validId(orderId) && orderId !in db.orders ==> r == Err(OrderNotFound)
    ensures validId(orderId) && orderId in db.orders && Accounts.FindById(db.users, db.orders[orderId].user).None?
            ==> r == Err(ServerError)
    ensures (validId(orderId) && orderId in db.orders && !MayAct(actor, db.orders[orderId])
             && Accounts.FindById(db.users, db.orders[orderId].user).Some?) ==> r == Err(NotAuthorized)
  {
    if !validId(orderId) then Err(InvalidOrderId)
    else if orderId !in db.orders then Err(OrderNotFound)
    else
      var o := db.orders[orderId];
      if Accounts.FindById(db.users, o.user).None? then Err(ServerError)
      else if !MayAct(actor, o) then Err(NotAuthorized)
      else Ok(o)
  }

  /** `cancelOrder`: the buyer or an admin may cancel an order that is
      neither delivered nor cancelled; the order becomes Cancelled with
      payment Failed and no delivery date, and every line's quantity goes
      back to its product. A refused request writes nothing. */
  function CancelOrder(db: Db, actor: Accounts.Actor, orderId: Id, validId: Id -> bool): (r: Outcome<Order>)
    ensures r.result.Err? ==> r.db == db
    ensures r.result.Ok? <==>
      && validId(orderId) && orderId in db.orders
      && MayAct(actor, db.orders[orderId]) && !IsFinal(db.orders[orderId].orderStatus)
    ensures (validId(orderId) && orderId in db.orders && MayAct(actor, db.orders[orderId])
             && IsFinal(db.orders[orderId].orderStatus)) ==>
      r.result == Err(AlreadyFinal(db.orders[orderId].orderStatus))
    ensures r.result.Ok? ==>
      var o := db.orders[orderId];
      && r.result.value == CancelledOrder(o)
      && r.db.orders == db.orders[orderId := CancelledOrder(o)]
      && r.db.products == Restock(db.products, o.items)
      && r.db.users == db.users && r.db.addresses == db.addresses
  {
    if !validId(orderId) then Outcome(db, Err(InvalidOrderId))
    else if orderId !in db.orders then Outcome(db, Err(OrderNotFound))
    else
      var o := db.orders[orderId];
      if !MayAct(actor, o) then Outcome(db, Err(NotAuthorized))
      else if IsFinal(o.orderStatus) then Outcome(db, Err(AlreadyFinal(o.orderStatus)))
      else
        var c := CancelledOrder(o);
        Outcome(db.(orders := db.orders[orderId := c], products := Restock(db.products, o.items)), Ok(c))
  }

  /** The forward chain accepts `next` from `current`: `next` is in the
      chain and strictly after `current` (a status outside the chain counts
      as position -1). */
  predicate Advances(current: OrderStatus, next: OrderStatus) {
    next in ForwardStatuses && Rank(next) > Rank(current)
  }

  /** `updateOrderStatus` of the buyer-facing controller. Admins only; then
      the id format, the order's existence, the final states, membership of
      the new status in the forward chain and strict forward movement are
      checked in that order. Delivered also records the delivery time and
      marks the order paid; any other accepted move changes only the
      status. */
  function UpdateOrderStatus(db: Db, actor: Accounts.Actor, orderId: Id, newStatus: string,
                             validId: Id -> bool, now: int): (r: Outcome<Order>)
    ensures r.result.Err? ==> r.db == db
    ensures actor.accountType != Accounts.Admin ==> r.result == Err(AdminsOnly)
    ensures r.result.Ok? <==>
      && actor.accountType == Accounts.Admin && validId(orderId) && orderId in db.orders
      && !IsFinal(db.orders[orderId].orderStatus)
      && ParseStatus(newStatus).Some? && Advances(db.orders[orderId].orderStatus, ParseStatus(newStatus).value)
    ensures r.result.Ok? ==>
      var o := db.orders[orderId];
      var s := ParseStatus(newStatus).value;
      && r.db == db.(orders := db.orders[orderId := r.result.value])
      && r.result.value.orderStatus == s
      && (s == Delivered ==> r.result.value == o.(orderStatus := s, deliveredAt := Some(now),
                                                   paymentStatus := Completed, isPaid := true))
      && (s != Delivered ==> r.result.value == o.(orderStatus := s))
  {
    if actor.accountType != Accounts.Admin then Outcome(db, Err(AdminsOnly))
    else if !validId(orderId) then Outcome(db, Err(InvalidOrderId))
    else if orderId !in db.orders then Outcome(db, Err(OrderNotFound))
    else
      var o := db.orders[orderId];
      if IsFinal(o.orderStatus) then Outcome(db, Err(AlreadyFinal(o.orderStatus)))
      else match ParseStatus(newStatus)
        case None => Outcome(db, Err(InvalidStatus))
        case Some(s) =>
          if s !in ForwardStatuses then Outcome(db, Err(InvalidStatus))
          else if Rank(s) <= Rank(o.orderStatus) then Outcome(db, Err(BackwardMove))
          else
            var u := if s == Delivered then o.(orderStatus := s, deliveredAt := Some(now), paymentStatus := Completed, isPaid := true)
                     else o.(orderStatus := s);
            Outcome(db.(orders := db.orders[orderId := u]), Ok(u))
  }

  /** An accepted update moves strictly forward along the chain, never
      leaves Delivered or Cancelled and never enters Cancelled or a refund
      status; from "Refund Processing" every status of the chain is
      accepted. */
  lemma UpdateIsForwardOnly(db: Db, actor: Accounts.Actor, orderId: Id, newStatus: string, validId: Id -> bool, now: int)
    ensures var r := UpdateOrderStatus(db, actor, orderId, newStatus, validId, now);
      r.result.Ok? ==>
        && Rank(r.result.value.orderStatus) > Rank(db.orders[orderId].orderStatus) >= -1
        && r.result.value.orderStatus in ForwardStatuses
        && !IsFinal(db.orders[orderId].orderStatus)
    ensures actor.accountType == Accounts.Admin && validId(orderId) && orderId in db.orders
      && db.orders[orderId].orderStatus == RefundProcessing && ParseStatus(newStatus).Some?
      && ParseStatus(newStatus).value in ForwardStatuses
      ==> UpdateOrderStatus(db, actor, orderId, newStatus, validId, now).result.Ok?
  {
  }

  /** Applies a sequence of status requests to one order, keeping the
      store of each accepted update; the number of accepted updates. */
  function Accepted(db: Db, actor: Accounts.Actor, orderId: Id, requests: seq<string>,
                    validId: Id -> bool, now: int): (n: nat)
    ensures n <= |requests|
    decreases |requests|
  {
    if |requests| == 0 then 0
    else
      var r := UpdateOrderStatus(db, actor, orderId, requests[0], validId, now);
      (if r.result.Ok? then 1 else 0) + Accepted(r.db, actor, orderId, requests[1..], validId, now)
  }

  /** However many requests are sent, one order accepts at most
      2 - (its current position) forward updates: at most two from
      Processing, three from outside the chain. */
  lemma {:induction false} AcceptedBounded(db: Db, actor: Accounts.Actor, orderId: Id, requests: seq<string>,
                                           validId: Id -> bool, now: int)
    requires orderId in db.orders
    ensures Accepted(db, actor, orderId, requests, validId, now) <= 2 - Rank(db.orders[orderId].orderStatus)
    decreases |requests|
  {
    if |requests| > 0 {
      var r := UpdateOrderStatus(db, actor, orderId, requests[0], validId, now);
      assert orderId in r.db.orders;
      AcceptedBounded(r.db, actor, orderId, requests[1..], validId, now);
      if r.result.Ok? {
        assert Rank(r.db.orders[orderId].orderStatus) > Rank(db.orders[orderId].orderStatus);
      }
    }
  }

  /** `deleteOrder`: the buyer or an admin may delete any order that is not
      Delivered. The order disappears; no stock is restored, and the id
      stays in the buyer's list. */
  function DeleteOrder(db: Db, actor: Accounts.Actor, orderId: Id, validId: Id -> bool): (r: Outcome<()>)
    ensures r.result.Err? ==> r.db == db
    ensures r.result.Ok? <==>
      && validId(orderId) && orderId in db.orders
      && MayAct(actor, db.orders[orderId]) && db.orders[orderId].orderStatus != Delivered
    ensures r.result.Ok? ==> r.db == db.(orders := db.orders - {orderId})
    ensures r.db.products == db.products && r.db.users == db.users
  {
    if !validId(orderId) then Outcome(db, Err(InvalidOrderId))
    else if orderId !in db.orders then Outcome(db, Err(OrderNotFound))
    else
      var o := db.orders[orderId];
      if !MayAct(actor, o) then Outcome(db, Err(NotAuthorized))
      else if o.orderStatus == Delivered then Outcome(db, Err(DeliveredNotDeletable))
      else Outcome(db.(orders := db.orders - {orderId}), Ok(()))
  }

  /** A delivered order survives every delete request, whoever sends it. */
  lemma DeliveredNeverDeleted(db: Db, actor: Accounts.Actor, orderId: Id, validId: Id -> bool)
    requires orderId in db.orders && db.orders[orderId].orderStatus == Delivered
    ensures var r := DeleteOrder(db, actor, orderId, validId);
      r.db == db && (validId(orderId) && MayAct(actor, db.orders[orderId]) ==> r.result == Err(DeliveredNotDeletable))
  {
  }

  /** Cancelling an order just placed gives every product back the stock
      it had before the order. */
  lemma CancelRestoresStock(db: Db, actor: Accounts.Actor, req: OrderRequest, orderId: Id, addressId: Id,
                            canceller: Accounts.Actor, validId: Id -> bool)
    requires validId(orderId)
    requires canceller.id == actor.id || canceller.accountType == Accounts.Admin
    requires CreateOrder(db, actor, req, orderId, addressId).result.Ok?
    ensures var placed := CreateOrder(db, actor, req, orderId, addressId);
      var cancelled := CancelOrder(placed.db, canceller, orderId, validId);
      cancelled.result.Ok? && cancelled.db.products == db.products
  {
    CreateIsPlace(db, actor, req, orderId, addressId);
    var placed := CreateOrder(db, actor, req, orderId, addressId).db;
    var items := req.orderItems.value;
    var o := NewOrder(actor.id, items, addressId, req.paymentMethod, req.totalAmount.value, req.shippingPrice);
    assert placed.orders[orderId] == o && placed.products == Decrement(db.products, items);
    CancelFresh(placed, canceller, orderId, validId);
    RestockUndoesDecrement(db.products, items);
  }

  /** An order still Processing is cancelled by its buyer or an admin, and
      its lines go back to the stock. */
  lemma CancelFresh(db: Db, actor: Accounts.Actor, orderId: Id, validId: Id -> bool)
    requires validId(orderId) && orderId in db.orders
    requires MayAct(actor, db.orders[orderId]) && db.orders[orderId].orderStatus == Processing
    ensures var r := CancelOrder(db, actor, orderId, validId);
      r.result.Ok? && r.db.products == Restock(db.products, db.orders[orderId].items)
  {
  }

  /** A complete request by a known buyer whose stock covers the summed
      quantity of every line is accepted under the new order id, and takes
      exactly those quantities from the stock. */
  lemma CreateAcceptsCovered(db: Db, actor: Accounts.Actor, req: OrderRequest, orderId: Id, addressId: Id)
    requires Complete(req) && Accounts.FindById(db.users, actor.id).Some?
    requires forall i :: 0 <= i < |req.orderItems.value| ==>
      CoveredInTotal(db.products, req.orderItems.value, req.orderItems.value[i])
    ensures var r := CreateOrder(db, actor, req, orderId, addressId);
      && r.result == Ok(orderId)
      && r.db.products == Decrement(db.products, req.orderItems.value)
      && orderId in r.db.orders && r.db.orders[orderId].items == req.orderItems.value
  {
  }

  /** An accepted `createOrder` is the write step on a complete request. */
  lemma CreateIsPlace(db: Db, actor: Accounts.Actor, req: OrderRequest, orderId: Id, addressId: Id)
    requires CreateOrder(db, actor, req, orderId, addressId).result.Ok?
    ensures Complete(req) && CreateOrder(db, actor, req, orderId, addressId) == Place(db, actor, req, orderId, addressId)
  {
    assert CheckRequest(req).Ok?;
    assert CheckTotals(db.products, req.orderItems.value).None?;
  }
}

=== FILE: wrappers.dfy ===
/** Failure-carrying datatypes shared by every controller model.

    Each controller answers a request either with a new state of the
    document store (`Ok`) or with an error tag that the controller turns
    into an HTTP status code (`Err`).
 */
module Wrappers {

  /** A document identifier (a MongoDB ObjectId in its string form). */
  type Id = string

  /** A value that may be absent: an optional request field or a lookup
      that found nothing. */
  datatype Option<+T> = None | Some(value: T) {

    /** Returns the value, or `default` when absent. */
    function GetOr(default: T): T {
      match this
      case Some(v) => v
      case None => default
    }
  }

  /** Outcome of one controller call. */
  datatype Result<+T, +E> = Ok(value: T) | Err(error: E) {

    predicate IsFailure() {
      Err?
    }

    function PropagateFailure<U>(): Result<U, E>
      requires Err?
    {
      Err(error)
    }

    function Extract(): T
      requires Ok?
    {
      value
    }
  }

  /** A required string field as Mongoose and the controllers see it:
      present and not the empty string (`!field` is true for both
      `undefined` and `""`). */
  predicate Given(s: Option<string>) {
    s.Some? && s.value != ""
  }

  /** JavaScript's `s || fallback` on an optional string: the given value,
      or `fallback` when it is absent or empty. */
  function Or(s: Option<string>, fallback: string): (r: string)
    ensures Given(s) ==> r == s.value
    ensures !Given(s) ==> r == fallback
  {
    if Given(s) then s.value else fallback
  }
}
